=== FILE: README.md ===
# Support bot advisor chain, modelled in Dafny

This project models the customer-support core of the `springaiadvisor` Spring AI
demo. That core is one chat turn of `SupportBotService`, run through a chain of
five advisors:

- `SupportSafetyAdvisor` (order 0) refuses abusive or blocked text with a
  canned reply.
- `CustomerContextAdvisor` (order 10) builds a per-customer context text.
  It then forwards the request unchanged.
- `SentimentAnalysisAdvisor` (order 20) labels the text angry, frustrated,
  positive or neutral.
- `TicketEscalationAdvisor` (order 30) saves an escalated ticket when the text
  holds a trigger phrase and a known customer id has been set.
- `ResponseFormattingAdvisor` (order 1000) passes responses through and
  observes their length in UTF-16 code units, as `String.length()` counts.

Around the chain the model also covers:

- the keyword and context functions of `KnowledgeBaseService`;
- the ticket tool (`TicketTools.createTicket`);
- the operations of `TicketService` and `CustomerService` over map-backed
  repositories;
- the `ConversationSession` record.

Everything is immutable data and pure functions. The advisors' instance fields
(`currentCustomerId`, `lastDetectedSentiment`, `lastCreatedTicket`) form an
explicit state record that one turn hands to the next. That makes it possible
to state the stale-state consequences of a refused turn. Java `null` becomes
`Option`. Exceptions become `Result` values (`ServiceError`, `KbError`).

Module layout:

- `wrappers.dfy` holds Option and Result.
- `text.dfy` holds ASCII case mapping, substring search and word lists.
- `numbers.dfy` holds Java `int` wrap-around and `Long.parseLong`/`String.valueOf`.
- `domain.dfy` holds the enums, entities and DTO records.
- `store.dfy` holds the repositories as maps.
- `exchange.dfy` holds the request and response shapes advisors see.
- There is one file per advisor.
- `pipeline.dfy` holds the order-sorted chain.
- `knowledge_base.dfy`, `support_bot.dfy`, `ticket_tools.dfy`,
  `ticket_service.dfy`, `customer_service.dfy` and `session.dfy` hold the
  services.

**Whole prompt scanned.** The safety, sentiment and escalation advisors scan
`prompt().getContents()`. The customer-context advisor reads only the customer
id, and the formatting advisor reads only the response. The
model takes the scanned text to be the composed system prompt followed by the user's
message. This holds on the first turn of a conversation, or whenever the chat
memory is empty: the memory advisor, which is left out, would otherwise add the
remembered turns (see "## Left out"). The built-in system prompt itself
contains "Escalate" and "helpful". Three consequences follow, all proved:

- A turn that gets past safety is never labelled neutral
  (`SupportBot.PassedTurnIsNeverNeutral`).
- A known customer gets a new escalation ticket on every such turn
  (`SupportBot.KnownCustomerAlwaysGetsTicket`).
- That ticket is always a "support" ticket of MEDIUM or HIGH priority
  (`SupportBot.ChatTicketIsSupport`). "escalate" is the tenth phrase in the
  trigger list, so the trigger is always one of the first ten. None of those
  names money, cancellation or the law. So "I want a refund" sent through
  `chat` never yields the billing ticket that `Escalation.WantARefund` shows
  for the bare text.

**Assumed chain contract.** Advisors run sorted by `getOrder()`, lowest first,
each wrapping the rest. This is the contract the model assumes of the Spring AI
dispatch, whose code is not part of this model.

- The formatting advisor (order 1000) is therefore the innermost wrapper, right
  around the model call. The program's own comments say the same:
  "Response formatting (runs last)" at `SupportBotService.java:105` and "Run
  last in the chain" at `ResponseFormattingAdvisor.java:32`.
- All five orders are distinct (`Pipeline.OrdersDistinct`), so no tie-break by
  name is needed.

**Categorisation example.** "explain" contains "plan" only as part of
"explain", which is not in the billing list. The code makes it `general`
(`KnowledgeBase.ExplainIsGeneral`). "explanation" does contain "plan" and is
billing (`KnowledgeBase.ExplanationIsBilling`).

**Reading the chat-level statements.** Statements about a whole chat turn follow
from `SupportBot.ChatRunsTurn` together with `SupportBot.BuiltRequestScan`:

- `ChatRunsTurn`: `Chat` on a successful search and a message with text is
  `Turn` on `BuiltRequest`. A blank message reaches no advisor
  (`SupportBot.BlankMessageRunsNoAdvisor`).
- `BuiltRequestScan`: that request scans as system prompt, then knowledge
  section, then message.

## Model

| member | source | states |
|---|---|---|
| Domain.PriorityNamed | src/main/java/com/example/advisor/supportbot/model/enums/TicketPriority.java:7-11 | `valueOf` yields a constant only for text that is exactly that constant's name |
| Domain.PriorityNameRoundTrip | src/main/java/com/example/advisor/supportbot/model/enums/TicketPriority.java:7-11 | name and constant correspond one to one: the name parses back to its constant, and only it does |
| Domain.UrgencyLevel | src/main/java/com/example/advisor/supportbot/model/enums/TicketPriority.java:8-11 | the urgency level is one more than the constant's position in declaration order: LOW 1, MEDIUM 2, HIGH 3, CRITICAL 4 |
| Domain.UrgencyRises | src/main/java/com/example/advisor/supportbot/model/enums/TicketPriority.java:3-11 | urgency rises strictly from LOW through MEDIUM and HIGH to CRITICAL |
| Domain.UrgencyInjective | src/main/java/com/example/advisor/supportbot/model/enums/TicketPriority.java:8-11 | two priorities share an urgency level exactly when they are the same priority |
| Domain.PlanPriorityLevel | src/main/java/com/example/advisor/supportbot/model/enums/CustomerPlan.java:8-10 | the plan's priority level is its position in declaration order: FREE 0, PREMIUM 1, ENTERPRISE 2 |
| Domain.PlanLevelRises | src/main/java/com/example/advisor/supportbot/model/enums/CustomerPlan.java:3-10 | support priority rises strictly from FREE through PREMIUM to ENTERPRISE |
| Domain.RequiresAttention | src/main/java/com/example/advisor/supportbot/model/enums/SentimentType.java:32-34 | frustrated and angry need attention; `Sentiment.AttentionIffNegative` ties it to the word lists |
| Domain.IsPaidCustomer | src/main/java/com/example/advisor/supportbot/model/entity/Customer.java:115-117 | any plan but FREE is paid; `Domain.DtoPaidAgreesWithEntity` ties it to the DTO |
| Domain.AnonymousRequest | src/main/java/com/example/advisor/supportbot/model/dto/ChatRequest.java:15-17 | a request with the message and neither customer nor session id; `SupportBot.SimpleChatIsAnonymous` states its effect |
| Domain.CustomerDtoFrom | src/main/java/com/example/advisor/supportbot/model/dto/CustomerDTO.java:18-20 | id, name, email, plan and company name are copied, and `isPaid` holds exactly for a plan above the free level |
| Domain.DtoPaidAgreesWithEntity | src/main/java/com/example/advisor/supportbot/model/entity/Customer.java:115-117 | the DTO's paid flag equals `isPaidCustomer` of the entity it came from |
| Domain.CustomerToDto | src/main/java/com/example/advisor/supportbot/service/CustomerService.java:109-116 | the DTO keeps the customer's id, name, email, plan and company name, and is paid exactly when the customer is |
| Domain.TicketToDto | src/main/java/com/example/advisor/supportbot/service/TicketService.java:130-141 | the DTO keeps every ticket field the DTO has |
| JavaNumbers.WrapInt32 | src/main/java/com/example/advisor/supportbot/model/entity/ConversationSession.java:149 | the `int` result lies in 32-bit range, is congruent to the exact value modulo 2^32, and equals it when in range |
| JavaNumbers.IncrementWrapsAtMax | src/main/java/com/example/advisor/supportbot/model/entity/ConversationSession.java:149 | `MAX_VALUE + 1` wraps to `MIN_VALUE` |
| JavaNumbers.ParseLong | src/main/java/com/example/advisor/supportbot/service/SupportBotService.java:144-148 | a parsed value is a `long`, from a text of an optional sign and at least one digit; a non-empty all-digit text parses to its value exactly when that value is a `long` |
| JavaNumbers.ParseLongSigned | src/main/java/com/example/advisor/supportbot/service/SupportBotService.java:144-148 | a sign or none, then a non-empty run of digits, parses to the signed value exactly when it is a `long`, and fails otherwise |
| JavaNumbers.LongToString | src/main/java/com/example/advisor/supportbot/service/SupportBotService.java:134 | a non-empty text that starts with '-' exactly for a negative number, and is all digits otherwise |
| JavaNumbers.ParseLongRoundTrip | src/main/java/com/example/advisor/supportbot/service/SupportBotService.java:134 | parsing what `String.valueOf(long)` writes gives back the same `long` |
| JavaNumbers.ParseLongRejectsNonDigit | src/main/java/com/example/advisor/supportbot/service/SupportBotService.java:144-148 | a text with a non-digit after the optional sign does not parse |
| Store.FindCustomer | src/main/java/com/example/advisor/supportbot/advisor/TicketEscalationAdvisor.java:144-147 | `findById` finds a customer exactly when its id is stored, and returns the stored one |
| Store.FindTicket | src/main/java/com/example/advisor/supportbot/service/TicketService.java:59-60 | `findById` finds a ticket exactly when its id is stored |
| Store.FindByEmail | src/main/java/com/example/advisor/supportbot/service/CustomerService.java:43-46 | a customer is found exactly when some stored customer has the email, and it is that stored customer |
| Store.InsertTicket | src/main/java/com/example/advisor/supportbot/advisor/TicketEscalationAdvisor.java:166 | saving a new ticket stores it under the next id and touches nothing else |
| Store.InsertTicketValid | src/main/java/com/example/advisor/supportbot/advisor/TicketEscalationAdvisor.java:166 | saving a stored customer's ticket keeps the store valid, under an id that was free, with exactly one ticket more |
| Store.InsertCustomer | src/main/java/com/example/advisor/supportbot/service/CustomerService.java:55-60 | saving a new customer stores it under the next id and leaves the tickets alone |
| Store.UpdateTicket | src/main/java/com/example/advisor/supportbot/service/TicketService.java:87-95 | saving a found ticket replaces it under its key, with no key added or removed |
| Store.UpdateCustomer | src/main/java/com/example/advisor/supportbot/service/CustomerService.java:77-84 | saving a found customer replaces it under its key, with no key added or removed |
| Exchange.ScannedText | src/main/java/com/example/advisor/supportbot/advisor/SupportSafetyAdvisor.java:88-93 | the scanned text is the prompt's contents, or "" when there is no prompt |
| Exchange.Contents | src/main/java/com/example/advisor/supportbot/advisor/SupportSafetyAdvisor.java:88-93 | a prompt's contents are its messages' texts in order; `Exchange.ConcatTextsSplit` locates each one |
| Exchange.ScanOfSystemAndUser | src/main/java/com/example/advisor/supportbot/service/SupportBotService.java:96-98 | a system-then-user request scans as the system text followed by the user text |
| Text.Lower | src/main/java/com/example/advisor/supportbot/advisor/SupportSafetyAdvisor.java:57 | ASCII lower-casing, character by character and length-preserving |
| Exchange.ConcatTextsSplit | src/main/java/com/example/advisor/supportbot/advisor/SupportSafetyAdvisor.java:88-93 | each message's text occurs in the contents, between the texts before it and those after it |
| Exchange.TextResponse | src/main/java/com/example/advisor/supportbot/advisor/SupportSafetyAdvisor.java:60-62 | a canned response carries exactly its text |
| Safety.AdviseCall | src/main/java/com/example/advisor/supportbot/advisor/SupportSafetyAdvisor.java:56-71 | the call path either forwards the identical request or answers with one of the two canned replies |
| Safety.AdviseCallSpec | src/main/java/com/example/advisor/supportbot/advisor/SupportSafetyAdvisor.java:56-71 | it refuses exactly when an abusive phrase or blocked word is a slice of the lower-cased prompt, answers with the abusive reply exactly when an abusive phrase is, and forwards exactly when neither is |
| Safety.AdviseStream | src/main/java/com/example/advisor/supportbot/advisor/SupportSafetyAdvisor.java:74-83 | the stream path forwards the identical request or emits exactly one fragment |
| Safety.StreamAgreesWithCall | src/main/java/com/example/advisor/supportbot/advisor/SupportSafetyAdvisor.java:74-83 | the stream short-circuits exactly when the call does, with the call's reply as its one fragment, and otherwise forwards the same request |
| Safety.AbusiveWins | src/main/java/com/example/advisor/supportbot/advisor/SupportSafetyAdvisor.java:60-67 | when both lists match, both paths give the abusive reply |
| Safety.MentionsAnyIffSlice | src/main/java/com/example/advisor/supportbot/advisor/SupportSafetyAdvisor.java:98-101 | the list check holds exactly when some lower-cased word is a contiguous slice of the text |
| Safety.ContainsAbusiveLanguage | src/main/java/com/example/advisor/supportbot/advisor/SupportSafetyAdvisor.java:98-101 | some abusive phrase, lower-cased, is contained in the message; `Safety.MentionsAnyIffSlice` restates it as a slice |
| Safety.ContainsBlockedContent | src/main/java/com/example/advisor/supportbot/advisor/SupportSafetyAdvisor.java:106-109 | some blocked word, lower-cased, is contained in the message; `Safety.MentionsAnyIffSlice` restates it as a slice |
| Safety.EmptyMentionsNothing | src/main/java/com/example/advisor/supportbot/advisor/SupportSafetyAdvisor.java:98-109 | the empty text matches no non-empty word |
| Safety.NoPromptForwards | src/main/java/com/example/advisor/supportbot/advisor/SupportSafetyAdvisor.java:88-93 | a request without a prompt is forwarded unchanged on both paths |
| Safety.InternallyIsBlocked | src/main/java/com/example/advisor/supportbot/advisor/SupportSafetyAdvisor.java:106-109 | "internally" gets the blocked reply: matching is by substring |
| Safety.HackerIsBlocked | src/main/java/com/example/advisor/supportbot/advisor/SupportSafetyAdvisor.java:106-109 | "hacker" gets the blocked reply |
| Safety.BlockedOnly | src/main/java/com/example/advisor/supportbot/advisor/SupportSafetyAdvisor.java:98-109 | a text around a blocked word, without 'o' or 'p', is blocked but not abusive |
| Safety.NoAbusiveIn | src/main/java/com/example/advisor/supportbot/advisor/SupportSafetyAdvisor.java:98-101 | a text without 'o' or 'p' holds no abusive phrase |
| Sentiment.AnalyzeIsStrongestMood | src/main/java/com/example/advisor/supportbot/advisor/SentimentAnalysisAdvisor.java:95-113 | the label is a mood the message shows, and no mood it shows ranks higher |
| Sentiment.AnalyzePrecedence | src/main/java/com/example/advisor/supportbot/advisor/SentimentAnalysisAdvisor.java:95-113 | each of the four labels as an if-and-only-if condition on the word lists, in the order angry, frustrated, positive, neutral |
| Sentiment.AttentionIffNegative | src/main/java/com/example/advisor/supportbot/model/enums/SentimentType.java:32-34 | the label needs attention exactly when an angry or frustrated word occurs |
| Sentiment.AnalyzeSentiment | src/main/java/com/example/advisor/supportbot/advisor/SentimentAnalysisAdvisor.java:95-113 | angry exactly when an angry word occurs; a label needing attention exactly when an angry or frustrated word occurs |
| Sentiment.AdviseCall | src/main/java/com/example/advisor/supportbot/advisor/SentimentAnalysisAdvisor.java:59-70 | the call forwards the identical request and remembers the strongest mood the scanned text shows |
| Sentiment.AdviseStream | src/main/java/com/example/advisor/supportbot/advisor/SentimentAnalysisAdvisor.java:73-80 | the stream forwards the identical request and remembers the strongest mood the scanned text shows |
| Sentiment.StreamAgreesWithCall | src/main/java/com/example/advisor/supportbot/advisor/SentimentAnalysisAdvisor.java:59-80 | both paths remember the same label, which is the analysis of this request whatever was remembered before |
| Sentiment.OnlyHateCanBeAngry | src/main/java/com/example/advisor/supportbot/advisor/SentimentAnalysisAdvisor.java:37-39 | in a text without c, d, f, g, o or v, an angry word occurs exactly when "hate" does |
| Sentiment.NoFrustratedWord | src/main/java/com/example/advisor/supportbot/advisor/SentimentAnalysisAdvisor.java:32-34 | a text lacking certain letters holds no frustrated word |
| Sentiment.NoPositiveWord | src/main/java/com/example/advisor/supportbot/advisor/SentimentAnalysisAdvisor.java:27-29 | a text lacking certain letters holds no positive word |
| Sentiment.WhateverIsAngry | src/main/java/com/example/advisor/supportbot/advisor/SentimentAnalysisAdvisor.java:126-128 | "whatever" is angry, because it contains "hate" |
| Sentiment.ThanksButTerribleIsFrustrated | src/main/java/com/example/advisor/supportbot/advisor/SentimentAnalysisAdvisor.java:97-108 | "thanks but this is terrible" is frustrated, not positive |
| Sentiment.WhatTimeIsItIsNeutral | src/main/java/com/example/advisor/supportbot/advisor/SentimentAnalysisAdvisor.java:95-113 | "what time is it" is neutral |
| Escalation.SetCustomerId | src/main/java/com/example/advisor/supportbot/advisor/TicketEscalationAdvisor.java:72-74 | only the stored id changes |
| Escalation.DetectEscalationTrigger | src/main/java/com/example/advisor/supportbot/advisor/TicketEscalationAdvisor.java:134-138 | a trigger is a listed phrase that the message contains, and there is none exactly when no phrase is contained |
| Escalation.TriggerIsFirstInListOrder | src/main/java/com/example/advisor/supportbot/advisor/TicketEscalationAdvisor.java:134-138 | the trigger is the contained phrase of least list index, not the earliest in the message |
| Escalation.DeterminePriority | src/main/java/com/example/advisor/supportbot/advisor/TicketEscalationAdvisor.java:179-190 | never LOW; CRITICAL exactly when the trigger holds "legal" or "lawyer" |
| Escalation.Description | src/main/java/com/example/advisor/supportbot/advisor/TicketEscalationAdvisor.java:158-160 | the description is the preamble with the trigger in double quotes, then the "Original message" heading and the whole scanned message, with nothing else |
| Escalation.CategorizeEscalation | src/main/java/com/example/advisor/supportbot/advisor/TicketEscalationAdvisor.java:195-203 | the category is billing, legal or support |
| Escalation.PriorityAndCategoryRules | src/main/java/com/example/advisor/supportbot/advisor/TicketEscalationAdvisor.java:179-203 | critical exactly for legal words; high exactly for refund, cancel, manager or supervisor without legal words; never low; billing exactly for refund, cancel or money; legal exactly for legal words without billing words |
| Escalation.CreateEscalationTicket | src/main/java/com/example/advisor/supportbot/advisor/TicketEscalationAdvisor.java:143-174 | an unknown customer gets nothing and the store is unchanged; otherwise one saved ticket, open and escalated, with the subject, description, priority and category derived from the trigger |
| Escalation.Escalate | src/main/java/com/example/advisor/supportbot/advisor/TicketEscalationAdvisor.java:94-106 | the customer id is kept; `Escalation.TicketIffTriggerAndCustomer`, `Escalation.NoStaleTicket` and `Escalation.TicketOfTrigger` state the ticket and the store |
| Escalation.AdviseCall | src/main/java/com/example/advisor/supportbot/advisor/TicketEscalationAdvisor.java:94-106 | the call forwards the identical request and leaves `Escalation.Escalate`'s outcome, so a ticket is saved exactly when a phrase occurs for a stored customer |
| Escalation.AdviseStream | src/main/java/com/example/advisor/supportbot/advisor/TicketEscalationAdvisor.java:109-119 | the stream forwards the identical request and leaves the same `Escalation.Escalate` outcome as the call |
| Escalation.TicketIffTriggerAndCustomer | src/main/java/com/example/advisor/supportbot/advisor/TicketEscalationAdvisor.java:99-103 | a ticket results exactly when a trigger occurs, an id is set and that customer exists |
| Escalation.NoStaleTicket | src/main/java/com/example/advisor/supportbot/advisor/TicketEscalationAdvisor.java:96-103 | the reported ticket is this invocation's own, new to the store; the store gains exactly it or nothing, stays valid, and keeps its customers |
| Escalation.KnownCustomerGetsTicket | src/main/java/com/example/advisor/supportbot/advisor/TicketEscalationAdvisor.java:99-103 | a trigger and a stored customer give a ticket new to the store and saved in it |
| Escalation.StreamAgreesWithCall | src/main/java/com/example/advisor/supportbot/advisor/TicketEscalationAdvisor.java:94-119 | both paths leave the same fields and store, and forward the same request |
| Escalation.RefundIsFirstTrigger | src/main/java/com/example/advisor/supportbot/advisor/TicketEscalationAdvisor.java:50-55 | in a text without certain letters that holds "want a refund", that phrase is the trigger |
| Escalation.TicketOfTrigger | src/main/java/com/example/advisor/supportbot/advisor/TicketEscalationAdvisor.java:99-157 | for a stored customer, no trigger gives no ticket, and a trigger gives a ticket whose priority, category and subject follow from the trigger |
| Escalation.EscalateMentionedGivesSupport | src/main/java/com/example/advisor/supportbot/advisor/TicketEscalationAdvisor.java:50-55 | a text holding "escalate" triggers a phrase whose ticket is "support" and MEDIUM or HIGH |
| Escalation.EarlyPhraseIsSupport | src/main/java/com/example/advisor/supportbot/advisor/TicketEscalationAdvisor.java:179-203 | each of the first ten phrases is "support"; "manager" and "supervisor" are HIGH and the rest MEDIUM |
| Escalation.WantARefund | src/main/java/com/example/advisor/supportbot/advisor/TicketEscalationAdvisor.java:94-106 | "I want a refund" from a stored customer gives a high-priority billing ticket |
| Escalation.RefundRules | src/main/java/com/example/advisor/supportbot/advisor/TicketEscalationAdvisor.java:179-203 | "want a refund" is high priority and billing |
| Escalation.MoneyBackIsMediumBilling | src/main/java/com/example/advisor/supportbot/advisor/TicketEscalationAdvisor.java:179-203 | "get my money back" is billing but only medium priority |
| CustomerContext.SetCustomerId | src/main/java/com/example/advisor/supportbot/advisor/CustomerContextAdvisor.java:56-58 | the stored id becomes the argument |
| CustomerContext.BuildCustomerContext | src/main/java/com/example/advisor/supportbot/advisor/CustomerContextAdvisor.java:124-151 | the text starts with the heading, greeting and plan lines, and ends with the plan's paragraph |
| CustomerContext.ParagraphsDistinct | src/main/java/com/example/advisor/supportbot/advisor/CustomerContextAdvisor.java:135-148 | each plan has its own paragraph |
| CustomerContext.CompanyLineIffCompany | src/main/java/com/example/advisor/supportbot/advisor/CustomerContextAdvisor.java:130-132 | the company line is present exactly when a company name is, right after the header |
| CustomerContext.ContextFor | src/main/java/com/example/advisor/supportbot/advisor/CustomerContextAdvisor.java:71-91 | a context is built exactly when an id is set and the customer exists, and it is that customer's text |
| CustomerContext.AddSystemContext | src/main/java/com/example/advisor/supportbot/advisor/CustomerContextAdvisor.java:114-119 | the request comes back unchanged |
| CustomerContext.AdviseCall | src/main/java/com/example/advisor/supportbot/advisor/CustomerContextAdvisor.java:71-91 | on every branch the original request is forwarded |
| CustomerContext.AdviseStream | src/main/java/com/example/advisor/supportbot/advisor/CustomerContextAdvisor.java:94-109 | on every branch the original request is forwarded |
| Formatting.LogResponse | src/main/java/com/example/advisor/supportbot/advisor/ResponseFormattingAdvisor.java:55-66 | nothing is observed exactly when a layer above the output is null; otherwise the text's length in UTF-16 code units, or 0 for a null text |
| Formatting.LogOfTextResponse | src/main/java/com/example/advisor/supportbot/advisor/ResponseFormattingAdvisor.java:60-61 | a response carrying a text of n characters is observed at between n and 2n code units, exactly n when no character lies beyond U+FFFF |
| Formatting.LogOfEmoji | src/main/java/com/example/advisor/supportbot/advisor/ResponseFormattingAdvisor.java:60-61 | a one-emoji reply (U+1F60A) is logged as 2, a surrogate pair |
| Text.Utf16Length | src/main/java/com/example/advisor/supportbot/advisor/ResponseFormattingAdvisor.java:61 | `String.length()`: between one and two units per character, equal to the character count exactly when none lies beyond U+FFFF |
| Text.Utf16LengthAppend | src/main/java/com/example/advisor/supportbot/advisor/ResponseFormattingAdvisor.java:61 | code units add up over concatenation |
| Formatting.AdviseCall | src/main/java/com/example/advisor/supportbot/advisor/ResponseFormattingAdvisor.java:36-44 | the rest of the chain's response is returned as is, with its observation |
| Formatting.Observe | src/main/java/com/example/advisor/supportbot/advisor/ResponseFormattingAdvisor.java:47-50 | at most one observation per fragment |
| Formatting.ObserveAppend | src/main/java/com/example/advisor/supportbot/advisor/ResponseFormattingAdvisor.java:47-50 | observation is per fragment: the log of two joined streams is the two logs joined |
| Formatting.ObserveAllWithOutput | src/main/java/com/example/advisor/supportbot/advisor/ResponseFormattingAdvisor.java:47-50 | a stream whose fragments all have output gives one observation per fragment |
| Formatting.AdviseStream | src/main/java/com/example/advisor/supportbot/advisor/ResponseFormattingAdvisor.java:47-50 | every fragment passes unchanged and in order, and each is observed on its own |
| Formatting.StreamOfOneAgreesWithCall | src/main/java/com/example/advisor/supportbot/advisor/ResponseFormattingAdvisor.java:36-50 | a one-fragment stream is passed and observed as the call path passes and observes that response |
| Pipeline.OrdersDistinct | src/main/java/com/example/advisor/supportbot/service/SupportBotService.java:100-105 | two advisors share an order exactly when they are the same advisor |
| Pipeline.OrderOf | src/main/java/com/example/advisor/supportbot/service/SupportBotService.java:100-105 | each advisor's `getOrder()`; `Pipeline.OrdersDistinct` shows no two agree |
| Pipeline.InsertByOrder | src/main/java/com/example/advisor/supportbot/service/SupportBotService.java:100-105 | inserting keeps the sequence sorted by order and adds exactly the one advisor |
| Pipeline.SortByOrder | src/main/java/com/example/advisor/supportbot/service/SupportBotService.java:100-105 | the sorted chain is a permutation of the registered advisors, sorted by order |
| Pipeline.SortedPermutationsEqual | src/main/java/com/example/advisor/supportbot/service/SupportBotService.java:100-105 | two order-sorted arrangements of the same advisors are equal |
| Pipeline.ExecutionOrderOfAnyRegistration | src/main/java/com/example/advisor/supportbot/service/SupportBotService.java:100-105 | however the five are registered, they run safety, context, sentiment, escalation, formatting |
| Pipeline.RegisteredRunsInExecutionOrder | src/main/java/com/example/advisor/supportbot/service/SupportBotService.java:100-105 | the registration in `chat` runs in that order |
| Pipeline.EnterCall | src/main/java/com/example/advisor/supportbot/service/SupportBotService.java:100-105 | on the way in only safety may answer, with a canned reply; every forward carries the same request; only sentiment and escalation change state |
| Pipeline.EnterStream | src/main/java/com/example/advisor/supportbot/service/SupportBotService.java:100-105 | on the way in only safety may emit, exactly one fragment; every forward carries the same request |
| Pipeline.EnterAgrees | src/main/java/com/example/advisor/supportbot/service/SupportBotService.java:100-105 | each advisor's way in leaves the same state and store on both paths and decides alike |
| Pipeline.LeaveCall | src/main/java/com/example/advisor/supportbot/advisor/ResponseFormattingAdvisor.java:36-44 | on the way out the response is unchanged and only formatting observes |
| Pipeline.LeaveStream | src/main/java/com/example/advisor/supportbot/advisor/ResponseFormattingAdvisor.java:47-50 | on the way out the fragments are unchanged and only formatting observes |
| Pipeline.CallChain | src/main/java/com/example/advisor/supportbot/service/SupportBotService.java:96-108 | the model, if called, gets the original request and its answer comes back unchanged; otherwise the answer is a canned reply; context ids are untouched |
| Pipeline.AroundCall | src/main/java/com/example/advisor/supportbot/service/SupportBotService.java:96-108 | the same for one advisor wrapped around the rest of the chain |
| Pipeline.StreamChain | src/main/java/com/example/advisor/supportbot/service/SupportBotService.java:96-108 | the model's fragments come back unchanged, or a short-circuit emits exactly one |
| Pipeline.AroundStream | src/main/java/com/example/advisor/supportbot/service/SupportBotService.java:96-108 | the same for one advisor wrapped around the rest of the chain |
| Pipeline.StreamAgreesWithCall | src/main/java/com/example/advisor/supportbot/service/SupportBotService.java:96-108 | on any chain both paths reach the model together and leave the same state and store; a short-circuited stream carries the call's reply |
| Pipeline.ChainStep | src/main/java/com/example/advisor/supportbot/service/SupportBotService.java:96-108 | a forwarding advisor's run is the rest of the chain's run plus its own way out |
| Pipeline.BlockedRunIsStale | src/main/java/com/example/advisor/supportbot/advisor/SupportSafetyAdvisor.java:60-67 | when safety answers, no other advisor runs: no model call, nothing observed, state and store as before |
| Pipeline.ForwardedRun | src/main/java/com/example/advisor/supportbot/service/SupportBotService.java:96-108 | when safety forwards, the model answers the original request, the sentiment is this request's, escalation's fields and store are this request's outcome, and formatting observed once |
| SupportBot.KnowledgeSection | src/main/java/com/example/advisor/supportbot/service/SupportBotService.java:81-82 | the section starts with the heading, the label and the category, and ends with a blank line and the context |
| SupportBot.EnhancedSystemPrompt | src/main/java/com/example/advisor/supportbot/service/SupportBotService.java:81-82 | the fixed system prompt followed by the knowledge section; `SupportBot.BuiltRequestScan` states how the advisors scan it |
| SupportBot.BuiltRequest | src/main/java/com/example/advisor/supportbot/service/SupportBotService.java:96-98 | the request the chain receives; `SupportBot.BuiltRequestScan` states what it scans as |
| SupportBot.LongValueOf | src/main/java/com/example/advisor/supportbot/service/SupportBotService.java:134 | `String.valueOf` of a possibly-null `Long`: "null" or the decimal text; `SupportBot.ChatWithCustomerUsesId` and `SupportBot.ChatWithNullCustomer` state its effect |
| SupportBot.ParseCustomerId | src/main/java/com/example/advisor/supportbot/service/SupportBotService.java:140-149 | absent for null or "", otherwise the answer of the ASCII-digit `Long.parseLong` model |
| SupportBot.ParseCustomerIdRoundTrip | src/main/java/com/example/advisor/supportbot/service/SupportBotService.java:133-135 | the decimal text of any `long` parses back to it |
| SupportBot.ParseCustomerIdRejects | src/main/java/com/example/advisor/supportbot/service/SupportBotService.java:144-148 | a text with a non-digit after the sign is no id |
| SupportBot.ConversationId | src/main/java/com/example/advisor/supportbot/service/SupportBotService.java:92-93 | the session id if given, even ""; else "customer-" and the raw id; else "anonymous" |
| SupportBot.AssignCustomer | src/main/java/com/example/advisor/supportbot/service/SupportBotService.java:85-89 | a parsed id goes to both advisors; no id changes nothing |
| SupportBot.BuiltRequestScan | src/main/java/com/example/advisor/supportbot/service/SupportBotService.java:81-98 | the advisors scan system prompt, then knowledge section, then message, under the turn's conversation id |
| SupportBot.Reply | src/main/java/com/example/advisor/supportbot/service/SupportBotService.java:110-120 | the reply carries the model text, the conversation id, the sentiment field, and a ticket id exactly when the escalation field holds a ticket |
| SupportBot.Turn | src/main/java/com/example/advisor/supportbot/service/SupportBotService.java:95-120 | the reply reports the fields the chain leaves, and the customer ids are the ones given |
| SupportBot.Chat | src/main/java/com/example/advisor/supportbot/service/SupportBotService.java:75-121 | a turn fails exactly when the knowledge search fails, with the wrapped message and nothing changed, or when the message has no text; a failed turn saves nothing, and a reply's session is the conversation id |
| SupportBot.ChatRunsTurn | src/main/java/com/example/advisor/supportbot/service/SupportBotService.java:75-121 | a successful search and a message with text lead to the turn on the request built from the search's context, after the id hand-over |
| SupportBot.BlankMessageRunsNoAdvisor | src/main/java/com/example/advisor/supportbot/service/SupportBotService.java:85-97 | a blank message after a successful search gets no reply, leaves sentiment, last ticket and store as they were, and still hands the id over |
| SupportBot.BlankExamples | src/main/java/com/example/advisor/supportbot/service/SupportBotService.java:97 | the empty text and one of spaces and line breaks are blank; a no-break space counts as text, as `Character.isWhitespace` says |
| SupportBot.SimpleChat | src/main/java/com/example/advisor/supportbot/service/SupportBotService.java:126-128 | fails exactly when the search fails or the message has no text, and a failure saves nothing |
| SupportBot.ChatWithCustomer | src/main/java/com/example/advisor/supportbot/service/SupportBotService.java:133-135 | fails exactly when the search fails or the message has no text, and a failure saves nothing |
| SupportBot.CustomerIdHandover | src/main/java/com/example/advisor/supportbot/service/SupportBotService.java:85-89 | after a successful search a parsed id reaches both advisors, even when the message is then refused as blank; a missing or unparsable one leaves the previous turn's ids |
| SupportBot.ChatWithCustomerUsesId | src/main/java/com/example/advisor/supportbot/service/SupportBotService.java:133-135 | `chatWithCustomer(m, n)` hands n to both advisors and, for a message with text, talks in "customer-n" |
| SupportBot.ChatWithNullCustomer | src/main/java/com/example/advisor/supportbot/service/SupportBotService.java:133-135 | a null id becomes "customer-null" for a message with text, and leaves the ids as they were |
| SupportBot.SimpleChatIsAnonymous | src/main/java/com/example/advisor/supportbot/service/SupportBotService.java:126-128 | `simpleChat` touches no id and, for a message with text, talks in "anonymous" |
| SupportBot.PromptMentionsTriggers | src/main/java/com/example/advisor/supportbot/service/SupportBotService.java:20-36 | the system prompt followed by anything holds an escalation phrase and a positive word |
| SupportBot.ScannedTextHoldsPromptWords | src/main/java/com/example/advisor/supportbot/service/SupportBotService.java:81-98 | whatever the message and context, the scanned text holds "escalate" and "helpful" |
| SupportBot.RefusedUserText | src/main/java/com/example/advisor/supportbot/advisor/SupportSafetyAdvisor.java:56-67 | a refused user text is refused after any system text |
| SupportBot.RefusedMessageBlocksChat | src/main/java/com/example/advisor/supportbot/service/SupportBotService.java:96-100 | a refused message is refused inside the whole built prompt |
| SupportBot.RefusedTurn | src/main/java/com/example/advisor/supportbot/service/SupportBotService.java:100-119 | a refused turn gives a canned reply, reports the previous sentiment and ticket, and changes nothing |
| SupportBot.PassedTurn | src/main/java/com/example/advisor/supportbot/service/SupportBotService.java:100-119 | a passed turn gives the model's text, this request's sentiment, and escalation's outcome |
| SupportBot.RefusedTurnReportsStaleState | src/main/java/com/example/advisor/supportbot/service/SupportBotService.java:110-119 | a refused message, under any system text, gives a canned reply with the previous turn's sentiment and ticket, and stores nothing |
| SupportBot.PassedTurnIsNeverNeutral | src/main/java/com/example/advisor/supportbot/service/SupportBotService.java:111 | a turn past safety never reports neutral |
| SupportBot.ScannedTextHoldsEscalate | src/main/java/com/example/advisor/supportbot/service/SupportBotService.java:20-36 | every built request's scan holds the trigger phrase "escalate" |
| SupportBot.KnownCustomerAlwaysGetsTicket | src/main/java/com/example/advisor/supportbot/service/SupportBotService.java:112-119 | a turn past safety with a stored customer always reports a new ticket |
| SupportBot.ChatTicketIsSupport | src/main/java/com/example/advisor/supportbot/service/SupportBotService.java:96-112 | a turn past safety with a stored customer reports a ticket of category "support" and priority MEDIUM or HIGH, never billing, legal or CRITICAL |
| KnowledgeBase.SearchArticles | src/main/java/com/example/advisor/supportbot/service/KnowledgeBaseService.java:33-43 | the store's documents as given, or its failure wrapped with the fixed prefix |
| KnowledgeBase.FilterByCategory | src/main/java/com/example/advisor/supportbot/service/KnowledgeBaseService.java:56-57 | only documents of the category are kept, never more than given |
| KnowledgeBase.FilterAppend | src/main/java/com/example/advisor/supportbot/service/KnowledgeBaseService.java:56-57 | filtering works document by document and keeps the order |
| KnowledgeBase.FilterMembership | src/main/java/com/example/advisor/supportbot/service/KnowledgeBaseService.java:56-57 | a document is kept exactly when it was there and has the category |
| KnowledgeBase.Take | src/main/java/com/example/advisor/supportbot/service/KnowledgeBaseService.java:58 | the first n elements, or all of them |
| KnowledgeBase.SearchByCategory | src/main/java/com/example/advisor/supportbot/service/KnowledgeBaseService.java:53-60 | asks for twice topK in Java `int` arithmetic, and returns at most topK of the category's documents, a prefix of the filtered results |
| KnowledgeBase.Texts | src/main/java/com/example/advisor/supportbot/service/KnowledgeBaseService.java:77 | the texts of the documents, one for one and in order |
| Text.Join | src/main/java/com/example/advisor/supportbot/service/KnowledgeBaseService.java:76-78 | `Collectors.joining`; `KnowledgeBase.ContextOfDocuments` states its separators and ends |
| KnowledgeBase.GetContextForQuery | src/main/java/com/example/advisor/supportbot/service/KnowledgeBaseService.java:69-79 | the fixed notice for no documents, else the texts joined by the separator; failures wrapped |
| KnowledgeBase.ContextOfDocuments | src/main/java/com/example/advisor/supportbot/service/KnowledgeBaseService.java:76-78 | n documents give exactly n-1 separators; the context starts with the first text and ends with the last |
| KnowledgeBase.SingleDocumentContext | src/main/java/com/example/advisor/supportbot/service/KnowledgeBaseService.java:76-78 | one document's context is its text alone |
| KnowledgeBase.CategorizeQuery | src/main/java/com/example/advisor/supportbot/service/KnowledgeBaseService.java:88-110 | the result is one of billing, troubleshooting, faq, general |
| KnowledgeBase.CategoryPrecedence | src/main/java/com/example/advisor/supportbot/service/KnowledgeBaseService.java:88-110 | each category as an if-and-only-if on the keyword groups, in the order billing, troubleshooting, faq, general |
| KnowledgeBase.CategorizeIgnoresCase | src/main/java/com/example/advisor/supportbot/service/KnowledgeBaseService.java:89 | a query and its lower-cased form get the same category |
| KnowledgeBase.ExplanationIsBilling | src/main/java/com/example/advisor/supportbot/service/KnowledgeBaseService.java:92-93 | "explanation" is billing, via "plan" |
| KnowledgeBase.HelpfulIsTroubleshooting | src/main/java/com/example/advisor/supportbot/service/KnowledgeBaseService.java:98-99 | "helpful" is troubleshooting, via "help" |
| KnowledgeBase.ExplainIsGeneral | src/main/java/com/example/advisor/supportbot/service/KnowledgeBaseService.java:88-110 | "explain" holds no keyword and is general |
| TicketTools.ParsePriority | src/main/java/com/example/advisor/supportbot/tool/TicketTools.java:55-59 | null gives MEDIUM; any other result is the constant named by the upper-cased text |
| Text.Upper | src/main/java/com/example/advisor/supportbot/tool/TicketTools.java:56 | ASCII upper-casing, character by character and length-preserving |
| TicketTools.ParsePriorityIgnoresCase | src/main/java/com/example/advisor/supportbot/tool/TicketTools.java:55-59 | any spelling whose upper-case form is a constant's name selects it |
| TicketTools.UnknownPriorityIsMedium | src/main/java/com/example/advisor/supportbot/tool/TicketTools.java:55-59 | text naming no constant gives MEDIUM, never an error |
| TicketTools.UrgentIsMedium | src/main/java/com/example/advisor/supportbot/tool/TicketTools.java:55-59 | "urgent" gives MEDIUM |
| TicketTools.AgentTicket | src/main/java/com/example/advisor/supportbot/tool/TicketTools.java:50-60 | the ticket is open and not escalated, in category "agent-created", with subject and description as given |
| TicketTools.CreateTicket | src/main/java/com/example/advisor/supportbot/tool/TicketTools.java:41-66 | an unknown customer gets the error line with the id and no change; a stored one gets a ticket under the next id and the success line naming it; customers are never touched |
| TicketTools.CreateTicketSavesOne | src/main/java/com/example/advisor/supportbot/tool/TicketTools.java:49-64 | exactly one ticket is added, under a fresh id, with the fields as given, and the store stays valid |
| TicketTools.ReplyNamesSavedTicket | src/main/java/com/example/advisor/supportbot/tool/TicketTools.java:63-64 | the id in the success line parses back to the saved ticket's id |
| TicketTools.UnknownCustomerSavesNothing | src/main/java/com/example/advisor/supportbot/tool/TicketTools.java:49-65 | an unknown customer gets the error line and the store is unchanged |
| TicketTools.EmptySubjectStillCreates | src/main/java/com/example/advisor/supportbot/tool/TicketTools.java:49-64 | an empty subject with priority "urgent" still saves a MEDIUM ticket |
| TicketService.NewTicket | src/main/java/com/example/advisor/supportbot/service/TicketService.java:41-47 | the new ticket is open, not escalated, with the given fields |
| TicketService.CreateTicket | src/main/java/com/example/advisor/supportbot/service/TicketService.java:36-52 | an unknown customer is `CustomerNotFound`; otherwise the open ticket is stored under the next id and its DTO returned |
| TicketService.CreateThenGet | src/main/java/com/example/advisor/supportbot/service/TicketService.java:36-62 | a created ticket reads back with the fields it was given |
| TicketService.CreateForUnknownCustomer | src/main/java/com/example/advisor/supportbot/service/TicketService.java:38-39 | an unknown customer gets `CustomerNotFound` |
| TicketService.CreateKeepsStoreValid | src/main/java/com/example/advisor/supportbot/service/TicketService.java:36-52 | creating keeps the store valid and adds exactly one ticket under a fresh id |
| TicketService.GetTicket | src/main/java/com/example/advisor/supportbot/service/TicketService.java:58-62 | `TicketNotFound` exactly for an unknown id, else the stored ticket's DTO |
| TicketService.TicketsForCustomer | src/main/java/com/example/advisor/supportbot/service/TicketService.java:68-72 | exactly the DTOs of the customer's tickets |
| TicketService.ActiveTicketsForCustomer | src/main/java/com/example/advisor/supportbot/repository/TicketRepository.java:37-38 | only tickets neither closed nor resolved |
| TicketService.ActiveIsFilteredFull | src/main/java/com/example/advisor/supportbot/repository/TicketRepository.java:37-38 | the active list is the full list cut down to active statuses |
| TicketService.EscalatedTickets | src/main/java/com/example/advisor/supportbot/service/TicketService.java:121-125 | only escalated tickets that are not closed |
| TicketService.EscalatedMembership | src/main/java/com/example/advisor/supportbot/repository/TicketRepository.java:43 | a ticket is listed exactly when it is escalated and not closed, so a resolved one still is |
| TicketService.UpdateStatus | src/main/java/com/example/advisor/supportbot/service/TicketService.java:87-95 | `TicketNotFound` exactly for an unknown id; otherwise only that ticket's status changes |
| TicketService.UpdatePriority | src/main/java/com/example/advisor/supportbot/service/TicketService.java:100-108 | `TicketNotFound` exactly for an unknown id; otherwise only that ticket's priority changes |
| TicketService.CloseTicket | src/main/java/com/example/advisor/supportbot/service/TicketService.java:113-115 | closing fails exactly for an unknown id and yields status CLOSED |
| TicketService.UpdateStatusKeepsStoreValid | src/main/java/com/example/advisor/supportbot/service/TicketService.java:87-95 | a status update keeps the store valid and touches no other ticket |
| TicketService.UpdatePriorityKeepsStoreValid | src/main/java/com/example/advisor/supportbot/service/TicketService.java:100-108 | a priority update keeps the store valid and touches no other ticket |
| TicketService.ReopenAfterClose | src/main/java/com/example/advisor/supportbot/service/TicketService.java:87-115 | there is no transition guard: a closed ticket can be reopened, as it was |
| TicketService.ClosedLeavesActiveList | src/main/java/com/example/advisor/supportbot/service/TicketService.java:78-82 | closing removes a ticket from the active list but not from the full list |
| CustomerService.GetCustomer | src/main/java/com/example/advisor/supportbot/service/CustomerService.java:33-37 | `CustomerNotFound` exactly for an unknown id, else the stored customer's DTO |
| CustomerService.GetCustomerByEmail | src/main/java/com/example/advisor/supportbot/service/CustomerService.java:43-46 | an empty answer, not an error, exactly when no customer has the email |
| CustomerService.CreateCustomer | src/main/java/com/example/advisor/supportbot/service/CustomerService.java:51-61 | refused exactly when the email is taken; otherwise the customer is stored under the next id, stamped active at the save time as `Customer.onCreate` does |
| CustomerService.CreateCustomerKeepsStoreValid | src/main/java/com/example/advisor/supportbot/service/CustomerService.java:51-61 | registering keeps the store valid, emails unique included, and adds exactly one key |
| CustomerService.CreatedCustomerIsFoundByEmail | src/main/java/com/example/advisor/supportbot/service/CustomerService.java:51-61 | a registered customer is found by its email, and registering the email again is refused |
| CustomerService.CreatedCustomerIsFoundById | src/main/java/com/example/advisor/supportbot/service/CustomerService.java:33-61 | a registered customer is read back under its new id as the DTO the registration returned |
| CustomerService.UpdateLastActive | src/main/java/com/example/advisor/supportbot/service/CustomerService.java:66-72 | `CustomerNotFound` exactly for an unknown id; otherwise only the activity time changes |
| CustomerService.UpgradePlan | src/main/java/com/example/advisor/supportbot/service/CustomerService.java:77-84 | `CustomerNotFound` exactly for an unknown id; otherwise only the plan changes, and the DTO is paid exactly when the plan is not FREE |
| CustomerService.CustomerUpdatesKeepStoreValid | src/main/java/com/example/advisor/supportbot/service/CustomerService.java:66-84 | plan and activity updates keep the store valid |
| CustomerService.DowngradeIsAllowed | src/main/java/com/example/advisor/supportbot/service/CustomerService.java:77-84 | ENTERPRISE to FREE goes through and the customer is no longer paid |
| CustomerService.AllCustomers | src/main/java/com/example/advisor/supportbot/service/CustomerService.java:90-94 | exactly the DTOs of the stored customers |
| CustomerService.CustomersByPlan | src/main/java/com/example/advisor/supportbot/service/CustomerService.java:100-104 | only customers on that plan |
| CustomerService.PlansPartitionCustomers | src/main/java/com/example/advisor/supportbot/service/CustomerService.java:100-104 | a plan's list is the full list cut down to that plan, and the three lists make up the full list |
| Session.NewSession | src/main/java/com/example/advisor/supportbot/model/entity/ConversationSession.java:32-47 | a new session has no messages, a neutral mood and is active |
| Session.OnCreate | src/main/java/com/example/advisor/supportbot/model/entity/ConversationSession.java:49-53 | start and last-message times become the save time, nothing else changes |
| Session.RecordMessage | src/main/java/com/example/advisor/supportbot/model/entity/ConversationSession.java:148-152 | the counter goes up by one with `int` wrap-around, the mood and time are the new ones, and nothing else changes |
| Session.EndSession | src/main/java/com/example/advisor/supportbot/model/entity/ConversationSession.java:157-160 | the session is inactive with an end time, and nothing else changes |
| Session.EndSessionIdempotent | src/main/java/com/example/advisor/supportbot/model/entity/ConversationSession.java:157-160 | ending twice is ending once, at the later time |
| Session.RecordAfterEnd | src/main/java/com/example/advisor/supportbot/model/entity/ConversationSession.java:148-160 | there is no guard: a message after the end still counts, and the session stays closed |
| Session.CounterWraps | src/main/java/com/example/advisor/supportbot/model/entity/ConversationSession.java:149 | a message at `MAX_VALUE` wraps the counter to `MIN_VALUE` |
| Session.RecordAll | src/main/java/com/example/advisor/supportbot/model/entity/ConversationSession.java:148-152 | a run of messages keeps ids, ticket and active flag |
| Session.RecordAllCounts | src/main/java/com/example/advisor/supportbot/model/entity/ConversationSession.java:148-152 | below the wrap-around, the counter counts the messages and the mood is the last message's |
| Session.FreshSessionCounts | src/main/java/com/example/advisor/supportbot/model/entity/ConversationSession.java:32-152 | a fresh session that has seen n messages reports n and is active |

## Left out

- **Memory advisor.** `SupportBotService` registers a `MessageChatMemoryAdvisor`
  (built with the default builder in `SupportBotConfiguration`). Its code
  belongs to Spring AI and is not part of this model, and the chain here holds
  only the five support advisors. With Spring AI's default order it would run
  before the safety advisor. It would add the conversation's remembered turns
  to the prompt that every advisor scans, so a blocked word or an escalation
  phrase from an earlier turn would still count on later turns.
  `SupportBot.BuiltRequestScan` and every chat-level `SupportBot` lemma about
  a turn hold for the first turn of a conversation, or with the memory empty.
  The window sizes (20 messages for the support bot, 100 and 6 elsewhere) are
  not modelled.
- **Failing model call.** The model is a total function, and `SupportBot.Reply`
  has no error path. In Java, when `.call()` throws, the exception leaves
  `chat`. By then the escalation advisor has already saved its ticket, and the
  sentiment and escalation fields are already set. That outcome is not
  modelled.
- JavaNumbers.ParseLong: ASCII digits only. `Long.parseLong` reads digits
  through `Character.digit`, so it also accepts other Unicode decimal digits,
  such as full-width ones. The model rejects them.
- **Chain dispatch.** The dispatch itself is Spring AI's. `Pipeline` states the
  order-sorted nesting it is assumed to perform.
- **Model call and search.** The language-model call and the vector-store
  similarity search are parameters: `model` and `search`. Embeddings and text
  splitting are not modelled.
- **Concurrency.** Advisors are shared singletons whose fields race under
  concurrent requests. Only sequential turns are modelled.
- **Streams.** A Reactor `Flux` is a finite sequence; laziness, back-pressure
  and cancellation are not modelled.
- **Clock, logging and console output.** Clocks (`LocalDateTime.now`) are
  parameters or are dropped: the reply's timestamp is not modelled. Logging and
  console output are dropped, except that the formatting advisor's observed
  length is kept as a value.
- **Case mapping.** `String.toLowerCase` and `toUpperCase` are ASCII case
  mapping here. Java's are locale- and Unicode-aware.
- **Ticket entity.** `Ticket.java` is not part of this model. The ticket's
  fields are those the services read and write. A ticket saved through
  `TicketService` or `TicketTools` is assumed not escalated, the Java default
  for a `boolean` field. Timestamps, conversation links and the customer
  object are held as ids or left out.
- **Result order.** Lists returned by the repositories are sets, because the
  database's order is not specified.
- **Exception text.** Exception messages of the services are not modelled.
  Only which error occurs, with its id or email, is modelled.
- **Blank message.** `SupportBotService.java:97` passes the message to the chat
  client's `user(String)`, which asserts Spring's `StringUtils.hasText` on it.
  The model follows that documented library behaviour, whose code is not part
  of this model: `SupportBot.Chat` fails with `BlankMessage` after the id
  hand-over and before any advisor runs. `Text.IsJavaWhitespace` lists the
  characters `Character.isWhitespace` accepts.
- **Null inputs.** A null subject, description, message or customer id passed
  to the services is not modelled. The Dafny types have no null there; the
  chat request's customer and session ids do keep their null cases.
- **Test expectations the code does not meet.** `TicketToolsTest` expects an
  "Invalid priority" error (lines 54-56) and a "subject cannot be empty" error
  (lines 65-67). The code produces neither. The model follows the code
  (`TicketTools.UrgentIsMedium`, `TicketTools.EmptySubjectStillCreates`).
- CustomerService.GetCustomerByEmail: requires a valid store. The unique email
  column is what makes the Java `Optional` answer well defined.
- **Web and configuration code.** Controllers, the JavaScript UI, configuration
  and seed beans, `Article` counters and the logging and prompt-enhancing
  advisors sit outside the support chain and are not modelled.
- Formatting.Observe: its own contract bounds only the length. Its contents are
  stated by `Formatting.ObserveAppend` and `Formatting.ObserveAllWithOutput`.
- Escalation.Escalate: its own contract states only that the customer id is
  kept. Its meaning is stated by `Escalation.TicketIffTriggerAndCustomer`,
  `Escalation.NoStaleTicket` and `Escalation.TicketOfTrigger`. Stating it on
  the function itself would make every proof about the chain that mentions it
  much more expensive.
- SupportBot.SimpleChat: states only when it fails and that a failure saves
  nothing. Its anonymous conversation is stated by
  `SupportBot.SimpleChatIsAnonymous`.
- SupportBot.ChatWithCustomer: states only when it fails and that a failure
  saves nothing. Its id hand-over is stated by `SupportBot.ChatWithCustomerUsesId`.

=== FILE: customer_context.dfy ===
/** `CustomerContextAdvisor` (order 10): when a customer id has been set and
    the customer exists, it builds a personalised context text for the
    system prompt. The step that would attach the text returns the request
    it was given, so every path forwards the original request. */
module CustomerContext {
  import opened Wrappers
  import opened Text
  import opened Exchange
  import opened Domain
  import opened Store

  const Order: int := 10

  /** The advisor's one instance field, `currentCustomerId`. */
  datatype ContextState = ContextState(currentCustomerId: Option<int>)

  const InitialState: ContextState := ContextState(None)

  function SetCustomerId(s: ContextState, id: int): (r: ContextState)
    ensures r.currentCustomerId == Some(id)
  {
    ContextState(Some(id))
  }

  /** The first three lines: heading, greeting and plan. */
  function Header(c: Customer): string {
    "## Customer Context\n" + "You are speaking with " + c.name + ".\n"
      + "- Customer Plan: " + PlanDisplayName(c.plan) + "\n"
  }

  const CompanyPrefix: string := "- Company: "

  /** The closing paragraph for each plan. */
  function PlanParagraph(p: CustomerPlan): string {
    match p
    case Enterprise => EnterpriseParagraph
    case Premium => PremiumParagraph
    case Free => FreeParagraph
  }

  const EnterpriseParagraph: string :=
    "\nAs an Enterprise customer, provide detailed technical responses and mention "
    + "dedicated support options. Address them professionally.\n"
  const PremiumParagraph: string :=
    "\nAs a Premium customer, acknowledge their subscription and highlight "
    + "premium features when relevant.\n"
  const FreeParagraph: string :=
    "\nThis is a free-tier user. Be helpful but also mention upgrade benefits "
    + "when they encounter limitations.\n"

  /** `buildCustomerContext`. */
  function BuildCustomerContext(c: Customer): (r: string)
    ensures |r| >= |Header(c)| + |PlanParagraph(c.plan)|
    ensures r[..|Header(c)|] == Header(c)
    ensures r[|r| - |PlanParagraph(c.plan)|..] == PlanParagraph(c.plan)
  {
    var company := if c.companyName.Some? then CompanyPrefix + c.companyName.value + "\n" else "";
    var r := Header(c) + company + PlanParagraph(c.plan);
    assert r[..|Header(c)|] == Header(c);
    assert r[|r| - |PlanParagraph(c.plan)|..] == PlanParagraph(c.plan);
    r
  }

  /** Each plan has its own paragraph, so the ending names the plan. */
  lemma ParagraphsDistinct(p: CustomerPlan, q: CustomerPlan)
    ensures PlanParagraph(p) == PlanParagraph(q) <==> p == q
  {
    assert |EnterpriseParagraph| == 133 && |PremiumParagraph| == 101 && |FreeParagraph| == 105;
  }

  /** The company line is there exactly when a company name is: the text
      for a customer with a company is the text without it, with the line
      "- Company: <name>" inserted right after the header. */
  lemma CompanyLineIffCompany(c: Customer)
    ensures var plain := BuildCustomerContext(c.(companyName := None));
      var h := |Header(c)|;
      && plain == Header(c) + PlanParagraph(c.plan)
      && (c.companyName.None? ==> BuildCustomerContext(c) == plain)
      && (c.companyName.Some? ==>
            BuildCustomerContext(c) == plain[..h] + CompanyPrefix + c.companyName.value + "\n" + plain[h..])
  {
    var plain := BuildCustomerContext(c.(companyName := None));
    assert Header(c.(companyName := None)) == Header(c);
    assert plain[..|Header(c)|] == Header(c);
    assert plain[|Header(c)|..] == PlanParagraph(c.plan);
  }

  /** The context text built on this call, if any: only with an id set and
      a stored customer behind it. */
  function ContextFor(s: ContextState, st: Store): (r: Option<string>)
    ensures r.Some? <==> s.currentCustomerId.Some? && s.currentCustomerId.value in st.customers
    ensures r.Some? ==> r.value == BuildCustomerContext(st.customers[s.currentCustomerId.value])
  {
    if s.currentCustomerId.None? then None
    else match FindCustomer(st, s.currentCustomerId.value)
      case None => None
      case Some(customer) => Some(BuildCustomerContext(customer))
  }

  /** `addSystemContext`: hands back the request it was given. */
  function AddSystemContext(req: ClientRequest, context: string): (r: ClientRequest)
    ensures r == req
  {
    req
  }

  /** `adviseCall`: no id, forward; unknown customer, forward; otherwise
      build the context and forward what `addSystemContext` returns. */
  function AdviseCall(s: ContextState, st: Store, req: ClientRequest): (r: CallStep)
    ensures r == Forward(req)
  {
    if s.currentCustomerId.None? then Forward(req)
    else match FindCustomer(st, s.currentCustomerId.value)
      case None => Forward(req)
      case Some(customer) => Forward(AddSystemContext(req, BuildCustomerContext(customer)))
  }

  function AdviseStream(s: ContextState, st: Store, req: ClientRequest): (r: StreamStep)
    ensures r == ForwardStream(req)
  {
    if s.currentCustomerId.None? then ForwardStream(req)
    else match FindCustomer(st, s.currentCustomerId.value)
      case None => ForwardStream(req)
      case Some(customer) => ForwardStream(AddSystemContext(req, BuildCustomerContext(customer)))
  }
}

=== FILE: customer_service.dfy ===
/** `CustomerService`: reading, registering and updating customers over the
    customer store. A missing customer or a taken email is an error value
    instead of an exception; the lists come back as sets because the order
    the database returns is not specified. The clock the service reads is a
    parameter. */
module CustomerService {
  import opened Wrappers
  import opened Domain
  import opened Store

  /** `getCustomer`. */
  function GetCustomer(st: Store, customerId: int): (r: Result<CustomerDto, ServiceError>)
    ensures r.Failure? <==> customerId !in st.customers
    ensures r.Failure? ==> r.error == CustomerNotFound(customerId)
    ensures r.Success? ==> r.value == CustomerToDto(st.customers[customerId])
  {
    match FindCustomer(st, customerId)
    case None => Failure(CustomerNotFound(customerId))
    case Some(c) => Success(CustomerToDto(c))
  }

  /** `getCustomerByEmail`: an unknown email is an empty answer, not an
      error. The store's emails are unique, so there is at most one. */
  function GetCustomerByEmail(st: Store, email: string): (r: Option<CustomerDto>)
    requires Valid(st)
    ensures r.Some? <==> ExistsByEmail(st, email)
    ensures r.Some? ==> r.value.email == email
    ensures r.Some? ==> exists id | id in st.customers :: r.value == CustomerToDto(st.customers[id])
  {
    match FindByEmail(st, email)
    case None => None
    case Some(c) => Some(CustomerToDto(c))
  }

  /** `createCustomer`: refused when the email is taken; otherwise a new
      customer under the next id. The first save runs the entity's
      `@PrePersist` hook, which stamps the last-active time with the save
      time `now`. */
  function CreateCustomer(st: Store, name: string, email: string, plan: CustomerPlan,
                          companyName: Option<string>, now: int): (r: Result<(CustomerDto, Store), ServiceError>)
    ensures r.Failure? <==> ExistsByEmail(st, email)
    ensures r.Failure? ==> r.error == DuplicateEmail(email)
    ensures r.Success? ==>
      && r.value.0 == CustomerDtoFrom(st.nextCustomerId, name, email, plan, companyName)
      && r.value.1.customers == st.customers[st.nextCustomerId :=
           Customer(st.nextCustomerId, name, email, plan, companyName, Some(now))]
      && r.value.1.tickets == st.tickets
  {
    if ExistsByEmail(st, email) then Failure(DuplicateEmail(email))
    else
      var saved := InsertCustomer(st, Customer(0, name, email, plan, companyName, Some(now)));
      Success((CustomerToDto(saved.0), saved.1))
  }

  /** Registering keeps the store valid, emails unique included. */
  lemma CreateCustomerKeepsStoreValid(st: Store, name: string, email: string, plan: CustomerPlan,
                                      companyName: Option<string>, now: int)
    requires Valid(st) && !ExistsByEmail(st, email)
    ensures var after := CreateCustomer(st, name, email, plan, companyName, now).value.1;
      && Valid(after)
      && after.customers.Keys == st.customers.Keys + {st.nextCustomerId}
  {
    var after := CreateCustomer(st, name, email, plan, companyName, now).value.1;
    assert st.nextCustomerId !in st.customers;
    forall a, b | a in after.customers && b in after.customers
      && after.customers[a].email == after.customers[b].email
      ensures a == b
    {
      if a != st.nextCustomerId && b != st.nextCustomerId {
        assert after.customers[a] == st.customers[a] && after.customers[b] == st.customers[b];
      }
    }
  }

  /** A registered customer is found by its email, and registering the
      same email again is refused. */
  lemma CreatedCustomerIsFoundByEmail(st: Store, name: string, email: string, plan: CustomerPlan,
                                      companyName: Option<string>, now: int)
    requires Valid(st) && !ExistsByEmail(st, email)
    ensures var created := CreateCustomer(st, name, email, plan, companyName, now).value;
      && Valid(created.1)
      && GetCustomerByEmail(created.1, email) == Some(created.0)
      && CreateCustomer(created.1, name, email, plan, companyName, now) == Failure(DuplicateEmail(email))
  {
    CreateCustomerKeepsStoreValid(st, name, email, plan, companyName, now);
    var created := CreateCustomer(st, name, email, plan, companyName, now).value;
    var id := st.nextCustomerId;
    assert created.1.customers[id].email == email;
    var found := FindByEmail(created.1, email);
    assert found.Some? && found.value.id == id;
  }

  /** A registered customer is read back by its new id as the DTO the
      registration returned. */
  lemma CreatedCustomerIsFoundById(st: Store, name: string, email: string, plan: CustomerPlan,
                                   companyName: Option<string>, now: int)
    requires !ExistsByEmail(st, email)
    ensures var created := CreateCustomer(st, name, email, plan, companyName, now).value;
      && created.0.id == st.nextCustomerId
      && GetCustomer(created.1, created.0.id) == Success(created.0)
  {
  }

  /** `updateLastActive`: stamps the customer with the current time `now`. */
  function UpdateLastActive(st: Store, customerId: int, now: int): (r: Result<Store, ServiceError>)
    ensures r.Failure? <==> customerId !in st.customers
    ensures r.Failure? ==> r.error == CustomerNotFound(customerId)
    ensures r.Success? ==>
      r.value.customers == st.customers[customerId := st.customers[customerId].(lastActiveAt := Some(now))]
      && r.value.tickets == st.tickets
  {
    match FindCustomer(st, customerId)
    case None => Failure(CustomerNotFound(customerId))
    case Some(c) => Success(UpdateCustomer(st, customerId, c.(lastActiveAt := Some(now))))
  }

  /** `upgradePlan`: sets the plan to the argument, whatever it was before;
      a move to a cheaper plan is allowed too. */
  function UpgradePlan(st: Store, customerId: int, plan: CustomerPlan): (r: Result<(CustomerDto, Store), ServiceError>)
    ensures r.Failure? <==> customerId !in st.customers
    ensures r.Failure? ==> r.error == CustomerNotFound(customerId)
    ensures r.Success? ==>
      && r.value.1.customers == st.customers[customerId := st.customers[customerId].(plan := plan)]
      && r.value.1.tickets == st.tickets
      && r.value.0.plan == plan
      && (r.value.0.isPaid <==> plan != Free)
  {
    match FindCustomer(st, customerId)
    case None => Failure(CustomerNotFound(customerId))
    case Some(c) =>
      var updated := c.(plan := plan);
      Success((CustomerToDto(updated), UpdateCustomer(st, customerId, updated)))
  }

  /** Changing a plan or the activity stamp keeps the store valid: ids and
      emails are untouched. */
  lemma CustomerUpdatesKeepStoreValid(st: Store, customerId: int, plan: CustomerPlan, now: int)
    requires Valid(st) && customerId in st.customers
    ensures Valid(UpgradePlan(st, customerId, plan).value.1)
    ensures Valid(UpdateLastActive(st, customerId, now).value)
  {
    var a := UpgradePlan(st, customerId, plan).value.1;
    var b := UpdateLastActive(st, customerId, now).value;
    forall id | id in st.customers
      ensures a.customers[id].email == st.customers[id].email && a.customers[id].id == st.customers[id].id
      ensures b.customers[id].email == st.customers[id].email && b.customers[id].id == st.customers[id].id
    {
    }
  }

  /** A downgrade from Enterprise to Free goes through and the customer is
      no longer paid. */
  lemma DowngradeIsAllowed(st: Store, customerId: int)
    requires customerId in st.customers && st.customers[customerId].plan == Enterprise
    ensures var r := UpgradePlan(st, customerId, Free);
      && r.Success? && !r.value.0.isPaid
      && r.value.1.customers[customerId].name == st.customers[customerId].name
      && r.value.1.customers[customerId].email == st.customers[customerId].email
  {
  }

  /** `getAllCustomers`. */
  function AllCustomers(st: Store): (r: set<CustomerDto>)
    ensures forall id | id in st.customers :: CustomerToDto(st.customers[id]) in r
    ensures forall d | d in r :: exists id | id in st.customers :: d == CustomerToDto(st.customers[id])
  {
    set id | id in st.customers :: CustomerToDto(st.customers[id])
  }

  /** `getCustomersByPlan`: the customers on exactly this plan. */
  function CustomersByPlan(st: Store, plan: CustomerPlan): (r: set<CustomerDto>)
    ensures forall d | d in r :: d.plan == plan
  {
    set id | id in st.customers && st.customers[id].plan == plan :: CustomerToDto(st.customers[id])
  }

  /** The plan list is the full list cut down to one plan, and the three
      plan lists together are the full list. */
  lemma PlansPartitionCustomers(st: Store)
    ensures forall p: CustomerPlan, d :: d in CustomersByPlan(st, p) <==> d in AllCustomers(st) && d.plan == p
    ensures AllCustomers(st) == CustomersByPlan(st, Free) + CustomersByPlan(st, Premium)
      + CustomersByPlan(st, Enterprise)
  {
  }
}

=== FILE: domain.dfy ===
/** The support bot's vocabulary: its four enums, the customer and ticket
    entities, and the records it hands across its API. Java `null` becomes
    `None`; timestamps are opaque integers supplied by the caller. */
module Domain {
  import opened Wrappers

  // ---------------------------------------------------------------------
  // Enums
  // ---------------------------------------------------------------------

  datatype SentimentType = Positive | Neutral | Frustrated | Angry

  function SentimentDisplayName(s: SentimentType): string {
    match s
    case Positive => "Positive"
    case Neutral => "Neutral"
    case Frustrated => "Frustrated"
    case Angry => "Angry"
  }

  /** `SentimentType.requiresAttention`: the two negative moods. */
  predicate RequiresAttention(s: SentimentType) {
    s == Frustrated || s == Angry
  }

  datatype TicketPriority = Low | Medium | High | Critical

  /** The constant's name, as `TicketPriority.name()` returns it. */
  function PriorityName(p: TicketPriority): (r: string)
    ensures |r| >= 3
  {
    match p
    case Low => "LOW"
    case Medium => "MEDIUM"
    case High => "HIGH"
    case Critical => "CRITICAL"
  }

  /** The constants in declaration order, which is `ordinal()` order. */
  const PrioritiesInOrder: seq<TicketPriority> := [Low, Medium, High, Critical]

  /** `getUrgencyLevel`: one more than the constant's position in
      declaration order, so urgency rises from LOW to CRITICAL. */
  function UrgencyLevel(p: TicketPriority): (r: nat)
    ensures 1 <= r <= |PrioritiesInOrder| && PrioritiesInOrder[r - 1] == p
  {
    match p
    case Low => 1
    case Medium => 2
    case High => 3
    case Critical => 4
  }

  /** `TicketPriority.valueOf`: the constant with exactly this name, or the
      `IllegalArgumentException` it throws for any other text. */
  function PriorityNamed(name: string): (r: Option<TicketPriority>)
    ensures r.Some? ==> PriorityName(r.value) == name
  {
    if name == "LOW" then Some(Low)
    else if name == "MEDIUM" then Some(Medium)
    else if name == "HIGH" then Some(High)
    else if name == "CRITICAL" then Some(Critical)
    else None
  }

  /** Names and constants correspond one to one. */
  lemma PriorityNameRoundTrip(p: TicketPriority, name: string)
    ensures PriorityNamed(PriorityName(p)) == Some(p)
    ensures PriorityNamed(name) == Some(p) <==> name == PriorityName(p)
  {
  }

  /** Urgency orders the priorities strictly, so no two share a level. */
  lemma UrgencyInjective(p: TicketPriority, q: TicketPriority)
    ensures UrgencyLevel(p) == UrgencyLevel(q) <==> p == q
  {
  }

  /** Urgency rises strictly with declaration order: LOW < MEDIUM < HIGH <
      CRITICAL. */
  lemma UrgencyRises(i: nat, j: nat)
    requires i < j < |PrioritiesInOrder|
    ensures UrgencyLevel(PrioritiesInOrder[i]) < UrgencyLevel(PrioritiesInOrder[j])
  {
  }

  datatype TicketStatus = Open | InProgress | WaitingCustomer | Resolved | Closed

  /** The statuses the active-ticket query excludes: `NOT IN ('CLOSED', 'RESOLVED')`. */
  predicate IsActiveStatus(s: TicketStatus) {
    s != Closed && s != Resolved
  }

  datatype CustomerPlan = Free | Premium | Enterprise

  function PlanDisplayName(p: CustomerPlan): string {
    match p
    case Free => "Free"
    case Premium => "Premium"
    case Enterprise => "Enterprise"
  }

  /** The plans in declaration order, which is `ordinal()` order. */
  const PlansInOrder: seq<CustomerPlan> := [Free, Premium, Enterprise]

  /** `getPriorityLevel`: the plan's position in declaration order, so the
      support priority rises from FREE to ENTERPRISE. */
  function PlanPriorityLevel(p: CustomerPlan): (r: nat)
    ensures r < |PlansInOrder| && PlansInOrder[r] == p
  {
    match p
    case Free => 0
    case Premium => 1
    case Enterprise => 2
  }

  /** The support priority rises strictly with the plan: FREE < PREMIUM <
      ENTERPRISE. */
  lemma PlanLevelRises(i: nat, j: nat)
    requires i < j < |PlansInOrder|
    ensures PlanPriorityLevel(PlansInOrder[i]) < PlanPriorityLevel(PlansInOrder[j])
  {
  }

  // ---------------------------------------------------------------------
  // Entities
  // ---------------------------------------------------------------------

  datatype Customer = Customer(
    id: int,
    name: string,
    email: string,
    plan: CustomerPlan,
    companyName: Option<string>,
    lastActiveAt: Option<int>)

  /** `Customer.isPaidCustomer`. */
  predicate IsPaidCustomer(c: Customer) {
    c.plan != Free
  }

  /** A support ticket. The entity class itself is not part of this model;
      its fields are the ones the services and the DTO read and write. */
  datatype Ticket = Ticket(
    id: int,
    customerId: int,
    subject: string,
    description: string,
    priority: TicketPriority,
    category: string,
    status: TicketStatus,
    escalated: bool)

  /** The exceptions the services throw, as values: `CustomerNotFoundException`,
      `TicketNotFoundException`, and the `IllegalArgumentException` for an
      email that is already taken. */
  datatype ServiceError =
    | CustomerNotFound(customerId: int)
    | TicketNotFound(ticketId: int)
    | DuplicateEmail(email: string)

  // ---------------------------------------------------------------------
  // Records
  // ---------------------------------------------------------------------

  datatype CustomerDto = CustomerDto(
    id: int,
    name: string,
    email: string,
    plan: CustomerPlan,
    companyName: Option<string>,
    isPaid: bool)

  /** `CustomerDTO.from`: the entity's fields, plus whether the plan is paid. */
  function CustomerDtoFrom(id: int, name: string, email: string, plan: CustomerPlan,
                           companyName: Option<string>): (r: CustomerDto)
    ensures r.id == id && r.name == name && r.email == email
    ensures r.plan == plan && r.companyName == companyName
    ensures r.isPaid <==> PlanPriorityLevel(plan) > 0
  {
    CustomerDto(id, name, email, plan, companyName, plan != Free)
  }

  /** `CustomerService.toDTO`. */
  function CustomerToDto(c: Customer): (r: CustomerDto)
    ensures r.id == c.id && r.name == c.name && r.email == c.email
    ensures r.plan == c.plan && r.companyName == c.companyName
    ensures r.isPaid <==> IsPaidCustomer(c)
  {
    CustomerDtoFrom(c.id, c.name, c.email, c.plan, c.companyName)
  }

  /** The DTO's paid flag agrees with the entity's own notion of paid. */
  lemma DtoPaidAgreesWithEntity(c: Customer)
    ensures CustomerToDto(c).isPaid == IsPaidCustomer(c)
  {
  }

  datatype TicketDto = TicketDto(
    id: int,
    subject: string,
    description: string,
    status: TicketStatus,
    priority: TicketPriority,
    category: string,
    escalated: bool)

  /** `TicketService.toDTO`: every field but the owning customer. */
  function TicketToDto(t: Ticket): (r: TicketDto)
    ensures r.id == t.id && r.status == t.status && r.priority == t.priority
    ensures r.subject == t.subject && r.description == t.description
    ensures r.category == t.category && r.escalated == t.escalated
  {
    TicketDto(t.id, t.subject, t.description, t.status, t.priority, t.category, t.escalated)
  }

  datatype ChatRequest = ChatRequest(
    message: string,
    customerId: Option<string>,
    sessionId: Option<string>)

  /** `ChatRequest.anonymous`. */
  function AnonymousRequest(message: string): ChatRequest {
    ChatRequest(message, None, None)
  }

  /** The reply of one chat turn; the timestamp is left out. */
  datatype ChatResponse = ChatResponse(
    message: Option<string>,
    sessionId: string,
    sentiment: SentimentType,
    ticketCreated: bool,
    ticketId: Option<int>)
}

=== FILE: escalation.dfy ===
/** `TicketEscalationAdvisor` (order 30): looks for the first escalation
    phrase, in list order, that the lower-cased prompt contains; when one is
    found and a customer id has been set, it saves an escalated ticket for
    that customer, if the customer exists. It always forwards the request
    untouched. */
module Escalation {
  import opened Wrappers
  import opened Text
  import opened Exchange
  import opened Domain
  import opened Store

  const Order: int := 30

  const EscalationPhrases: seq<string> :=
    ["speak to human", "talk to human", "human agent", "real person",
     "speak to someone", "talk to someone", "speak with someone",
     "manager", "supervisor", "escalate", "cancel my subscription",
     "cancel account", "want a refund", "need a refund", "get my money back",
     "close my account", "delete my account", "legal action", "lawyer"]

  /** The advisor's two instance fields. */
  datatype EscalationState = EscalationState(
    currentCustomerId: Option<int>,
    lastCreatedTicket: Option<Ticket>)

  const InitialState: EscalationState := EscalationState(None, None)

  /** `setCustomerId`: replaces the id and nothing else. */
  function SetCustomerId(s: EscalationState, id: int): (r: EscalationState)
    ensures r.currentCustomerId == Some(id) && r.lastCreatedTicket == s.lastCreatedTicket
  {
    s.(currentCustomerId := Some(id))
  }

  /** `detectEscalationTrigger`: the first phrase in list order that the
      message contains, which need not be the one occurring earliest in the
      message. */
  function DetectEscalationTrigger(message: string): (r: Option<string>)
    ensures r.Some? ==> r.value in EscalationPhrases && Contains(message, Lower(r.value))
    ensures r.None? <==> !MentionsAny(message, EscalationPhrases)
  {
    FirstMentionIffMentions(message, EscalationPhrases);
    match FirstMention(message, EscalationPhrases)
    case Some(k) => Some(EscalationPhrases[k])
    case None => None
  }

  /** The trigger is the phrase at the least list index whose phrase the
      message contains. */
  lemma TriggerIsFirstInListOrder(message: string, k: nat)
    requires k < |EscalationPhrases|
    requires Contains(message, Lower(EscalationPhrases[k]))
    requires forall j | 0 <= j < k :: !Contains(message, Lower(EscalationPhrases[j]))
    ensures DetectEscalationTrigger(message) == Some(EscalationPhrases[k])
  {
    var r := FirstMention(message, EscalationPhrases);
    assert r.Some? && r.value <= k;
  }

  /** `determinePriority`. */
  function DeterminePriority(trigger: string): (r: TicketPriority)
    ensures r != Low
    ensures r == Critical <==> Contains(trigger, "legal") || Contains(trigger, "lawyer")
  {
    if Contains(trigger, "legal") || Contains(trigger, "lawyer") then Critical
    else if Contains(trigger, "refund") || Contains(trigger, "cancel") then High
    else if Contains(trigger, "manager") || Contains(trigger, "supervisor") then High
    else Medium
  }

  /** `categorizeEscalation`. */
  function CategorizeEscalation(trigger: string): (r: string)
    ensures r == "billing" || r == "legal" || r == "support"
  {
    if Contains(trigger, "refund") || Contains(trigger, "cancel") || Contains(trigger, "money") then "billing"
    else if Contains(trigger, "legal") || Contains(trigger, "lawyer") then "legal"
    else "support"
  }

  /** Priority as a reading of the trigger: critical for legal words, high
      for refund, cancel, manager or supervisor, medium otherwise; and the
      category puts billing words before legal ones. */
  lemma PriorityAndCategoryRules(trigger: string)
    ensures DeterminePriority(trigger) == Critical <==>
      Contains(trigger, "legal") || Contains(trigger, "lawyer")
    ensures DeterminePriority(trigger) == High <==>
      !Contains(trigger, "legal") && !Contains(trigger, "lawyer")
      && (Contains(trigger, "refund") || Contains(trigger, "cancel")
          || Contains(trigger, "manager") || Contains(trigger, "supervisor"))
    ensures DeterminePriority(trigger) != Low
    ensures CategorizeEscalation(trigger) == "billing" <==>
      Contains(trigger, "refund") || Contains(trigger, "cancel") || Contains(trigger, "money")
    ensures CategorizeEscalation(trigger) == "legal" <==>
      !Contains(trigger, "refund") && !Contains(trigger, "cancel") && !Contains(trigger, "money")
      && (Contains(trigger, "legal") || Contains(trigger, "lawyer"))
  {
  }

  const SubjectPrefix: string := "Escalation Request: "

  const TriggerHeading: string := "Customer requested escalation.\n\nTrigger phrase: \""
  const MessageHeading: string := "\"\n\nOriginal message: "

  /** The ticket description: the preamble with the trigger in quotes, then a
      blank line and the whole message, and nothing else. */
  function Description(trigger: string, originalMessage: string): (r: string)
    ensures |r| == |TriggerHeading| + |trigger| + |MessageHeading| + |originalMessage|
    ensures r[..|TriggerHeading| + |trigger| + 1] == TriggerHeading + trigger + "\""
    ensures r[|r| - |originalMessage|..] == originalMessage
  {
    TriggerHeading + trigger + MessageHeading + originalMessage
  }

  /** `createEscalationTicket`: nothing for an unknown customer; otherwise
      one saved ticket, open and escalated. */
  function CreateEscalationTicket(st: Store, customerId: int, trigger: string,
                                  originalMessage: string): (r: (Option<Ticket>, Store))
    ensures r.0.None? <==> customerId !in st.customers
    ensures r.0.None? ==> r.1 == st
    ensures r.0.Some? ==> r.1.tickets == st.tickets[r.0.value.id := r.0.value]
    ensures r.0.Some? ==> r.1.customers == st.customers
    ensures r.0.Some? ==> var t := r.0.value;
      && t.customerId == customerId && t.status == Open && t.escalated
      && t.subject == SubjectPrefix + trigger
      && t.description == Description(trigger, originalMessage)
      && t.priority == DeterminePriority(trigger)
      && t.category == CategorizeEscalation(trigger)
  {
    match FindCustomer(st, customerId)
    case None => (None, st)
    case Some(customer) =>
      var ticket := Ticket(0, customer.id, SubjectPrefix + trigger,
                           Description(trigger, originalMessage),
                           DeterminePriority(trigger), CategorizeEscalation(trigger), Open, true);
      var (saved, st') := InsertTicket(st, ticket.(customerId := customerId));
      (Some(saved), st')
  }

  /** What one invocation leaves behind: the advisor's fields and the store. */
  datatype Outcome = Outcome(state: EscalationState, store: Store)

  /** The shared body of `adviseCall` and `adviseStream`: clear the last
      ticket, then create one if a trigger is found and an id is set. */
  function Escalate(s: EscalationState, st: Store, req: ClientRequest): (r: Outcome)
    ensures r.state.currentCustomerId == s.currentCustomerId
  {
    var message := Lower(ScannedText(req));
    var cleared := s.(lastCreatedTicket := None);
    var trigger := DetectEscalationTrigger(message);
    if trigger.Some? && s.currentCustomerId.Some? then
      var (ticket, st') := CreateEscalationTicket(st, s.currentCustomerId.value, trigger.value, message);
      Outcome(cleared.(lastCreatedTicket := ticket), st')
    else Outcome(cleared, st)
  }

  /** `adviseCall`: the request is forwarded untouched; a ticket is saved
      exactly when a trigger is found for a stored customer. */
  function AdviseCall(s: EscalationState, st: Store, req: ClientRequest): (r: (CallStep, Outcome))
    ensures r.0 == Forward(req)
    ensures r.1 == Escalate(s, st, req)
  {
    (Forward(req), Escalate(s, st, req))
  }

  /** `adviseStream`: the same decision, then the stream is forwarded. */
  function AdviseStream(s: EscalationState, st: Store, req: ClientRequest): (r: (StreamStep, Outcome))
    ensures r.0 == ForwardStream(req)
    ensures r.1 == Escalate(s, st, req)
  {
    (ForwardStream(req), Escalate(s, st, req))
  }

  /** A ticket results exactly when a trigger is found, an id is set and
      the customer exists. */
  lemma TicketIffTriggerAndCustomer(s: EscalationState, st: Store, req: ClientRequest)
    ensures Escalate(s, st, req).state.lastCreatedTicket.Some? <==>
      && MentionsAny(Lower(ScannedText(req)), EscalationPhrases)
      && s.currentCustomerId.Some?
      && s.currentCustomerId.value in st.customers
  {
  }

  /** The reported ticket is always this invocation's: it was not in the
      store before, and the store gains exactly it, or nothing. Customers
      are never touched. */
  lemma NoStaleTicket(s: EscalationState, st: Store, req: ClientRequest)
    requires Valid(st)
    ensures var r := Escalate(s, st, req);
      && r.store.customers == st.customers
      && Valid(r.store)
      && (r.state.lastCreatedTicket.None? ==> r.store == st)
      && (r.state.lastCreatedTicket.Some? ==>
            var t := r.state.lastCreatedTicket.value;
            t.id !in st.tickets && r.store.tickets == st.tickets[t.id := t]
            && |r.store.tickets| == |st.tickets| + 1)
  {
    var message := Lower(ScannedText(req));
    var trigger := DetectEscalationTrigger(message);
    if trigger.Some? && s.currentCustomerId.Some? && s.currentCustomerId.value in st.customers {
      var id := s.currentCustomerId.value;
      var ticket := Ticket(0, id, SubjectPrefix + trigger.value,
                           Description(trigger.value, message),
                           DeterminePriority(trigger.value), CategorizeEscalation(trigger.value), Open, true);
      InsertTicketValid(st, ticket);
    }
  }
  /** A trigger in the text and a stored customer behind the id give a
      ticket that is new to the store and saved in it. */
  lemma KnownCustomerGetsTicket(s: EscalationState, st: Store, req: ClientRequest)
    requires Valid(st)
    requires MentionsAny(Lower(ScannedText(req)), EscalationPhrases)
    requires s.currentCustomerId.Some? && s.currentCustomerId.value in st.customers
    ensures var r := Escalate(s, st, req);
      && r.state.lastCreatedTicket.Some?
      && r.state.lastCreatedTicket.value.id !in st.tickets
      && r.state.lastCreatedTicket.value.id in r.store.tickets
  {
    TicketIffTriggerAndCustomer(s, st, req);
    NoStaleTicket(s, st, req);
  }


  /** A text that holds "escalate" triggers one of the first ten phrases,
      none of which names money, cancellation or the law: the ticket is a
      support ticket of medium priority, or of high priority for "manager"
      and "supervisor", never billing, legal or critical. */
  lemma EscalateMentionedGivesSupport(message: string)
    requires Contains(message, "escalate")
    ensures var t := DetectEscalationTrigger(message);
      && t.Some?
      && CategorizeEscalation(t.value) == "support"
      && (DeterminePriority(t.value) == Medium || DeterminePriority(t.value) == High)
  {
    EscalateLowered();
    var r := FirstMention(message, EscalationPhrases);
    assert r.Some? && r.value <= 9;
    EarlyPhraseIsSupport(r.value);
  }

  /** "escalate" is the tenth phrase, and the prompt's "Escalate" lower-cases
      to it. */
  lemma EscalateLowered()
    ensures EscalationPhrases[9] == "escalate"
    ensures Lower(EscalationPhrases[9]) == "escalate" && Lower("Escalate") == "escalate"
  {
    assert EscalationPhrases[9] == "escalate";
    LowerOfNoUpper("escalate");
  }

  /** The first ten phrases, one by one. */
  lemma EarlyPhraseIsSupport(k: nat)
    requires k <= 9
    ensures CategorizeEscalation(EscalationPhrases[k]) == "support"
    ensures DeterminePriority(EscalationPhrases[k]) == (if k == 7 || k == 8 then High else Medium)
  {
    if k < 4 {
      PhrasesBeforeFour(k);
    } else if k < 7 {
      PhrasesFromFourToSeven(k);
    } else if k == 7 {
      assert EscalationPhrases[7] == "manager";
      SupportPhrase("manager");
      ContainsItself("manager");
    } else if k == 8 {
      assert EscalationPhrases[8] == "supervisor";
      SupportPhrase("supervisor");
      ContainsItself("supervisor");
    } else {
      assert EscalationPhrases[9] == "escalate";
      MediumPhrase("escalate");
    }
  }

  lemma PhrasesBeforeFour(k: nat)
    requires k < 4
    ensures CategorizeEscalation(EscalationPhrases[k]) == "support"
    ensures DeterminePriority(EscalationPhrases[k]) == Medium
  {
    var p := EscalationPhrases[k];
    assert p == "speak to human" || p == "talk to human" || p == "human agent" || p == "real person";
    if p == "speak to human" || p == "talk to human" {
      HumanLetters(p);
    } else {
      AgentOrPersonLetters(p);
    }
    MediumPhrase(p);
  }

  lemma HumanLetters(p: string)
    requires p == "speak to human" || p == "talk to human"
    ensures Lacks(p, 'f') && Lacks(p, 'y') && Lacks(p, 'v') && Lacks(p, 'c') && Lacks(p, 'g')
  {
  }

  lemma AgentOrPersonLetters(p: string)
    requires p == "human agent" || p == "real person"
    ensures Lacks(p, 'f') && Lacks(p, 'y') && Lacks(p, 'v') && Lacks(p, 'c')
    ensures Lacks(p, 'g') || (Lacks(p, 'l') && Lacks(p, 'r'))
  {
  }

  lemma PhrasesFromFourToSeven(k: nat)
    requires 4 <= k < 7
    ensures CategorizeEscalation(EscalationPhrases[k]) == "support"
    ensures DeterminePriority(EscalationPhrases[k]) == Medium
  {
    var p := EscalationPhrases[k];
    assert p == "speak to someone" || p == "talk to someone" || p == "speak with someone";
    SomeoneLetters(p);
    MediumPhrase(p);
  }

  /** The phrases about someone lack the letters `MediumPhrase` asks for. */
  lemma SomeoneLetters(p: string)
    requires p == "speak to someone" || p == "talk to someone" || p == "speak with someone"
    ensures Lacks(p, 'f') && Lacks(p, 'y') && Lacks(p, 'v') && Lacks(p, 'g') && Lacks(p, 'c')
  {
    OpeningLetters(p[..|p| - 8]);
    OpeningLetters(" someone");
    assert p == p[..|p| - 8] + " someone";
    LacksAppend(p[..|p| - 8], " someone");
  }

  lemma OpeningLetters(t: string)
    requires t == "speak to" || t == "talk to" || t == "speak with" || t == " someone"
    ensures Lacks(t, 'f') && Lacks(t, 'y') && Lacks(t, 'v') && Lacks(t, 'g') && Lacks(t, 'c')
  {
  }

  /** A phrase lacking the letters that would make "refund", "money",
      "lawyer", "legal" or "cancel" is a support trigger. */
  lemma SupportPhrase(p: string)
    requires Lacks(p, 'f') && Lacks(p, 'y')
    requires Lacks(p, 'g') || Lacks(p, 'l')
    requires Lacks(p, 'c') || Lacks(p, 'n')
    ensures CategorizeEscalation(p) == "support"
    ensures !Contains(p, "legal") && !Contains(p, "lawyer") && !Contains(p, "refund") && !Contains(p, "cancel")
  {
    NotContainsMissingChar(p, "refund", 'f');
    NotContainsMissingChar(p, "money", 'y');
    NotContainsMissingChar(p, "lawyer", 'y');
    if Lacks(p, 'g') { NotContainsMissingChar(p, "legal", 'g'); } else { NotContainsMissingChar(p, "legal", 'l'); }
    if Lacks(p, 'c') { NotContainsMissingChar(p, "cancel", 'c'); } else { NotContainsMissingChar(p, "cancel", 'n'); }
  }

  /** A support trigger lacking the letters of "manager" and "supervisor"
      is of medium priority. */
  lemma MediumPhrase(p: string)
    requires Lacks(p, 'f') && Lacks(p, 'y') && Lacks(p, 'v')
    requires Lacks(p, 'g') || Lacks(p, 'l')
    requires Lacks(p, 'c') || Lacks(p, 'n')
    requires Lacks(p, 'g') || Lacks(p, 'r')
    ensures CategorizeEscalation(p) == "support" && DeterminePriority(p) == Medium
  {
    SupportPhrase(p);
    NotContainsMissingChar(p, "supervisor", 'v');
    if Lacks(p, 'g') { NotContainsMissingChar(p, "manager", 'g'); } else { NotContainsMissingChar(p, "manager", 'r'); }
  }

  /** Both paths make the same decision and forward the same request. */
  lemma StreamAgreesWithCall(s: EscalationState, st: Store, req: ClientRequest)
    ensures AdviseStream(s, st, req).1 == AdviseCall(s, st, req).1
    ensures AdviseStream(s, st, req).0.request == AdviseCall(s, st, req).0.request
  {
  }

  // ---------------------------------------------------------------------
  // Examples
  // ---------------------------------------------------------------------

  /** Without these letters none of the first twelve phrases can match, so
      a message holding "want a refund" triggers it. */
  lemma RefundIsFirstTrigger(m: string)
    requires Lacks(m, 'c') && Lacks(m, 'h') && Lacks(m, 'k') && Lacks(m, 'l') && Lacks(m, 'm')
      && Lacks(m, 'p') && Lacks(m, 's')
    requires Contains(m, "want a refund")
    ensures DetectEscalationTrigger(m) == Some("want a refund")
  {
    NoPhraseBeforeSeven(m);
    NoPhraseFromSevenToTwelve(m);
    assert Lower("want a refund") == "want a refund";
    assert EscalationPhrases[12] == "want a refund";
    TriggerIsFirstInListOrder(m, 12);
  }

  lemma NoPhraseBeforeSeven(m: string)
    requires Lacks(m, 'h') && Lacks(m, 'k') && Lacks(m, 'l') && Lacks(m, 'p')
    ensures forall j | 0 <= j < 7 :: !Contains(m, Lower(EscalationPhrases[j]))
  {
    NoPhraseBeforeFour(m);
    NoPhraseFromFourToSeven(m);
  }

  lemma NoPhraseBeforeFour(m: string)
    requires Lacks(m, 'h') && Lacks(m, 'k') && Lacks(m, 'l') && Lacks(m, 'p')
    ensures forall j | 0 <= j < 4 :: !Contains(m, Lower(EscalationPhrases[j]))
  {
    NotContainsLowerCharAt(m, EscalationPhrases[0], 1);
    NotContainsLowerCharAt(m, EscalationPhrases[1], 3);
    NotContainsLowerCharAt(m, EscalationPhrases[2], 0);
    NotContainsLowerCharAt(m, EscalationPhrases[3], 3);
  }

  lemma NoPhraseFromFourToSeven(m: string)
    requires Lacks(m, 'k') && Lacks(m, 'p')
    ensures forall j | 4 <= j < 7 :: !Contains(m, Lower(EscalationPhrases[j]))
  {
    NotContainsLowerCharAt(m, EscalationPhrases[4], 1);
    NotContainsLowerCharAt(m, EscalationPhrases[5], 3);
    NotContainsLowerCharAt(m, EscalationPhrases[6], 1);
  }

  lemma NoPhraseFromSevenToTwelve(m: string)
    requires Lacks(m, 'c') && Lacks(m, 'm') && Lacks(m, 's')
    ensures forall j | 7 <= j < 12 :: !Contains(m, Lower(EscalationPhrases[j]))
  {
    NotContainsLowerCharAt(m, EscalationPhrases[7], 0);
    NotContainsLowerCharAt(m, EscalationPhrases[8], 0);
    NotContainsLowerCharAt(m, EscalationPhrases[9], 1);
    NotContainsLowerCharAt(m, EscalationPhrases[10], 0);
    NotContainsLowerCharAt(m, EscalationPhrases[11], 0);
  }

  /** "I want a refund" triggers "want a refund": high priority, billing. */
  lemma WantARefund(s: EscalationState, st: Store, req: ClientRequest)
    requires ScannedText(req) == "I want a refund"
    requires s.currentCustomerId.Some? && s.currentCustomerId.value in st.customers
    ensures var t := Escalate(s, st, req).state.lastCreatedTicket;
      t.Some? && t.value.priority == High && t.value.category == "billing"
      && t.value.subject == SubjectPrefix + "want a refund"
  {
    RefundSpelling(Lower(ScannedText(req)));
    RefundIsFirstTrigger(Lower(ScannedText(req)));
    TicketOfTrigger(s, st, req);
    RefundRules();
  }

  /** For a stored customer, no trigger means no ticket, and a trigger
      gives a ticket whose fields follow from the trigger alone. */
  lemma TicketOfTrigger(s: EscalationState, st: Store, req: ClientRequest)
    requires s.currentCustomerId.Some? && s.currentCustomerId.value in st.customers
    ensures var trigger := DetectEscalationTrigger(Lower(ScannedText(req)));
      var t := Escalate(s, st, req).state.lastCreatedTicket;
      && (trigger.None? ==> t.None?)
      && (trigger.Some? ==>
            && t.Some? && t.value.priority == DeterminePriority(trigger.value)
            && t.value.category == CategorizeEscalation(trigger.value)
            && t.value.subject == SubjectPrefix + trigger.value)
  {
  }

  lemma RefundSpelling(m: string)
    requires m == Lower("I want a refund")
    ensures Lacks(m, 'c') && Lacks(m, 'h') && Lacks(m, 'k') && Lacks(m, 'l') && Lacks(m, 'm') && Lacks(m, 'p') && Lacks(m, 's')
    ensures Contains(m, "want a refund")
  {
    assert m == "i want a refund";
    RefundLetters();
    RefundContained();
  }

  lemma RefundLetters()
    ensures var m := "i want a refund";
      Lacks(m, 'c') && Lacks(m, 'h') && Lacks(m, 'k') && Lacks(m, 'l') && Lacks(m, 'm') && Lacks(m, 'p') && Lacks(m, 's')
  {
  }

  lemma RefundContained()
    ensures Contains("i want a refund", "want a refund")
  {
    ContainsItself("want a refund");
    ContainsInfix("i ", "want a refund", "", "want a refund");
    assert "i " + "want a refund" + "" == "i want a refund";
  }

  lemma RefundRules()
    ensures DeterminePriority("want a refund") == High
    ensures CategorizeEscalation("want a refund") == "billing"
  {
    NotContainsMissingChar("want a refund", "legal", 'l');
    NotContainsMissingChar("want a refund", "lawyer", 'l');
    ContainsItself("refund");
    ContainsInfix("want a ", "refund", "", "refund");
    assert "want a " + "refund" + "" == "want a refund";
  }

  /** "get my money back" is billing, but only medium priority: "money"
      counts for the category and not for the priority. */
  lemma MoneyBackIsMediumBilling()
    ensures DeterminePriority("get my money back") == Medium
    ensures CategorizeEscalation("get my money back") == "billing"
  {
    MoneyBackMisses("get my money back");
    MoneyBackHoldsMoney();
  }

  lemma MoneyBackHoldsMoney()
    ensures Contains("get my money back", "money")
  {
    ContainsItself("money");
    ContainsInfix("get my ", "money", " back", "money");
    MoneyBackSpelling();
  }

  lemma MoneyBackSpelling()
    ensures "get my " + "money" + " back" == "get my money back"
  {
  }

  lemma MoneyBackMisses(t: string)
    requires Lacks(t, 'f') && Lacks(t, 'l') && Lacks(t, 'r') && Lacks(t, 's')
    ensures !Contains(t, "legal") && !Contains(t, "lawyer") && !Contains(t, "refund")
    ensures !Contains(t, "cancel") && !Contains(t, "manager") && !Contains(t, "supervisor")
  {
    NotContainsMissingChar(t, "legal", 'l');
    NotContainsMissingChar(t, "lawyer", 'l');
    NotContainsMissingChar(t, "refund", 'f');
    NotContainsMissingChar(t, "cancel", 'l');
    NotContainsMissingChar(t, "manager", 'r');
    NotContainsMissingChar(t, "supervisor", 's');
  }
}

=== FILE: exchange.dfy ===
/** The request and response shapes advisors see, in the part Spring AI
    exposes to them. A prompt is a list of messages whose `getContents()` is
    the concatenation of their texts; a response nests four possibly-null
    layers (chat response, result, output, text), each an `Option` here. */
module Exchange {
  import opened Wrappers

  datatype Role = SystemRole | UserRole

  datatype Message = Message(role: Role, text: string)

  datatype Prompt = Prompt(messages: seq<Message>)

  /** `Prompt.getContents()`: every message's text, in order, with nothing between. */
  function Contents(p: Prompt): string {
    ConcatTexts(p.messages)
  }

  function ConcatTexts(ms: seq<Message>): string
    decreases |ms|
  {
    if |ms| == 0 then "" else ms[0].text + ConcatTexts(ms[1..])
  }

  /** A `ChatClientRequest`: a possibly-null prompt and the conversation id
      the memory advisor is told to use. */
  datatype ClientRequest = ClientRequest(prompt: Option<Prompt>, conversationId: string)

  datatype AssistantMessage = AssistantMessage(text: Option<string>)

  datatype Generation = Generation(output: Option<AssistantMessage>)

  /** Spring AI's `ChatResponse`, reduced to the result it carries. */
  datatype ModelResponse = ModelResponse(result: Option<Generation>)

  /** A `ChatClientResponse`. */
  datatype ClientResponse = ClientResponse(chatResponse: Option<ModelResponse>)

  /** A response carrying the single assistant text `s`, as the safety
      advisor builds for a canned reply. */
  function TextResponse(s: string): (r: ClientResponse)
    ensures ResponseText(r) == Some(s)
  {
    ClientResponse(Some(ModelResponse(Some(Generation(Some(AssistantMessage(Some(s))))))))
  }

  /** The assistant message of a response, or `None` when any enclosing
      layer is null. */
  function ResponseOutput(r: ClientResponse): Option<AssistantMessage> {
    if r.chatResponse.Some? && r.chatResponse.value.result.Some? then
      r.chatResponse.value.result.value.output
    else None
  }

  /** `.call().content()`: the assistant text, `None` if it or any enclosing layer is null. */
  function ResponseText(r: ClientResponse): Option<string> {
    if ResponseOutput(r).Some? then ResponseOutput(r).value.text else None
  }

  /** The text every support advisor scans: the prompt's contents, or ""
      when there is no prompt. */
  function ScannedText(req: ClientRequest): (r: string)
    ensures req.prompt.None? ==> r == ""
    ensures req.prompt.Some? ==> r == ConcatTexts(req.prompt.value.messages)
  {
    if req.prompt.Some? then Contents(req.prompt.value) else ""
  }

  /** A two-message request, system text first. */
  function SystemAndUser(system: string, user: string, conversationId: string): (r: ClientRequest)
    ensures r.conversationId == conversationId
    ensures r.prompt.Some?
  {
    ClientRequest(Some(Prompt([Message(SystemRole, system), Message(UserRole, user)])), conversationId)
  }

  /** The advisors scan the two texts of such a request joined. */
  lemma ScanOfSystemAndUser(system: string, user: string, conversationId: string)
    ensures ScannedText(SystemAndUser(system, user, conversationId)) == system + user
  {
    var ms := [Message(SystemRole, system), Message(UserRole, user)];
    assert ms[1..][1..] == [];
    assert ConcatTexts(ms[1..]) == user + "";
  }

  /** What an advisor's call path does next: hand a request to the rest of
      the chain, or answer without calling it. */
  datatype CallStep = Forward(request: ClientRequest) | Respond(response: ClientResponse)

  /** What an advisor's stream path does next: hand a request to the rest of
      the chain, or emit these fragments without calling it. */
  datatype StreamStep = ForwardStream(request: ClientRequest) | Emit(fragments: seq<ClientResponse>)

  /** Every message's text occurs, in order, inside the prompt's contents. */
  lemma {:induction false} ConcatTextsSplit(ms: seq<Message>, i: nat)
    requires i < |ms|
    ensures ConcatTexts(ms) == ConcatTexts(ms[..i]) + ms[i].text + ConcatTexts(ms[i + 1..])
    decreases i
  {
    if i > 0 {
      ConcatTextsSplit(ms[1..], i - 1);
      assert ms[1..][..i - 1] == ms[1..i];
      assert ms[1..][i - 1] == ms[i];
      assert ms[1..][i..] == ms[i + 1..];
      assert ms[..i] == [ms[0]] + ms[1..i];
      ConcatTextsCons(ms[..i]);
    } else {
      assert ms[..0] == [];
      assert ms[1..] == ms[i + 1..];
    }
  }

  lemma ConcatTextsCons(ms: seq<Message>)
    requires |ms| > 0
    ensures ConcatTexts(ms) == ms[0].text + ConcatTexts(ms[1..])
  {
  }
}

=== FILE: formatting.dfy ===
/** `ResponseFormattingAdvisor` (order 1000): hands every response of the
    rest of the chain back unchanged, observing the length of its text on
    the way. The observation is what the advisor logs; the log itself is
    not modelled, the observed value is. */
module Formatting {
  import opened Wrappers
  import opened Exchange
  import opened Text

  const Order: int := 1000

  /** `logResponse`: `None` when the chat response, its result or its output
      is null (nothing is logged); otherwise the text's `length()` in UTF-16
      code units, 0 for a null text. */
  function LogResponse(resp: ClientResponse): (r: Option<nat>)
    ensures r.None? <==> ResponseOutput(resp).None?
    ensures r.Some? && ResponseText(resp).Some? ==> r.value == Utf16Length(ResponseText(resp).value)
    ensures r.Some? && ResponseText(resp).None? ==> r.value == 0
  {
    if resp.chatResponse.Some? && resp.chatResponse.value.result.Some?
       && resp.chatResponse.value.result.value.output.Some? then
      var content := resp.chatResponse.value.result.value.output.value.text;
      Some(if content.Some? then Utf16Length(content.value) else 0)
    else None
  }

  /** A response carrying text `s` is observed at its UTF-16 length, which is
      its number of characters exactly when none lies beyond U+FFFF. */
  lemma LogOfTextResponse(s: string)
    ensures LogResponse(TextResponse(s)).Some?
    ensures var n := LogResponse(TextResponse(s)).value;
      |s| <= n <= 2 * |s| && (n == |s| <==> forall i | 0 <= i < |s| :: s[i] as int < 0x1_0000)
  {
  }

  /** A reply of one emoji outside the Basic Multilingual Plane is logged as
      two code units, a surrogate pair. */
  lemma LogOfEmoji()
    ensures LogResponse(TextResponse("\U{1F60A}")) == Some(2)
  {
  }

  /** `adviseCall`: the response of the rest of the chain, returned as is,
      with what was observed about it. */
  function AdviseCall(downstream: ClientResponse): (r: (ClientResponse, Option<nat>))
    ensures r.0 == downstream
    ensures r.1 == LogResponse(downstream)
  {
    var logged := LogResponse(downstream);
    (downstream, logged)
  }

  /** The lengths observed over a stream: one entry per fragment that has an
      output, in fragment order. */
  function Observe(fragments: seq<ClientResponse>): (r: seq<nat>)
    ensures |r| <= |fragments|
    decreases |fragments|
  {
    if |fragments| == 0 then []
    else
      var rest := Observe(fragments[1..]);
      match LogResponse(fragments[0])
      case None => rest
      case Some(n) => [n] + rest
  }

  /** Observation is per fragment: splitting a stream splits its log. */
  lemma {:induction false} ObserveAppend(a: seq<ClientResponse>, b: seq<ClientResponse>)
    ensures Observe(a + b) == Observe(a) + Observe(b)
    decreases |a|
  {
    if |a| > 0 {
      assert (a + b)[1..] == a[1..] + b;
      assert (a + b)[0] == a[0];
      ObserveAppend(a[1..], b);
    } else {
      assert a + b == b;
    }
  }

  /** A stream whose every fragment has an output logs once per fragment. */
  lemma {:induction false} ObserveAllWithOutput(fragments: seq<ClientResponse>)
    requires forall i | 0 <= i < |fragments| :: ResponseOutput(fragments[i]).Some?
    ensures |Observe(fragments)| == |fragments|
    decreases |fragments|
  {
    if |fragments| > 0 {
      ObserveAllWithOutput(fragments[1..]);
    }
  }

  /** `adviseStream`: every fragment of the rest of the chain passes through
      unchanged and in order, each observed on its own. */
  function AdviseStream(downstream: seq<ClientResponse>): (r: (seq<ClientResponse>, seq<nat>))
    ensures r.0 == downstream
    ensures r.1 == Observe(downstream)
  {
    (downstream, Observe(downstream))
  }

  /** A one-fragment stream is observed exactly as the call path observes
      that response. */
  lemma StreamOfOneAgreesWithCall(resp: ClientResponse)
    ensures AdviseStream([resp]).0 == [AdviseCall(resp).0]
    ensures AdviseCall(resp).1.Some? ==> AdviseStream([resp]).1 == [AdviseCall(resp).1.value]
    ensures AdviseCall(resp).1.None? ==> AdviseStream([resp]).1 == []
  {
    assert [resp][1..] == [];
  }
}

=== FILE: knowledge_base.dfy ===
/** `KnowledgeBaseService`: keyword categorisation of a query, and the text
    and category handling around a vector-store similarity search. The
    search itself is a parameter: given a query and a result count it
    yields documents in similarity order, or fails with a message. */
module KnowledgeBase {
  import opened Wrappers
  import opened Text
  import opened JavaNumbers

  /** A Spring AI `Document`: its text and its metadata. */
  datatype Document = Document(text: string, metadata: map<string, string>)

  /** The vector store's `similaritySearch`, or its failure message. */
  type Search = (string, int) -> Result<seq<Document>, string>

  datatype KbError =
    | KnowledgeBaseError(message: string)  // `KnowledgeBaseException`
    | NegativeLimit                        // `Stream.limit` given a negative count

  const SearchFailurePrefix: string := "Failed to search knowledge base: "

  /** `searchArticles`: the store's answer, any failure rewrapped. */
  function SearchArticles(search: Search, query: string, topK: int): (r: Result<seq<Document>, KbError>)
    ensures r.Success? <==> search(query, topK).Success?
    ensures r.Success? ==> r.value == search(query, topK).value
    ensures r.Failure? ==>
      r.error == KnowledgeBaseError(SearchFailurePrefix + search(query, topK).error)
  {
    match search(query, topK)
    case Success(documents) => Success(documents)
    case Failure(message) => Failure(KnowledgeBaseError(SearchFailurePrefix + message))
  }

  // ---------------------------------------------------------------------
  // Category filtering
  // ---------------------------------------------------------------------

  const CategoryKey: string := "category"

  /** `category.equals(doc.getMetadata().get("category"))`: a missing key
      reads as null, which equals no category. */
  predicate HasCategory(d: Document, category: string) {
    CategoryKey in d.metadata && d.metadata[CategoryKey] == category
  }

  /** The documents of one category, in their original order. */
  function FilterByCategory(docs: seq<Document>, category: string): (r: seq<Document>)
    ensures |r| <= |docs|
    ensures forall i | 0 <= i < |r| :: HasCategory(r[i], category)
    decreases |docs|
  {
    if |docs| == 0 then []
    else if HasCategory(docs[0], category) then [docs[0]] + FilterByCategory(docs[1..], category)
    else FilterByCategory(docs[1..], category)
  }

  /** Filtering is done document by document, so it keeps the order. */
  lemma {:induction false} FilterAppend(a: seq<Document>, b: seq<Document>, category: string)
    ensures FilterByCategory(a + b, category) == FilterByCategory(a, category) + FilterByCategory(b, category)
    decreases |a|
  {
    if |a| == 0 {
      assert a + b == b;
    } else {
      assert (a + b)[0] == a[0];
      assert (a + b)[1..] == a[1..] + b;
      FilterAppend(a[1..], b, category);
    }
  }

  /** A document survives exactly when it was there and has the category. */
  lemma {:induction false} FilterMembership(docs: seq<Document>, category: string, d: Document)
    ensures d in FilterByCategory(docs, category) <==> d in docs && HasCategory(d, category)
    decreases |docs|
  {
    if |docs| > 0 {
      FilterMembership(docs[1..], category, d);
      assert docs == [docs[0]] + docs[1..];
    }
  }

  /** `Stream.limit(n)`: the first `n` elements, or all of them. */
  function Take<T>(s: seq<T>, n: nat): (r: seq<T>)
    ensures |r| == if n < |s| then n else |s|
    ensures forall i | 0 <= i < |r| :: r[i] == s[i]
  {
    if n < |s| then s[..n] else s
  }

  /** `searchByCategory`: ask for twice as many documents (in Java `int`
      arithmetic), keep those of the category in order, return at most
      `topK` of them. */
  function SearchByCategory(search: Search, query: string, category: string, topK: int)
    : (r: Result<seq<Document>, KbError>)
    requires IsInt32(topK)
    ensures r.Failure? <==> search(query, WrapInt32(topK * 2)).Failure? || topK < 0
    ensures r.Success? ==> 0 <= |r.value| <= topK
    ensures r.Success? ==> forall i | 0 <= i < |r.value| :: HasCategory(r.value[i], category)
    ensures r.Success? ==>
      var kept := FilterByCategory(search(query, WrapInt32(topK * 2)).value, category);
      |r.value| == (if topK < |kept| then topK else |kept|) && r.value == kept[..|r.value|]
  {
    match SearchArticles(search, query, WrapInt32(topK * 2))
    case Failure(e) => Failure(e)
    case Success(results) =>
      if topK < 0 then Failure(NegativeLimit)
      else Success(Take(FilterByCategory(results, category), topK))
  }

  // ---------------------------------------------------------------------
  // Context text
  // ---------------------------------------------------------------------

  const NoInformation: string := "No relevant information found in the knowledge base."

  const DocumentSeparator: string := "\n\n---\n\n"

  function Texts(docs: seq<Document>): (r: seq<string>)
    ensures |r| == |docs|
    ensures forall i | 0 <= i < |docs| :: r[i] == docs[i].text
  {
    seq(|docs|, i requires 0 <= i < |docs| => docs[i].text)
  }

  /** `getContextForQuery`: the fixed notice for no documents, otherwise
      the document texts in search order with a separator between
      neighbours. */
  function GetContextForQuery(search: Search, query: string, topK: int): (r: Result<string, KbError>)
    ensures r.Failure? <==> search(query, topK).Failure?
    ensures r.Failure? ==> r.error == KnowledgeBaseError(SearchFailurePrefix + search(query, topK).error)
    ensures r.Success? && |search(query, topK).value| == 0 ==> r.value == NoInformation
    ensures r.Success? && |search(query, topK).value| > 0 ==>
      r.value == Join(Texts(search(query, topK).value), DocumentSeparator)
  {
    match SearchArticles(search, query, topK)
    case Failure(e) => Failure(e)
    case Success(documents) =>
      if |documents| == 0 then Success(NoInformation)
      else Success(Join(Texts(documents), DocumentSeparator))
  }

  /** n found documents give their texts and exactly n - 1 separators: the
      context starts with the first text, ends with the last, and is as
      long as the texts plus the separators. */
  lemma ContextOfDocuments(search: Search, query: string, topK: int)
    requires search(query, topK).Success? && |search(query, topK).value| > 0
    ensures var docs := search(query, topK).value;
      var context := GetContextForQuery(search, query, topK).value;
      && |context| == TotalLength(Texts(docs)) + (|docs| - 1) * |DocumentSeparator|
      && |docs[0].text| <= |context| && |docs[|docs| - 1].text| <= |context|
      && context[..|docs[0].text|] == docs[0].text
      && context[|context| - |docs[|docs| - 1].text|..] == docs[|docs| - 1].text
  {
    var docs := search(query, topK).value;
    JoinLength(Texts(docs), DocumentSeparator);
    JoinEnds(Texts(docs), DocumentSeparator);
  }

  /** One document's context is its text alone. */
  lemma SingleDocumentContext(search: Search, query: string, topK: int)
    requires search(query, topK).Success? && |search(query, topK).value| == 1
    ensures GetContextForQuery(search, query, topK) == Success(search(query, topK).value[0].text)
  {
  }

  // ---------------------------------------------------------------------
  // Categorisation
  // ---------------------------------------------------------------------

  const BillingWords: seq<string> :=
    ["bill", "price", "cost", "subscription", "payment", "refund", "cancel", "upgrade",
     "downgrade", "invoice", "charge", "plan"]

  const TroubleshootingWords: seq<string> :=
    ["error", "not working", "problem", "issue", "bug", "crash", "slow", "loading",
     "fail", "help", "fix", "broken"]

  const FaqWords: seq<string> :=
    ["how to", "what is", "can i", "how do", "where", "feature", "capability", "support",
     "does it", "is there"]

  const Categories: set<string> := {"billing", "troubleshooting", "faq", "general"}

  /** `categorizeQuery`: the first keyword group the lower-cased query
      contains decides, in the order billing, troubleshooting, faq. */
  function CategorizeQuery(query: string): (r: string)
    ensures r in Categories
  {
    var q := Lower(query);
    if ContainsAny(q, BillingWords) then "billing"
    else if ContainsAny(q, TroubleshootingWords) then "troubleshooting"
    else if ContainsAny(q, FaqWords) then "faq"
    else "general"
  }

  /** Each category, as a condition on the lower-cased query. */
  lemma CategoryPrecedence(query: string)
    ensures var q := Lower(query);
      && (CategorizeQuery(query) == "billing" <==> ContainsAny(q, BillingWords))
      && (CategorizeQuery(query) == "troubleshooting" <==>
            !ContainsAny(q, BillingWords) && ContainsAny(q, TroubleshootingWords))
      && (CategorizeQuery(query) == "faq" <==>
            !ContainsAny(q, BillingWords) && !ContainsAny(q, TroubleshootingWords) && ContainsAny(q, FaqWords))
      && (CategorizeQuery(query) == "general" <==>
            !ContainsAny(q, BillingWords) && !ContainsAny(q, TroubleshootingWords) && !ContainsAny(q, FaqWords))
  {
  }

  /** Case does not matter: a query and its lower-cased form fall in the
      same category. */
  lemma CategorizeIgnoresCase(query: string)
    ensures CategorizeQuery(Lower(query)) == CategorizeQuery(query)
  {
    LowerIdempotent(query);
  }

  /** Substring matching: "explanation" holds "plan" and is about billing. */
  lemma ExplanationIsBilling()
    ensures CategorizeQuery("explanation") == "billing"
  {
    LowerOfNoUpper("explanation");
    ContainsItself("plan");
    ContainsInfix("ex", "plan", "ation", "plan");
    assert "ex" + "plan" + "ation" == "explanation";
    assert BillingWords[11] == "plan";
  }

  /** ... and "helpful" holds "help", so it reads as troubleshooting. */
  lemma HelpfulIsTroubleshooting()
    ensures CategorizeQuery("helpful") == "troubleshooting"
  {
    LowerOfNoUpper("helpful");
    HelpfulLetters();
    NoBillingWord("helpful");
    ContainsItself("help");
    ContainsInfix("", "help", "ful", "help");
    assert "" + "help" + "ful" == "helpful";
    assert TroubleshootingWords[9] == "help";
  }

  lemma HelpfulLetters()
    ensures var m := "helpful";
      Lacks(m, 'a') && Lacks(m, 'b') && Lacks(m, 'c') && Lacks(m, 'd') && Lacks(m, 'g') && Lacks(m, 'i') && Lacks(m, 'r') && Lacks(m, 's')
  {
  }

  /** "explain" holds no keyword ("plai" is not "plan"): it is general. */
  lemma ExplainIsGeneral()
    ensures CategorizeQuery("explain") == "general"
  {
    LowerOfNoUpper("explain");
    ExplainLetters();
    NoPlanInExplain();
    NoBillingWordBut("explain");
    NoTroubleshootingWord("explain");
    NoFaqWord("explain");
  }

  lemma ExplainLetters()
    ensures var m := "explain";
      && Lacks(m, 'b') && Lacks(m, 'c') && Lacks(m, 'd') && Lacks(m, 'f') && Lacks(m, 'h') && Lacks(m, 'o')
      && Lacks(m, 'r') && Lacks(m, 's') && Lacks(m, 'u') && Lacks(m, 'v') && Lacks(m, 'y')
  {
  }

  lemma NoPlanInExplain()
    ensures !Contains("explain", "plan")
  {
    assert !ContainsFrom("explain", "plan", 3);
    assert !ContainsFrom("explain", "plan", 2);
    assert !ContainsFrom("explain", "plan", 1);
  }

  /** Without these letters a text holds no billing keyword. */
  lemma NoBillingWord(m: string)
    requires Lacks(m, 'a') && Lacks(m, 'b') && Lacks(m, 'c') && Lacks(m, 'd') && Lacks(m, 'g') && Lacks(m, 'i')
    requires Lacks(m, 'r') && Lacks(m, 's')
    ensures !ContainsAny(m, BillingWords)
  {
    NotContainsMissingChar(m, "plan", 'a');
    NoBillingWordBut(m);
  }

  /** ... and without fewer of them, none but possibly "plan". */
  lemma NoBillingWordBut(m: string)
    requires Lacks(m, 'b') && Lacks(m, 'c') && Lacks(m, 'd') && Lacks(m, 'r') && Lacks(m, 's')
    requires Lacks(m, 'y') || Lacks(m, 'a')
    requires Lacks(m, 'u') || Lacks(m, 'g')
    requires Lacks(m, 'v') || Lacks(m, 'i')
    requires !Contains(m, "plan")
    ensures !ContainsAny(m, BillingWords)
  {
    NotContainsMissingChar(m, "bill", 'b');
    NotContainsMissingChar(m, "price", 'r');
    NotContainsMissingChar(m, "cost", 'c');
    NotContainsMissingChar(m, "subscription", 's');
    if Lacks(m, 'y') { NotContainsMissingChar(m, "payment", 'y'); } else { NotContainsMissingChar(m, "payment", 'a'); }
    NotContainsMissingChar(m, "refund", 'r');
    NotContainsMissingChar(m, "cancel", 'c');
    if Lacks(m, 'u') { NotContainsMissingChar(m, "upgrade", 'u'); } else { NotContainsMissingChar(m, "upgrade", 'g'); }
    NotContainsMissingChar(m, "downgrade", 'd');
    if Lacks(m, 'v') { NotContainsMissingChar(m, "invoice", 'v'); } else { NotContainsMissingChar(m, "invoice", 'i'); }
    NotContainsMissingChar(m, "charge", 'c');
  }

  lemma NoTroubleshootingWord(m: string)
    requires Lacks(m, 'b') && Lacks(m, 'f') && Lacks(m, 'h') && Lacks(m, 'o') && Lacks(m, 'r') && Lacks(m, 's')
    ensures !ContainsAny(m, TroubleshootingWords)
  {
    NotContainsMissingChar(m, "error", 'r');
    NotContainsMissingChar(m, "not working", 'o');
    NotContainsMissingChar(m, "problem", 'r');
    NotContainsMissingChar(m, "issue", 's');
    NotContainsMissingChar(m, "bug", 'b');
    NotContainsMissingChar(m, "crash", 'r');
    NotContainsMissingChar(m, "slow", 's');
    NotContainsMissingChar(m, "loading", 'o');
    NotContainsMissingChar(m, "fail", 'f');
    NotContainsMissingChar(m, "help", 'h');
    NotContainsMissingChar(m, "fix", 'f');
    NotContainsMissingChar(m, "broken", 'b');
  }

  lemma NoFaqWord(m: string)
    requires Lacks(m, 'c') && Lacks(m, 'd') && Lacks(m, 'f') && Lacks(m, 'h') && Lacks(m, 's')
    ensures !ContainsAny(m, FaqWords)
  {
    NotContainsMissingChar(m, "how to", 'h');
    NotContainsMissingChar(m, "what is", 'h');
    NotContainsMissingChar(m, "can i", 'c');
    NotContainsMissingChar(m, "how do", 'h');
    NotContainsMissingChar(m, "where", 'h');
    NotContainsMissingChar(m, "feature", 'f');
    NotContainsMissingChar(m, "capability", 'c');
    NotContainsMissingChar(m, "support", 's');
    NotContainsMissingChar(m, "does it", 'd');
    NotContainsMissingChar(m, "is there", 's');
  }
}

=== FILE: numbers.dfy ===
/** Java's fixed-width integers as the support bot meets them: the 32-bit
    `int` of a session's message counter and of `topK * 2`, and the 64-bit
    `long` of customer and ticket ids, written and read back through
    `String.valueOf(Long)` and `Long.parseLong`. */
module JavaNumbers {
  import opened Wrappers

  const MinInt32: int := -0x8000_0000
  const MaxInt32: int := 0x7fff_ffff
  const MinLong: int := -0x8000_0000_0000_0000
  const MaxLong: int := 0x7fff_ffff_ffff_ffff

  predicate IsInt32(n: int) {
    MinInt32 <= n <= MaxInt32
  }

  predicate IsLong(n: int) {
    MinLong <= n <= MaxLong
  }

  /** Two's-complement wrap-around of Java `int` arithmetic. */
  function WrapInt32(n: int): (r: int)
    ensures IsInt32(r)
    ensures (r - n) % 0x1_0000_0000 == 0
    ensures IsInt32(n) ==> r == n
  {
    (n - MinInt32) % 0x1_0000_0000 + MinInt32
  }

  /** `MAX_VALUE + 1` wraps to `MIN_VALUE`, as Java's `++` does. */
  lemma IncrementWrapsAtMax()
    ensures WrapInt32(MaxInt32 + 1) == MinInt32
  {
  }

  // ---------------------------------------------------------------------
  // Decimal text
  // ---------------------------------------------------------------------

  predicate IsDigit(c: char) {
    '0' <= c <= '9'
  }

  predicate AllDigits(s: string) {
    forall i | 0 <= i < |s| :: IsDigit(s[i])
  }

  function DigitChar(d: nat): (c: char)
    requires d < 10
    ensures IsDigit(c)
  {
    ('0' as int + d) as char
  }

  function DigitValue(c: char): (d: nat)
    requires IsDigit(c)
    ensures d < 10 && DigitChar(d) == c
  {
    c as int - '0' as int
  }

  /** The value of a run of decimal digits, most significant first. */
  function DigitsValue(s: string): nat
    requires AllDigits(s)
  {
    if |s| == 0 then 0 else DigitsValue(s[..|s| - 1]) * 10 + DigitValue(s[|s| - 1])
  }

  /** The shortest decimal spelling of `n`, without sign or leading zeros. */
  function NatToString(n: nat): (r: string)
    ensures |r| >= 1 && AllDigits(r)
    ensures |r| > 1 ==> r[0] != '0'
  {
    if n < 10 then [DigitChar(n)] else NatToString(n / 10) + [DigitChar(n % 10)]
  }

  /** `String.valueOf(long)`. */
  function LongToString(n: int): (r: string)
    ensures |r| >= 1 && (r[0] == '-' <==> n < 0)
    ensures n >= 0 ==> AllDigits(r)
  {
    if n < 0 then "-" + NatToString(-n) else NatToString(n)
  }

  /** `Long.parseLong`: an optional sign followed by at least one decimal
      digit, denoting a value in `long` range; anything else is a
      `NumberFormatException`, modelled as `None`. */
  function ParseLong(s: string): (r: Option<int>)
    ensures r.Some? ==> IsLong(r.value)
    ensures r.Some? ==> |s| >= 1 && (AllDigits(s) || AllDigits(s[1..]))
    ensures |s| >= 1 && AllDigits(s) ==>
      r == (if DigitsValue(s) <= MaxLong then Some(DigitsValue(s) as int) else None)
  {
    if |s| > 0 && (s[0] == '-' || s[0] == '+') then ParseDigits(s[0] == '-', s[1..])
    else ParseDigits(false, s)
  }

  /** The digits after the sign, if any. */
  function ParseDigits(negative: bool, digits: string): (r: Option<int>)
    ensures r.Some? ==> IsLong(r.value) && |digits| >= 1 && AllDigits(digits)
  {
    if |digits| == 0 || !AllDigits(digits) then None
    else
      var v: int := if negative then -(DigitsValue(digits) as int) else DigitsValue(digits);
      if IsLong(v) then Some(v) else None
  }

  /** Completeness: a sign, or none, followed by a non-empty run of digits
      parses to its signed value exactly when that value is a `long`, so
      "+5" is 5 and "007" is 7. */
  lemma ParseLongSigned(sign: string, digits: string)
    requires sign == "" || sign == "+" || sign == "-"
    requires |digits| >= 1 && AllDigits(digits)
    ensures var v: int := if sign == "-" then -(DigitsValue(digits) as int) else DigitsValue(digits);
      ParseLong(sign + digits) == (if IsLong(v) then Some(v) else None)
  {
    var t := sign + digits;
    if sign == "" {
      assert t == digits;
      assert ParseLong(t) == ParseDigits(false, digits);
    } else {
      assert |t| > 0 && t[0] == sign[0] && t[1..] == digits;
      assert ParseLong(t) == ParseDigits(sign[0] == '-', digits);
    }
  }

  lemma {:induction false} DigitsOfNat(n: nat)
    ensures DigitsValue(NatToString(n)) == n
  {
    if n >= 10 {
      DigitsOfNat(n / 10);
      var s := NatToString(n);
      assert s[..|s| - 1] == NatToString(n / 10);
    }
  }

  /** Reading back what `String.valueOf` wrote gives the same `long`. */
  lemma ParseLongRoundTrip(n: int)
    requires IsLong(n)
    ensures ParseLong(LongToString(n)) == Some(n)
  {
    if n < 0 {
      DigitsOfNat(-n);
      ParseLongSigned("-", NatToString(-n));
    } else {
      DigitsOfNat(n);
      ParseLongSigned("", NatToString(n));
      assert "" + NatToString(n) == NatToString(n);
    }
  }

  /** A character that is neither a digit nor a leading sign makes the text
      unparsable; in particular the text "null" is no number. */
  lemma ParseLongRejectsNonDigit(s: string, i: nat)
    requires i < |s| && !IsDigit(s[i])
    requires i > 0 || (s[0] != '-' && s[0] != '+')
    ensures ParseLong(s) == None
  {
    if s[0] == '-' || s[0] == '+' {
      assert s[1..][i - 1] == s[i];
    } else {
      assert !AllDigits(s);
    }
  }
}

=== FILE: pipeline.dfy ===
/** The support advisor chain as `SupportBotService.chat` registers it.
    Spring AI sorts advisors by `getOrder()`, lowest first, and runs them as
    nested wrappers: each one either answers at once or hands the request to
    the rest of the chain, whose innermost end is the model call. That
    dispatch belongs to the library; what is written here is the contract it
    is assumed to keep. The advisors' instance fields become an explicit
    state record threaded from one call to the next. */
module Pipeline {
  import opened Wrappers
  import opened Text
  import opened Exchange
  import opened Domain
  import opened Store
  import Safety
  import CustomerContext
  import Sentiment
  import Escalation
  import Formatting

  datatype AdvisorKind =
    | SafetyAdvisor
    | ContextAdvisor
    | SentimentAdvisor
    | EscalationAdvisor
    | FormattingAdvisor

  /** Each advisor's `getOrder()`. */
  function OrderOf(a: AdvisorKind): int {
    match a
    case SafetyAdvisor => Safety.Order
    case ContextAdvisor => CustomerContext.Order
    case SentimentAdvisor => Sentiment.Order
    case EscalationAdvisor => Escalation.Order
    case FormattingAdvisor => Formatting.Order
  }

  /** No two advisors share an order, so sorting leaves no ties to break. */
  lemma OrdersDistinct(a: AdvisorKind, b: AdvisorKind)
    ensures OrderOf(a) == OrderOf(b) <==> a == b
  {
  }

  /** The order in which `chat` registers the support advisors. */
  const Registered: seq<AdvisorKind> :=
    [SafetyAdvisor, ContextAdvisor, SentimentAdvisor, EscalationAdvisor, FormattingAdvisor]

  ghost predicate SortedByOrder(s: seq<AdvisorKind>) {
    forall i, j | 0 <= i < j < |s| :: OrderOf(s[i]) <= OrderOf(s[j])
  }

  /** Places `a` before the first element of higher order. */
  function InsertByOrder(a: AdvisorKind, s: seq<AdvisorKind>): (r: seq<AdvisorKind>)
    requires SortedByOrder(s)
    ensures multiset(r) == multiset(s) + multiset{a}
    ensures SortedByOrder(r)
    decreases |s|
  {
    if |s| == 0 then [a]
    else if OrderOf(a) <= OrderOf(s[0]) then
      ConsSorted(a, s);
      [a] + s
    else
      var tail := InsertByOrder(a, s[1..]);
      assert s == [s[0]] + s[1..];
      HeadBelowInsert(a, s, tail);
      ConsSorted(s[0], tail);
      [s[0]] + tail
  }

  /** What `a` was inserted among follows the old head. */
  lemma HeadBelowInsert(a: AdvisorKind, s: seq<AdvisorKind>, tail: seq<AdvisorKind>)
    requires SortedByOrder(s) && |s| > 0 && OrderOf(s[0]) < OrderOf(a)
    requires multiset(tail) == multiset(s[1..]) + multiset{a}
    ensures forall k | 0 <= k < |tail| :: OrderOf(s[0]) <= OrderOf(tail[k])
  {
    forall k | 0 <= k < |tail|
      ensures OrderOf(s[0]) <= OrderOf(tail[k])
    {
      assert tail[k] in multiset(tail);
      if tail[k] != a {
        assert tail[k] in multiset(s[1..]);
        var j :| 0 <= j < |s[1..]| && s[1..][j] == tail[k];
        assert s[j + 1] == tail[k];
      }
    }
  }

  /** An element no higher than a sorted sequence's elements can lead it. */
  lemma ConsSorted(x: AdvisorKind, tail: seq<AdvisorKind>)
    requires SortedByOrder(tail)
    requires forall k | 0 <= k < |tail| :: OrderOf(x) <= OrderOf(tail[k])
    ensures SortedByOrder([x] + tail)
  {
    var r := [x] + tail;
    forall i, j | 0 <= i < j < |r|
      ensures OrderOf(r[i]) <= OrderOf(r[j])
    {
      assert r[j] == tail[j - 1];
      if i > 0 {
        assert r[i] == tail[i - 1];
      }
    }
  }

  /** The chain's execution order: the registered advisors sorted by order,
      stably, lowest first. */
  function SortByOrder(s: seq<AdvisorKind>): (r: seq<AdvisorKind>)
    ensures multiset(r) == multiset(s)
    ensures SortedByOrder(r)
    decreases |s|
  {
    if |s| == 0 then []
    else
      assert s == [s[0]] + s[1..];
      InsertByOrder(s[0], SortByOrder(s[1..]))
  }

  /** Two order-sorted arrangements of the same advisors are the same
      sequence: the execution order does not depend on how the advisors
      were registered. */
  lemma {:induction false} SortedPermutationsEqual(a: seq<AdvisorKind>, b: seq<AdvisorKind>)
    requires SortedByOrder(a) && SortedByOrder(b)
    requires multiset(a) == multiset(b)
    ensures a == b
    decreases |a|
  {
    assert |a| == |multiset(a)| == |multiset(b)| == |b|;
    if |a| > 0 {
      assert a[0] in multiset(b);
      var j :| 0 <= j < |b| && b[j] == a[0];
      assert b[0] in multiset(a);
      var i :| 0 <= i < |a| && a[i] == b[0];
      assert OrderOf(a[0]) <= OrderOf(a[i]);
      assert OrderOf(b[0]) <= OrderOf(b[j]);
      OrdersDistinct(a[0], b[0]);
      assert a[0] == b[0];
      assert a == [a[0]] + a[1..];
      assert b == [b[0]] + b[1..];
      assert multiset(a[1..]) == multiset(a) - multiset{a[0]};
      assert multiset(b[1..]) == multiset(b) - multiset{b[0]};
      SortedPermutationsEqual(a[1..], b[1..]);
    }
  }

  /** Safety outermost, formatting innermost. */
  const Execution: seq<AdvisorKind> := [SafetyAdvisor] + ContextOnward

  /** However the five advisors are registered, they run in `Execution`. */
  lemma ExecutionOrderOfAnyRegistration(registration: seq<AdvisorKind>)
    requires multiset(registration) == multiset(Registered)
    ensures SortByOrder(registration) == Execution
  {
    ExecutionIsSorted();
    ExecutionIsRegistered();
    var sorted := SortByOrder(registration);
    assert multiset(sorted) == multiset(Execution);
    SortedPermutationsEqual(sorted, Execution);
  }

  lemma ExecutionIsRegistered()
    ensures Execution == Registered
  {
  }

  lemma ExecutionIsSorted()
    ensures SortedByOrder(Execution)
  {
    assert forall i | 0 <= i < |Execution| :: OrderOf(Execution[i]) == [0, 10, 20, 30, 1000][i];
  }

  lemma RegisteredRunsInExecutionOrder()
    ensures SortByOrder(Registered) == Execution
  {
    ExecutionOrderOfAnyRegistration(Registered);
  }

  // ---------------------------------------------------------------------
  // Advisor state and one run through the chain
  // ---------------------------------------------------------------------

  /** The instance fields of the stateful advisors. */
  datatype AdvisorState = AdvisorState(
    context: CustomerContext.ContextState,
    lastSentiment: SentimentType,
    escalation: Escalation.EscalationState)

  const InitialState: AdvisorState :=
    AdvisorState(CustomerContext.InitialState, Sentiment.InitialSentiment, Escalation.InitialState)

  /** What one call leaves: the response, the advisors' fields, the store,
      the request the model received (`None` if it was never called) and
      the lengths the formatting advisor observed. */
  datatype CallRun = CallRun(
    response: ClientResponse,
    state: AdvisorState,
    store: Store,
    modelRequest: Option<ClientRequest>,
    observed: seq<nat>)

  datatype StreamRun = StreamRun(
    fragments: seq<ClientResponse>,
    state: AdvisorState,
    store: Store,
    modelRequest: Option<ClientRequest>,
    observed: seq<nat>)

  function LoggedLengths(logged: Option<nat>): seq<nat> {
    if logged.Some? then [logged.value] else []
  }

  /** What an advisor does on the way in: its decision, and the fields and
      store as it leaves them before the rest of the chain runs. */
  datatype Entry = Entry(step: CallStep, state: AdvisorState, store: Store)

  datatype StreamEntry = StreamEntry(step: StreamStep, state: AdvisorState, store: Store)

  /** Every advisor but safety forwards the request it was given, and only
      the sentiment and escalation advisors change anything on the way in. */
  function EnterCall(a: AdvisorKind, s: AdvisorState, st: Store, req: ClientRequest): (r: Entry)
    ensures r.step.Forward? ==> r.step.request == req
    ensures r.step.Respond? ==>
      a == SafetyAdvisor && Safety.IsCannedReply(r.step.response) && r.state == s && r.store == st
    ensures r.state.context == s.context
    ensures r.state.escalation.currentCustomerId == s.escalation.currentCustomerId
    ensures a !in {SentimentAdvisor, EscalationAdvisor} ==> r.state == s && r.store == st
  {
    match a
    case SafetyAdvisor => Entry(Safety.AdviseCall(req), s, st)
    case ContextAdvisor => Entry(CustomerContext.AdviseCall(s.context, st, req), s, st)
    case SentimentAdvisor =>
      var sensed := Sentiment.AdviseCall(s.lastSentiment, req);
      Entry(sensed.0, s.(lastSentiment := sensed.1), st)
    case EscalationAdvisor =>
      var escalated := Escalation.AdviseCall(s.escalation, st, req);
      Entry(escalated.0, s.(escalation := escalated.1.state), escalated.1.store)
    case FormattingAdvisor => Entry(Forward(req), s, st)
  }

  function EnterStream(a: AdvisorKind, s: AdvisorState, st: Store, req: ClientRequest): (r: StreamEntry)
    ensures r.step.ForwardStream? ==> r.step.request == req
    ensures r.step.Emit? ==> a == SafetyAdvisor && |r.step.fragments| == 1
    ensures r.state.context == s.context
  {
    match a
    case SafetyAdvisor => StreamEntry(Safety.AdviseStream(req), s, st)
    case ContextAdvisor => StreamEntry(CustomerContext.AdviseStream(s.context, st, req), s, st)
    case SentimentAdvisor =>
      var sensed := Sentiment.AdviseStream(s.lastSentiment, req);
      StreamEntry(sensed.0, s.(lastSentiment := sensed.1), st)
    case EscalationAdvisor =>
      var escalated := Escalation.AdviseStream(s.escalation, st, req);
      StreamEntry(escalated.0, s.(escalation := escalated.1.state), escalated.1.store)
    case FormattingAdvisor => StreamEntry(ForwardStream(req), s, st)
  }

  /** What an advisor does on the way out: only formatting does anything,
      and it observes without changing. */
  function LeaveCall(a: AdvisorKind, resp: ClientResponse): (r: (ClientResponse, seq<nat>))
    ensures r.0 == resp
    ensures a != FormattingAdvisor ==> r.1 == []
  {
    if a == FormattingAdvisor then
      var formatted := Formatting.AdviseCall(resp);
      (formatted.0, LoggedLengths(formatted.1))
    else (resp, [])
  }

  function LeaveStream(a: AdvisorKind, fragments: seq<ClientResponse>): (r: (seq<ClientResponse>, seq<nat>))
    ensures r.0 == fragments
    ensures a != FormattingAdvisor ==> r.1 == []
  {
    if a == FormattingAdvisor then Formatting.AdviseStream(fragments) else (fragments, [])
  }

  /** The call path through `chain`, the model call at its end. No advisor
      rewrites the request or the response, so the model sees the original
      request and its answer comes back untouched; the only other answer is
      one of the safety advisor's canned replies. */
  function CallChain(chain: seq<AdvisorKind>, s: AdvisorState, st: Store, req: ClientRequest,
                     model: ClientRequest -> ClientResponse): (r: CallRun)
    ensures r.modelRequest.Some? ==> r.modelRequest.value == req && r.response == model(req)
    ensures r.modelRequest.None? ==> Safety.IsCannedReply(r.response)
    ensures r.state.context == s.context
    ensures r.state.escalation.currentCustomerId == s.escalation.currentCustomerId
    decreases |chain|, 1
  {
    if |chain| == 0 then CallRun(model(req), s, st, Some(req), [])
    else AroundCall(chain[0], chain[1..], s, st, req, model)
  }

  /** Advisor `a`'s `adviseCall` with `rest` behind it: its way in, then,
      unless it answers itself, the rest of the chain, then its way out. */
  function AroundCall(a: AdvisorKind, rest: seq<AdvisorKind>, s: AdvisorState, st: Store,
                      req: ClientRequest, model: ClientRequest -> ClientResponse): (r: CallRun)
    ensures r.modelRequest.Some? ==> r.modelRequest.value == req && r.response == model(req)
    ensures r.modelRequest.None? ==> Safety.IsCannedReply(r.response)
    ensures r.state.context == s.context
    ensures r.state.escalation.currentCustomerId == s.escalation.currentCustomerId
    decreases |rest| + 1, 0
  {
    var entry := EnterCall(a, s, st, req);
    match entry.step
    case Respond(resp) => CallRun(resp, entry.state, entry.store, None, [])
    case Forward(next) =>
      var inner := CallChain(rest, entry.state, entry.store, next, model);
      var left := LeaveCall(a, inner.response);
      inner.(response := left.0, observed := left.1 + inner.observed)
  }

  /** The stream path through `chain`; a short-circuit emits one fragment. */
  function StreamChain(chain: seq<AdvisorKind>, s: AdvisorState, st: Store, req: ClientRequest,
                       model: ClientRequest -> seq<ClientResponse>): (r: StreamRun)
    ensures r.modelRequest.Some? ==> r.modelRequest.value == req && r.fragments == model(req)
    ensures r.modelRequest.None? ==> |r.fragments| == 1
    ensures r.state.context == s.context
    decreases |chain|, 1
  {
    if |chain| == 0 then StreamRun(model(req), s, st, Some(req), [])
    else AroundStream(chain[0], chain[1..], s, st, req, model)
  }

  /** Advisor `a`'s `adviseStream` with `rest` behind it. */
  function AroundStream(a: AdvisorKind, rest: seq<AdvisorKind>, s: AdvisorState, st: Store,
                        req: ClientRequest, model: ClientRequest -> seq<ClientResponse>): (r: StreamRun)
    ensures r.modelRequest.Some? ==> r.modelRequest.value == req && r.fragments == model(req)
    ensures r.modelRequest.None? ==> |r.fragments| == 1
    ensures r.state.context == s.context
    decreases |rest| + 1, 0
  {
    var entry := EnterStream(a, s, st, req);
    match entry.step
    case Emit(fragments) => StreamRun(fragments, entry.state, entry.store, None, [])
    case ForwardStream(next) =>
      var inner := StreamChain(rest, entry.state, entry.store, next, model);
      var left := LeaveStream(a, inner.fragments);
      inner.(fragments := left.0, observed := left.1 + inner.observed)
  }

  /** Each advisor's way in is the same on both paths. */
  lemma EnterAgrees(a: AdvisorKind, s: AdvisorState, st: Store, req: ClientRequest)
    ensures var c := EnterCall(a, s, st, req);
      var t := EnterStream(a, s, st, req);
      && t.state == c.state && t.store == c.store
      && (t.step.Emit? <==> c.step.Respond?)
      && (c.step.Respond? ==> t.step.fragments == [c.step.response])
      && (c.step.Forward? ==> t.step.request == c.step.request)
  {
    match a
    case SafetyAdvisor => Safety.StreamAgreesWithCall(req);
    case ContextAdvisor =>
    case SentimentAdvisor => Sentiment.StreamAgreesWithCall(s.lastSentiment, s.lastSentiment, req);
    case EscalationAdvisor => Escalation.StreamAgreesWithCall(s.escalation, st, req);
    case FormattingAdvisor =>
  }

  /** On any chain the two paths reach the model, or not, together and
      leave the same advisor state and store; a short-circuited stream
      carries the call path's reply as its one fragment. */
  lemma {:induction false} StreamAgreesWithCall(chain: seq<AdvisorKind>, s: AdvisorState, st: Store,
                                                req: ClientRequest, model: ClientRequest -> ClientResponse,
                                                streamModel: ClientRequest -> seq<ClientResponse>)
    ensures var c := CallChain(chain, s, st, req, model);
      var t := StreamChain(chain, s, st, req, streamModel);
      && t.modelRequest == c.modelRequest
      && t.state == c.state
      && t.store == c.store
      && (c.modelRequest.None? ==> t.fragments == [c.response])
    decreases |chain|
  {
    if |chain| > 0 {
      EnterAgrees(chain[0], s, st, req);
      var entry := EnterCall(chain[0], s, st, req);
      if entry.step.Forward? {
        StreamAgreesWithCall(chain[1..], entry.state, entry.store, req, model, streamModel);
      }
    }
  }

  /** One advisor that lets the request through, then the rest of the chain. */
  lemma ChainStep(a: AdvisorKind, rest: seq<AdvisorKind>, s: AdvisorState, st: Store, req: ClientRequest,
                  model: ClientRequest -> ClientResponse)
    requires EnterCall(a, s, st, req).step.Forward?
    ensures var entry := EnterCall(a, s, st, req);
      var inner := CallChain(rest, entry.state, entry.store, req, model);
      CallChain([a] + rest, s, st, req, model)
      == inner.(observed := LeaveCall(a, inner.response).1 + inner.observed)
  {
    assert ([a] + rest)[0] == a;
    assert ([a] + rest)[1..] == rest;
  }

  // ---------------------------------------------------------------------
  // The support chain in execution order
  // ---------------------------------------------------------------------

  /** When the safety advisor answers, no later advisor runs: the model is
      not called, nothing is observed, and every field and the store keep
      the values of the previous call. */
  lemma BlockedRunIsStale(s: AdvisorState, st: Store, req: ClientRequest,
                          model: ClientRequest -> ClientResponse)
    requires Safety.AdviseCall(req).Respond?
    ensures CallChain(Execution, s, st, req, model) ==
      CallRun(Safety.AdviseCall(req).response, s, st, None, [])
  {
  }

  /** When the safety advisor lets the request through, the model answers
      the original request; the sentiment field holds this request's label,
      the escalation fields and the store are this request's escalation
      outcome, and formatting observed the model's answer once. */
  lemma ForwardedRun(s: AdvisorState, st: Store, req: ClientRequest,
                     model: ClientRequest -> ClientResponse)
    requires Safety.AdviseCall(req).Forward?
    ensures var r := CallChain(Execution, s, st, req, model);
      var outcome := Escalation.Escalate(s.escalation, st, req);
      && r.modelRequest == Some(req)
      && r.response == model(req)
      && r.state == AdvisorState(s.context, Sentiment.AnalyzeSentiment(Lower(ScannedText(req))), outcome.state)
      && r.store == outcome.store
      && r.observed == LoggedLengths(Formatting.LogResponse(model(req)))
  {
    ChainStep(SafetyAdvisor, ContextOnward, s, st, req, model);
    PastSafety(s, st, req, model);
  }

  /** The four advisors inside safety never answer themselves. */
  lemma PastSafety(s: AdvisorState, st: Store, req: ClientRequest, model: ClientRequest -> ClientResponse)
    ensures var r := CallChain(ContextOnward, s, st, req, model);
      var outcome := Escalation.Escalate(s.escalation, st, req);
      && r.modelRequest == Some(req)
      && r.state == AdvisorState(s.context, Sentiment.AnalyzeSentiment(Lower(ScannedText(req))), outcome.state)
      && r.store == outcome.store
      && r.observed == LoggedLengths(Formatting.LogResponse(model(req)))
  {
    var s1 := s.(lastSentiment := Sentiment.AnalyzeSentiment(Lower(ScannedText(req))));
    ChainStep(ContextAdvisor, SentimentOnward, s, st, req, model);
    ChainStep(SentimentAdvisor, EscalationOnward, s, st, req, model);
    InnerTwo(s1, st, req, model);
  }

  lemma InnerTwo(s: AdvisorState, st: Store, req: ClientRequest, model: ClientRequest -> ClientResponse)
    ensures var r := CallChain(EscalationOnward, s, st, req, model);
      var outcome := Escalation.Escalate(s.escalation, st, req);
      && r.modelRequest == Some(req)
      && r.state == s.(escalation := outcome.state)
      && r.store == outcome.store
      && r.observed == LoggedLengths(Formatting.LogResponse(model(req)))
  {
    var outcome := Escalation.Escalate(s.escalation, st, req);
    Innermost(s.(escalation := outcome.state), outcome.store, req, model);
    ChainStep(EscalationAdvisor, FormattingOnward, s, st, req, model);
  }

  lemma Innermost(s: AdvisorState, st: Store, req: ClientRequest, model: ClientRequest -> ClientResponse)
    ensures CallChain(FormattingOnward, s, st, req, model)
      == CallRun(model(req), s, st, Some(req), LoggedLengths(Formatting.LogResponse(model(req))))
  {
    assert FormattingOnward == [FormattingAdvisor] + [];
    ChainStep(FormattingAdvisor, [], s, st, req, model);
  }

  /** `Execution`, built up from its innermost advisor. */
  const FormattingOnward: seq<AdvisorKind> := [FormattingAdvisor]
  const EscalationOnward: seq<AdvisorKind> := [EscalationAdvisor] + FormattingOnward
  const SentimentOnward: seq<AdvisorKind> := [SentimentAdvisor] + EscalationOnward
  const ContextOnward: seq<AdvisorKind> := [ContextAdvisor] + SentimentOnward
}

=== FILE: safety.dfy ===
/** `SupportSafetyAdvisor` (order 0): refuses a request whose prompt, lower
    cased, contains an abusive phrase or a blocked word, answering with a
    canned reply instead of calling the model. Abusive phrases are checked
    first. Matching is plain substring search, not whole words. */
module Safety {
  import opened Wrappers
  import opened Text
  import opened Exchange

  const Order: int := 0

  const BlockedWords: seq<string> :=
    ["competitor", "hack", "exploit", "lawsuit", "internal", "confidential", "admin access"]

  const AbusivePhrases: seq<string> :=
    ["you idiot", "stupid bot", "worthless", "useless piece"]

  const BlockedResponse: string :=
    "I'm here to help with TaskFlow-related questions. "
    + "If you have a specific issue or question about our product, "
    + "I'd be happy to assist you. For sensitive matters, please "
    + "contact our support team directly at support@taskflow.com."

  const AbusiveResponse: string :=
    "I understand you may be frustrated, and I genuinely want to help. "
    + "However, I'm not able to continue if the conversation becomes disrespectful. "
    + "Let's try again - what specific issue can I help you with today?"

  predicate ContainsAbusiveLanguage(message: string) {
    MentionsAny(message, AbusivePhrases)
  }

  predicate ContainsBlockedContent(message: string) {
    MentionsAny(message, BlockedWords)
  }

  /** Some word of the list, lower-cased, is literally a slice of the text. */
  ghost predicate SomeSliceOf(text: string, words: seq<string>) {
    exists w :: w in words && IsSubstring(Lower(w), text)
  }

  lemma MentionsAnyIffSlice(text: string, words: seq<string>)
    ensures MentionsAny(text, words) <==> SomeSliceOf(text, words)
  {
    forall w | w in words
      ensures Contains(text, Lower(w)) <==> IsSubstring(Lower(w), text)
    {
      ContainsIff(text, Lower(w));
    }
  }

  /** One of the two canned replies, as a response. */
  predicate IsCannedReply(r: ClientResponse) {
    r == TextResponse(AbusiveResponse) || r == TextResponse(BlockedResponse)
  }

  /** The call path: abusive reply, else blocked reply, else forward the
      identical request. */
  function AdviseCall(req: ClientRequest): (r: CallStep)
    ensures r.Forward? ==> r.request == req
    ensures r.Respond? ==> IsCannedReply(r.response)
  {
    var message := Lower(ScannedText(req));
    if ContainsAbusiveLanguage(message) then Respond(TextResponse(AbusiveResponse))
    else if ContainsBlockedContent(message) then Respond(TextResponse(BlockedResponse))
    else Forward(req)
  }

  /** The stream path, written as the source writes it: one combined test,
      then a second look to pick the reply. */
  function AdviseStream(req: ClientRequest): (r: StreamStep)
    ensures r.ForwardStream? ==> r.request == req
    ensures r.Emit? ==> |r.fragments| == 1
  {
    var message := Lower(ScannedText(req));
    if ContainsAbusiveLanguage(message) || ContainsBlockedContent(message) then
      var response := if ContainsAbusiveLanguage(message) then AbusiveResponse else BlockedResponse;
      Emit([TextResponse(response)])
    else ForwardStream(req)
  }

  /** The call path refuses exactly when some abusive phrase or blocked word
      is a slice of the lower-cased prompt, and the abusive reply is given
      exactly when an abusive phrase is. */
  lemma AdviseCallSpec(req: ClientRequest)
    ensures var text := Lower(ScannedText(req));
      && (AdviseCall(req).Respond? <==>
            SomeSliceOf(text, AbusivePhrases) || SomeSliceOf(text, BlockedWords))
      && (AdviseCall(req) == Respond(TextResponse(AbusiveResponse)) <==>
            SomeSliceOf(text, AbusivePhrases))
      && (AdviseCall(req) == Forward(req) <==>
            !SomeSliceOf(text, AbusivePhrases) && !SomeSliceOf(text, BlockedWords))
  {
    var text := Lower(ScannedText(req));
    MentionsAnyIffSlice(text, AbusivePhrases);
    MentionsAnyIffSlice(text, BlockedWords);
    assert AbusiveResponse != BlockedResponse by {
      assert |AbusiveResponse| != |BlockedResponse|;
    }
  }

  /** When both lists match, the abusive reply wins. */
  lemma AbusiveWins(req: ClientRequest)
    requires ContainsAbusiveLanguage(Lower(ScannedText(req)))
    requires ContainsBlockedContent(Lower(ScannedText(req)))
    ensures AdviseCall(req) == Respond(TextResponse(AbusiveResponse))
    ensures AdviseStream(req) == Emit([TextResponse(AbusiveResponse)])
  {
  }

  /** The stream path short-circuits exactly when the call path does, with
      one fragment holding the call path's reply, and otherwise forwards the
      same request. */
  lemma StreamAgreesWithCall(req: ClientRequest)
    ensures AdviseStream(req).Emit? <==> AdviseCall(req).Respond?
    ensures AdviseCall(req).Respond? ==> AdviseStream(req) == Emit([AdviseCall(req).response])
    ensures AdviseCall(req).Forward? ==> AdviseStream(req) == ForwardStream(AdviseCall(req).request)
  {
  }

  /** The empty text contains no non-empty word. */
  lemma EmptyMentionsNothing(words: seq<string>)
    requires forall w | w in words :: |w| > 0
    ensures !MentionsAny("", words)
  {
    forall w | w in words
      ensures !Contains("", Lower(w))
    {
      assert Lower(w)[0] in Lower(w);
      NotContainsMissingChar("", Lower(w), Lower(w)[0]);
    }
  }

  /** A request without a prompt is scanned as "" and forwarded unchanged. */
  lemma NoPromptForwards(req: ClientRequest)
    requires req.prompt.None?
    ensures AdviseCall(req) == Forward(req)
    ensures AdviseStream(req) == ForwardStream(req)
  {
    assert Lower("") == "";
    EmptyMentionsNothing(AbusivePhrases);
    EmptyMentionsNothing(BlockedWords);
  }

  /** Substring, not whole-word, matching: "internally" trips "internal". */
  lemma InternallyIsBlocked(req: ClientRequest)
    requires ScannedText(req) == "internally"
    ensures AdviseCall(req) == Respond(TextResponse(BlockedResponse))
  {
    LowerOfNoUpper(ScannedText(req));
    InternallySpelling();
    BlockedOnly("", "internal", "ly");
  }

  lemma InternallySpelling()
    ensures "" + "internal" + "ly" == "internally"
    ensures Lacks("internally", 'o') && Lacks("internally", 'p')
    ensures "internal" in BlockedWords && NoUpper("internal")
  {
  }

  /** A lower-case text around a blocked word, free of 'o' and 'p', is
      blocked but not abusive. */
  lemma BlockedOnly(a: string, w: string, b: string)
    requires w in BlockedWords && NoUpper(w)
    requires Lacks(a + w + b, 'o') && Lacks(a + w + b, 'p')
    ensures ContainsBlockedContent(a + w + b) && !ContainsAbusiveLanguage(a + w + b)
  {
    NoAbusiveIn(a + w + b);
    ContainsItself(w);
    ContainsInfix(a, w, b, w);
    LowerOfNoUpper(w);
  }

  /** ... and "hacker" trips "hack". */
  lemma HackerIsBlocked(req: ClientRequest)
    requires ScannedText(req) == "hacker"
    ensures AdviseCall(req) == Respond(TextResponse(BlockedResponse))
  {
    var text := "hacker";
    LowerOfNoUpper(text);
    NoAbusiveIn(text);
    ContainsItself("hack");
    ContainsInfix("", "hack", "er", "hack");
    HackerSpelling();
    LowerOfNoUpper("hack");
    assert "hack" in BlockedWords;
  }

  lemma HackerSpelling()
    ensures "" + "hack" + "er" == "hacker"
  {
  }

  /** A text without the letters 'o' and 'p' holds no abusive phrase. */
  lemma NoAbusiveIn(text: string)
    requires Lacks(text, 'o') && Lacks(text, 'p')
    ensures !ContainsAbusiveLanguage(text)
  {
    NotContainsMissingLowerChar(text, "you idiot", 'o');
    NotContainsMissingLowerChar(text, "stupid bot", 'o');
    NotContainsMissingLowerChar(text, "worthless", 'o');
    NotContainsMissingLowerChar(text, "useless piece", 'p');
  }
}

=== FILE: sentiment.dfy ===
/** `SentimentAnalysisAdvisor` (order 20): classifies the lower-cased prompt
    as angry, frustrated, positive or neutral by keyword, in that order of
    precedence, remembers the label in its `lastDetectedSentiment` field, and
    always forwards the request untouched. */
module Sentiment {
  import opened Text
  import opened Exchange
  import opened Domain

  const Order: int := 20

  /** The field's value before the advisor has seen any request. */
  const InitialSentiment: SentimentType := Neutral

  const PositiveWords: seq<string> :=
    ["thanks", "thank you", "great", "awesome", "excellent", "perfect", "love",
     "amazing", "helpful", "appreciate", "wonderful", "fantastic"]

  const FrustratedWords: seq<string> :=
    ["frustrated", "annoying", "disappointed", "unhappy", "waste of time",
     "not happy", "terrible", "awful", "ridiculous", "unacceptable"]

  const AngryWords: seq<string> :=
    ["angry", "furious", "outraged", "hate", "worst", "horrible", "disgusting",
     "fed up", "sick of", "never again", "demand"]

  /** `analyzeSentiment`, on a message the caller has already lower-cased. */
  function AnalyzeSentiment(message: string): (r: SentimentType)
    ensures r == Angry <==> MentionsAny(message, AngryWords)
    ensures RequiresAttention(r) <==> MentionsAny(message, AngryWords) || MentionsAny(message, FrustratedWords)
  {
    if MentionsAny(message, AngryWords) then Angry
    else if MentionsAny(message, FrustratedWords) then Frustrated
    else if MentionsAny(message, PositiveWords) then Positive
    else Neutral
  }

  // ---------------------------------------------------------------------
  // A reference reading: the strongest mood whose words occur
  // ---------------------------------------------------------------------

  function Rank(s: SentimentType): nat {
    match s
    case Neutral => 0
    case Positive => 1
    case Frustrated => 2
    case Angry => 3
  }

  function MoodWords(s: SentimentType): seq<string> {
    match s
    case Neutral => []
    case Positive => PositiveWords
    case Frustrated => FrustratedWords
    case Angry => AngryWords
  }

  /** The message shows mood `s`; every message shows the neutral mood. */
  predicate Shows(message: string, s: SentimentType) {
    s == Neutral || MentionsAny(message, MoodWords(s))
  }

  /** The classification is the highest-ranked mood the message shows, so
      exactly one label results and precedence decides mixed messages. */
  lemma AnalyzeIsStrongestMood(message: string)
    ensures Shows(message, AnalyzeSentiment(message))
    ensures forall s :: Shows(message, s) ==> Rank(s) <= Rank(AnalyzeSentiment(message))
  {
  }

  /** The four outcomes, each spelled out as a condition on the message. */
  lemma AnalyzePrecedence(message: string)
    ensures AnalyzeSentiment(message) == Angry <==> MentionsAny(message, AngryWords)
    ensures AnalyzeSentiment(message) == Frustrated <==>
      !MentionsAny(message, AngryWords) && MentionsAny(message, FrustratedWords)
    ensures AnalyzeSentiment(message) == Positive <==>
      !MentionsAny(message, AngryWords) && !MentionsAny(message, FrustratedWords)
      && MentionsAny(message, PositiveWords)
    ensures AnalyzeSentiment(message) == Neutral <==>
      !MentionsAny(message, AngryWords) && !MentionsAny(message, FrustratedWords)
      && !MentionsAny(message, PositiveWords)
  {
  }

  /** A negative label is one that needs attention. */
  lemma AttentionIffNegative(message: string)
    ensures RequiresAttention(AnalyzeSentiment(message)) <==>
      MentionsAny(message, AngryWords) || MentionsAny(message, FrustratedWords)
  {
  }

  // ---------------------------------------------------------------------
  // The advisor
  // ---------------------------------------------------------------------

  /** `adviseCall`: forward the identical request and make this request's
      label the remembered one, whatever was remembered before. */
  function AdviseCall(last: SentimentType, req: ClientRequest): (r: (CallStep, SentimentType))
    ensures r.0 == Forward(req)
    ensures Shows(Lower(ScannedText(req)), r.1)
    ensures forall m :: Shows(Lower(ScannedText(req)), m) ==> Rank(m) <= Rank(r.1)
  {
    AnalyzeIsStrongestMood(Lower(ScannedText(req)));
    (Forward(req), AnalyzeSentiment(Lower(ScannedText(req))))
  }

  /** `adviseStream`: the same analysis, then the stream is forwarded. */
  function AdviseStream(last: SentimentType, req: ClientRequest): (r: (StreamStep, SentimentType))
    ensures r.0 == ForwardStream(req)
    ensures Shows(Lower(ScannedText(req)), r.1)
    ensures forall m :: Shows(Lower(ScannedText(req)), m) ==> Rank(m) <= Rank(r.1)
  {
    AnalyzeIsStrongestMood(Lower(ScannedText(req)));
    (ForwardStream(req), AnalyzeSentiment(Lower(ScannedText(req))))
  }

  /** Both paths record the same label, which depends on the request alone. */
  lemma StreamAgreesWithCall(last: SentimentType, other: SentimentType, req: ClientRequest)
    ensures AdviseStream(last, req).1 == AdviseCall(last, req).1
    ensures AdviseCall(last, req).1 == AdviseCall(other, req).1
    ensures AdviseCall(last, req).1 == AnalyzeSentiment(Lower(ScannedText(req)))
  {
  }

  // ---------------------------------------------------------------------
  // Examples
  // ---------------------------------------------------------------------

  /** Without these six letters only "hate" could still match an angry word. */
  lemma OnlyHateCanBeAngry(m: string)
    requires Lacks(m, 'c') && Lacks(m, 'd') && Lacks(m, 'f') && Lacks(m, 'g') && Lacks(m, 'o') && Lacks(m, 'v')
    ensures MentionsAny(m, AngryWords) <==> Contains(m, "hate")
  {
    NoAngryWordBeforeHate(m);
    NoAngryWordAfterHate(m);
    HateIsAngryWord();
    MentionsAnyByIndex(m, AngryWords);
  }

  lemma HateIsAngryWord()
    ensures Lower(AngryWords[3]) == "hate"
  {
    LowerOfNoUpper("hate");
  }

  lemma NoAngryWordBeforeHate(m: string)
    requires Lacks(m, 'f') && Lacks(m, 'g') && Lacks(m, 'o')
    ensures forall j | 0 <= j < 3 :: !Contains(m, Lower(AngryWords[j]))
  {
    NotContainsLowerCharAt(m, AngryWords[0], 2);
    NotContainsLowerCharAt(m, AngryWords[1], 0);
    NotContainsLowerCharAt(m, AngryWords[2], 0);
  }

  lemma NoAngryWordAfterHate(m: string)
    requires Lacks(m, 'c') && Lacks(m, 'd') && Lacks(m, 'f') && Lacks(m, 'o') && Lacks(m, 'v')
    ensures forall j | 4 <= j < |AngryWords| :: !Contains(m, Lower(AngryWords[j]))
  {
    NotContainsLowerCharAt(m, AngryWords[4], 1);
    NotContainsLowerCharAt(m, AngryWords[5], 1);
    NotContainsLowerCharAt(m, AngryWords[6], 0);
    NotContainsLowerCharAt(m, AngryWords[7], 0);
    NotContainsLowerCharAt(m, AngryWords[8], 2);
    NotContainsLowerCharAt(m, AngryWords[9], 2);
    NotContainsLowerCharAt(m, AngryWords[10], 0);
  }

  lemma NoFrustratedWord(m: string)
    requires Lacks(m, 'd') && Lacks(m, 'f') && Lacks(m, 'n') && Lacks(m, 'o') && Lacks(m, 'r') && Lacks(m, 'u')
    ensures !MentionsAny(m, FrustratedWords)
  {
    NoFrustratedWordBeforeFive(m);
    NoFrustratedWordFromFive(m);
    MentionsAnyByIndex(m, FrustratedWords);
  }

  lemma NoFrustratedWordBeforeFive(m: string)
    requires Lacks(m, 'd') && Lacks(m, 'f') && Lacks(m, 'n') && Lacks(m, 'o') && Lacks(m, 'u')
    ensures forall j | 0 <= j < 5 :: !Contains(m, Lower(FrustratedWords[j]))
  {
    NotContainsLowerCharAt(m, FrustratedWords[0], 0);
    NotContainsLowerCharAt(m, FrustratedWords[1], 1);
    NotContainsLowerCharAt(m, FrustratedWords[2], 0);
    NotContainsLowerCharAt(m, FrustratedWords[3], 0);
    NotContainsLowerCharAt(m, FrustratedWords[4], 6);
  }

  lemma NoFrustratedWordFromFive(m: string)
    requires Lacks(m, 'f') && Lacks(m, 'n') && Lacks(m, 'r') && Lacks(m, 'u')
    ensures forall j | 5 <= j < |FrustratedWords| :: !Contains(m, Lower(FrustratedWords[j]))
  {
    NotContainsLowerCharAt(m, FrustratedWords[5], 0);
    NotContainsLowerCharAt(m, FrustratedWords[6], 2);
    NotContainsLowerCharAt(m, FrustratedWords[7], 2);
    NotContainsLowerCharAt(m, FrustratedWords[8], 0);
    NotContainsLowerCharAt(m, FrustratedWords[9], 0);
  }

  lemma NoPositiveWord(m: string)
    requires Lacks(m, 'f') && Lacks(m, 'g') && Lacks(m, 'n') && Lacks(m, 'o') && Lacks(m, 'p') && Lacks(m, 'x')
    ensures !MentionsAny(m, PositiveWords)
  {
    NoPositiveWordBeforeSix(m);
    NoPositiveWordFromSix(m);
    MentionsAnyByIndex(m, PositiveWords);
  }

  lemma NoPositiveWordBeforeSix(m: string)
    requires Lacks(m, 'g') && Lacks(m, 'n') && Lacks(m, 'o') && Lacks(m, 'p') && Lacks(m, 'x')
    ensures forall j | 0 <= j < 6 :: !Contains(m, Lower(PositiveWords[j]))
  {
    NotContainsLowerCharAt(m, PositiveWords[0], 3);
    NotContainsLowerCharAt(m, PositiveWords[1], 3);
    NotContainsLowerCharAt(m, PositiveWords[2], 0);
    NotContainsLowerCharAt(m, PositiveWords[3], 4);
    NotContainsLowerCharAt(m, PositiveWords[4], 1);
    NotContainsLowerCharAt(m, PositiveWords[5], 0);
  }

  lemma NoPositiveWordFromSix(m: string)
    requires Lacks(m, 'f') && Lacks(m, 'n') && Lacks(m, 'o') && Lacks(m, 'p')
    ensures forall j | 6 <= j < |PositiveWords| :: !Contains(m, Lower(PositiveWords[j]))
  {
    NotContainsLowerCharAt(m, PositiveWords[6], 1);
    NotContainsLowerCharAt(m, PositiveWords[7], 5);
    NotContainsLowerCharAt(m, PositiveWords[8], 3);
    NotContainsLowerCharAt(m, PositiveWords[9], 1);
    NotContainsLowerCharAt(m, PositiveWords[10], 1);
    NotContainsLowerCharAt(m, PositiveWords[11], 0);
  }

  /** Substring matching: "whatever" holds "hate" and reads as angry. */
  lemma WhateverIsAngry()
    ensures AnalyzeSentiment("whatever") == Angry
  {
    assert Lower("hate") == "hate";
    ContainsItself("hate");
    ContainsInfix("w", "hate", "ver", "hate");
    assert "w" + "hate" + "ver" == "whatever";
    assert AngryWords[3] == "hate";
  }

  /** A mixed message takes the stronger mood: frustrated beats positive. */
  lemma ThanksButTerribleIsFrustrated()
    ensures AnalyzeSentiment("thanks but this is terrible") == Frustrated
  {
    LettersOfThanksButTerrible();
    OnlyHateCanBeAngry("thanks but this is terrible");
    NoHateInThanksButTerrible();
    assert Lower("terrible") == "terrible";
    ContainsItself("terrible");
    ContainsInfix("thanks but this is ", "terrible", "", "terrible");
    SpellingOfThanksButTerrible();
    assert FrustratedWords[6] == "terrible";
  }

  lemma LettersOfThanksButTerrible()
    ensures var m := "thanks but this is terrible";
      Lacks(m, 'c') && Lacks(m, 'd') && Lacks(m, 'f') && Lacks(m, 'g') && Lacks(m, 'o') && Lacks(m, 'v')
  {
  }

  lemma SpellingOfThanksButTerrible()
    ensures "thanks but this is " + "terrible" + "" == "thanks but this is terrible"
  {
  }

  lemma NoHateInThanksButTerrible()
    ensures !Contains("thanks but this is terrible", "hate")
  {
    NoHateInThanksButTerribleFrom12();
    assert !ContainsFrom("thanks but this is terrible", "hate", 8);
    assert !ContainsFrom("thanks but this is terrible", "hate", 4);
  }

  lemma NoHateInThanksButTerribleFrom12()
    ensures !ContainsFrom("thanks but this is terrible", "hate", 12)
  {
    assert !ContainsFrom("thanks but this is terrible", "hate", 20);
    assert !ContainsFrom("thanks but this is terrible", "hate", 16);
  }

  /** A message with no mood word at all is neutral. */
  lemma WhatTimeIsItIsNeutral()
    ensures AnalyzeSentiment("what time is it") == Neutral
  {
    LettersOfWhatTimeIsIt();
    OnlyHateCanBeAngry("what time is it");
    NoHateInWhatTimeIsIt();
    NoFrustratedWord("what time is it");
    NoPositiveWord("what time is it");
  }

  lemma LettersOfWhatTimeIsIt()
    ensures var m := "what time is it";
      && Lacks(m, 'c') && Lacks(m, 'd') && Lacks(m, 'f') && Lacks(m, 'g') && Lacks(m, 'n')
      && Lacks(m, 'o') && Lacks(m, 'p') && Lacks(m, 'r') && Lacks(m, 'u') && Lacks(m, 'v') && Lacks(m, 'x')
  {
  }

  lemma NoHateInWhatTimeIsIt()
    ensures !Contains("what time is it", "hate")
  {
    assert !ContainsFrom("what time is it", "hate", 8);
    assert !ContainsFrom("what time is it", "hate", 4);
  }
}

=== FILE: session.dfy ===
/** `ConversationSession`: the record of one conversation between a
    customer and the bot, with its message counter, the last sentiment seen
    and whether it is still open. Times are supplied by the caller; the
    customer and the optional ticket are held by id. */
module Session {
  import opened Wrappers
  import opened JavaNumbers
  import opened Domain

  datatype ConversationSession = ConversationSession(
    conversationId: string,
    customerId: int,
    ticketId: Option<int>,
    lastSentiment: SentimentType,
    messageCount: int,
    startedAt: Option<int>,
    lastMessageAt: Option<int>,
    endedAt: Option<int>,
    active: bool)

  /** `new ConversationSession(conversationId, customer)`: the field
      initialisers give no messages, a neutral mood and an open session. */
  function NewSession(conversationId: string, customerId: int): (r: ConversationSession)
    ensures r.messageCount == 0 && r.lastSentiment == Neutral && r.active
    ensures r.conversationId == conversationId && r.customerId == customerId
    ensures r.ticketId.None? && r.startedAt.None? && r.endedAt.None?
  {
    ConversationSession(conversationId, customerId, None, Neutral, 0, None, None, None, true)
  }

  /** The `@PrePersist` hook: both the start and the last-message time are
      the moment of the first save. */
  function OnCreate(s: ConversationSession, now: int): (r: ConversationSession)
    ensures r.startedAt == Some(now) && r.lastMessageAt == Some(now)
    ensures r.(startedAt := s.startedAt, lastMessageAt := s.lastMessageAt) == s
  {
    s.(startedAt := Some(now), lastMessageAt := Some(now))
  }

  /** `recordMessage`: one more message, at `now`, with this sentiment. The
      counter is a Java `int`, so `++` wraps at the top of its range. There
      is no check that the session is still active. */
  function RecordMessage(s: ConversationSession, sentiment: SentimentType, now: int): (r: ConversationSession)
    ensures r.messageCount == WrapInt32(s.messageCount + 1)
    ensures IsInt32(s.messageCount) && s.messageCount < MaxInt32 ==> r.messageCount == s.messageCount + 1
    ensures r.lastSentiment == sentiment && r.lastMessageAt == Some(now)
    ensures r.conversationId == s.conversationId && r.customerId == s.customerId
    ensures r.ticketId == s.ticketId && r.active == s.active
    ensures r.startedAt == s.startedAt && r.endedAt == s.endedAt
  {
    s.(messageCount := WrapInt32(s.messageCount + 1), lastMessageAt := Some(now), lastSentiment := sentiment)
  }

  /** `endSession`: closed, at `now`. */
  function EndSession(s: ConversationSession, now: int): (r: ConversationSession)
    ensures !r.active && r.endedAt == Some(now)
    ensures r.(active := s.active, endedAt := s.endedAt) == s
  {
    s.(active := false, endedAt := Some(now))
  }

  /** Ending twice is ending once, at the later time. */
  lemma EndSessionIdempotent(s: ConversationSession, first: int, second: int)
    ensures EndSession(EndSession(s, first), second) == EndSession(s, second)
    ensures !EndSession(EndSession(s, first), second).active
  {
  }

  /** A message recorded after the end still counts, and the session stays
      closed. */
  lemma RecordAfterEnd(s: ConversationSession, ended: int, sentiment: SentimentType, now: int)
    requires IsInt32(s.messageCount) && s.messageCount < MaxInt32
    ensures var r := RecordMessage(EndSession(s, ended), sentiment, now);
      && r.messageCount == s.messageCount + 1
      && !r.active
      && r.lastSentiment == sentiment
  {
  }

  /** A message at the very top of the `int` range wraps the counter to
      its most negative value. */
  lemma CounterWraps(s: ConversationSession, sentiment: SentimentType, now: int)
    requires s.messageCount == MaxInt32
    ensures RecordMessage(s, sentiment, now).messageCount == MinInt32
  {
    IncrementWrapsAtMax();
  }

  /** A run of messages, one sentiment each, all at time `now`. */
  function RecordAll(s: ConversationSession, sentiments: seq<SentimentType>, now: int): (r: ConversationSession)
    ensures r.conversationId == s.conversationId && r.customerId == s.customerId
    ensures r.active == s.active && r.ticketId == s.ticketId
    decreases |sentiments|
  {
    if |sentiments| == 0 then s
    else RecordAll(RecordMessage(s, sentiments[0], now), sentiments[1..], now)
  }

  /** Below the wrap-around, the counter counts the messages, and the mood
      is the last message's. */
  lemma {:induction false} RecordAllCounts(s: ConversationSession, sentiments: seq<SentimentType>, now: int)
    requires 0 <= s.messageCount && s.messageCount + |sentiments| <= MaxInt32
    ensures RecordAll(s, sentiments, now).messageCount == s.messageCount + |sentiments|
    ensures |sentiments| > 0 ==> RecordAll(s, sentiments, now).lastSentiment == sentiments[|sentiments| - 1]
    ensures |sentiments| == 0 ==> RecordAll(s, sentiments, now) == s
    decreases |sentiments|
  {
    if |sentiments| > 0 {
      var next := RecordMessage(s, sentiments[0], now);
      RecordAllCounts(next, sentiments[1..], now);
      if |sentiments| > 1 {
        assert sentiments[1..][|sentiments[1..]| - 1] == sentiments[|sentiments| - 1];
      }
    }
  }

  /** A fresh session that has seen `n` messages reports `n`, whatever the
      moods were. */
  lemma FreshSessionCounts(conversationId: string, customerId: int, sentiments: seq<SentimentType>, now: int)
    requires |sentiments| <= MaxInt32
    ensures RecordAll(NewSession(conversationId, customerId), sentiments, now).messageCount == |sentiments|
    ensures RecordAll(NewSession(conversationId, customerId), sentiments, now).active
  {
    RecordAllCounts(NewSession(conversationId, customerId), sentiments, now);
  }
}

=== FILE: store.dfy ===
/** The two JPA repositories the core touches, as maps from id to entity.
    A save of a new entity assigns the next unused id, as the database's
    identity column does; a save of an existing entity replaces it. */
module Store {
  import opened Wrappers
  import opened Domain

  datatype Store = Store(
    customers: map<int, Customer>,
    tickets: map<int, Ticket>,
    nextCustomerId: int,
    nextTicketId: int)

  const EmptyStore: Store := Store(map[], map[], 1, 1)

  /** What every reachable store satisfies: ids match their keys and lie
      below the next id to assign, every ticket belongs to a stored
      customer, and no two customers share an email (the column is unique). */
  ghost predicate Valid(st: Store) {
    && (forall id | id in st.customers :: st.customers[id].id == id && id < st.nextCustomerId)
    && (forall id | id in st.tickets :: st.tickets[id].id == id && id < st.nextTicketId)
    && (forall id | id in st.tickets :: st.tickets[id].customerId in st.customers)
    && (forall a, b | a in st.customers && b in st.customers ::
          st.customers[a].email == st.customers[b].email ==> a == b)
  }

  lemma EmptyStoreValid()
    ensures Valid(EmptyStore)
  {
  }

  /** `customerRepository.findById`. */
  function FindCustomer(st: Store, id: int): (r: Option<Customer>)
    ensures r.Some? <==> id in st.customers
    ensures r.Some? ==> r.value == st.customers[id]
  {
    if id in st.customers then Some(st.customers[id]) else None
  }

  /** `ticketRepository.findById`. */
  function FindTicket(st: Store, id: int): (r: Option<Ticket>)
    ensures r.Some? <==> id in st.tickets
    ensures r.Some? ==> r.value == st.tickets[id]
  {
    if id in st.tickets then Some(st.tickets[id]) else None
  }

  /** `customerRepository.existsByEmail`. */
  predicate ExistsByEmail(st: Store, email: string) {
    exists id | id in st.customers :: st.customers[id].email == email
  }

  /** `customerRepository.findByEmail`: the one customer with this email. */
  function FindByEmail(st: Store, email: string): (r: Option<Customer>)
    requires Valid(st)
    ensures r.Some? <==> ExistsByEmail(st, email)
    ensures r.Some? ==> r.value.email == email
    ensures r.Some? ==> r.value.id in st.customers && st.customers[r.value.id] == r.value
  {
    if ExistsByEmail(st, email) then
      var id :| id in st.customers && st.customers[id].email == email;
      Some(st.customers[id])
    else None
  }

  /** `ticketRepository.save` of a new ticket: it gets the next id. */
  function InsertTicket(st: Store, t: Ticket): (r: (Ticket, Store))
    ensures r.0 == t.(id := st.nextTicketId)
    ensures r.1.tickets == st.tickets[r.0.id := r.0]
    ensures r.1.customers == st.customers && r.1.nextCustomerId == st.nextCustomerId
    ensures r.1.nextTicketId == st.nextTicketId + 1
  {
    var saved := t.(id := st.nextTicketId);
    (saved, st.(tickets := st.tickets[saved.id := saved], nextTicketId := st.nextTicketId + 1))
  }

  /** Inserting a ticket of a stored customer keeps the store valid and adds
      exactly one ticket, under an id no stored ticket has. */
  lemma InsertTicketValid(st: Store, t: Ticket)
    requires Valid(st) && t.customerId in st.customers
    ensures InsertTicket(st, t).0.id !in st.tickets
    ensures Valid(InsertTicket(st, t).1)
    ensures |InsertTicket(st, t).1.tickets| == |st.tickets| + 1
  {
  }

  /** `customerRepository.save` of a new customer: it gets the next id. */
  function InsertCustomer(st: Store, c: Customer): (r: (Customer, Store))
    ensures r.0 == c.(id := st.nextCustomerId)
    ensures r.1.customers == st.customers[r.0.id := r.0]
    ensures r.1.tickets == st.tickets && r.1.nextTicketId == st.nextTicketId
    ensures r.1.nextCustomerId == st.nextCustomerId + 1
  {
    var saved := c.(id := st.nextCustomerId);
    (saved, st.(customers := st.customers[saved.id := saved], nextCustomerId := st.nextCustomerId + 1))
  }

  /** `ticketRepository.save` of a ticket that was found under `id`: the
      stored ticket is replaced, and no key is added or removed. */
  function UpdateTicket(st: Store, id: int, t: Ticket): (r: Store)
    requires id in st.tickets
    ensures r.tickets == st.tickets[id := t]
    ensures r.tickets.Keys == st.tickets.Keys
    ensures r.customers == st.customers
  {
    st.(tickets := st.tickets[id := t])
  }

  /** `customerRepository.save` of a customer that was found under `id`. */
  function UpdateCustomer(st: Store, id: int, c: Customer): (r: Store)
    requires id in st.customers
    ensures r.customers == st.customers[id := c]
    ensures r.customers.Keys == st.customers.Keys
    ensures r.tickets == st.tickets
  {
    st.(customers := st.customers[id := c])
  }
}

=== FILE: support_bot.dfy ===
/** `SupportBotService`: one chat turn. It fetches knowledge-base context
    for the message, composes the system prompt, hands a parsed customer id
    to the context and escalation advisors, picks the conversation id, runs
    the advisor chain around the model, and assembles the reply from the
    model's text and the advisors' fields. */
module SupportBot {
  import opened Wrappers
  import opened Text
  import opened JavaNumbers
  import opened Exchange
  import opened Domain
  import opened Store
  import opened KnowledgeBase
  import Pipeline
  import Safety
  import Sentiment
  import Escalation
  import CustomerContext

  // ---------------------------------------------------------------------
  // The system prompt
  // ---------------------------------------------------------------------

  /** `SYSTEM_PROMPT`, a Java text block: every line ends in a newline. It
      is split around two of its words, "Escalate" and "helpful", which the
      advisors find when they scan the prompt. */
  const PromptOpening: string :=
    "You are a friendly and professional customer support agent for TaskFlow,\n"
    + "a project management and team collaboration platform.\n"
    + "\n"
    + "Your responsibilities:\n"
    + "1. Answer questions about TaskFlow features, pricing, and usage\n"
    + "2. Help troubleshoot common issues\n"
    + "3. Guide users through processes step-by-step\n"
    + "4. "

  const PromptMiddle: string :=
    " to human support when necessary\n"
    + "\n"
    + "Guidelines:\n"
    + "- Be concise but thorough\n"
    + "- Use markdown formatting for clarity (bullet points, bold, code blocks)\n"
    + "- Always maintain a "

  const PromptClosing: string :=
    " and positive tone\n"
    + "- If you don't know something, admit it and offer alternatives\n"
    + "- Never make up information about features or pricing\n"

  const SystemPrompt: string := PromptOpening + "Escalate" + PromptMiddle + "helpful" + PromptClosing

  const KnowledgeHeading: string := "\n\n## Knowledge Base Context\n"

  const CategoryLabel: string := "Category: "

  /** How many documents the context is drawn from. */
  const ContextTopK: int := 3

  /** The knowledge-base section appended to the system prompt: a heading,
      the query's category, a blank line and the context text. */
  function KnowledgeSection(category: string, context: string): (r: string)
    ensures |r| == |KnowledgeHeading| + |CategoryLabel| + |category| + 2 + |context|
    ensures r[..|KnowledgeHeading| + |CategoryLabel| + |category|] == KnowledgeHeading + CategoryLabel + category
    ensures r[|r| - |context| - 2..] == "\n\n" + context
  {
    KnowledgeHeading + CategoryLabel + category + "\n\n" + context
  }

  /** The system prompt followed by the knowledge-base section. */
  function EnhancedSystemPrompt(category: string, context: string): string {
    SystemPrompt + KnowledgeSection(category, context)
  }

  // ---------------------------------------------------------------------
  // Ids
  // ---------------------------------------------------------------------

  /** `parseCustomerId`: absent for a null or empty string or one
      `Long.parseLong` rejects, the number otherwise. */
  function ParseCustomerId(s: Option<string>): (r: Option<int>)
    ensures r.Some? ==> s.Some? && |s.value| > 0 && IsLong(r.value)
    ensures s.Some? && |s.value| > 0 ==> r == ParseLong(s.value)
  {
    if s.None? || s.value == "" then None else ParseLong(s.value)
  }

  /** The decimal form of any `long` parses back to it. */
  lemma ParseCustomerIdRoundTrip(n: int)
    requires IsLong(n)
    ensures ParseCustomerId(Some(LongToString(n))) == Some(n)
  {
    ParseLongRoundTrip(n);
  }

  /** A string with a letter or other non-digit past the sign is no id. */
  lemma ParseCustomerIdRejects(s: string, i: nat)
    requires i < |s| && !IsDigit(s[i])
    requires i > 0 || (s[0] != '-' && s[0] != '+')
    ensures ParseCustomerId(Some(s)) == None
  {
    ParseLongRejectsNonDigit(s, i);
  }

  const CustomerPrefix: string := "customer-"
  const AnonymousConversation: string := "anonymous"

  /** The memory conversation id: the session id whenever one is given,
      even an empty one; else "customer-" and the raw customer id; else
      "anonymous". */
  function ConversationId(req: ChatRequest): (r: string)
    ensures req.sessionId.Some? ==> r == req.sessionId.value
    ensures req.sessionId.None? && req.customerId.Some? ==> r == CustomerPrefix + req.customerId.value
    ensures req.sessionId.None? && req.customerId.None? ==> r == AnonymousConversation
  {
    if req.sessionId.Some? then req.sessionId.value
    else if req.customerId.Some? then CustomerPrefix + req.customerId.value
    else AnonymousConversation
  }

  /** Both `setCustomerId` calls, made only when the id parsed. */
  function AssignCustomer(s: Pipeline.AdvisorState, id: Option<int>): (r: Pipeline.AdvisorState)
    ensures id.None? ==> r == s
    ensures id.Some? ==> r.context.currentCustomerId == id && r.escalation.currentCustomerId == id
    ensures r.lastSentiment == s.lastSentiment
    ensures r.escalation.lastCreatedTicket == s.escalation.lastCreatedTicket
  {
    if id.None? then s
    else s.(context := CustomerContext.SetCustomerId(s.context, id.value),
            escalation := Escalation.SetCustomerId(s.escalation, id.value))
  }

  // ---------------------------------------------------------------------
  // One chat turn
  // ---------------------------------------------------------------------

  /** The service's lasting state: the advisors' fields and the store. */
  datatype Bot = Bot(advisors: Pipeline.AdvisorState, store: Store)

  /** The request the chain receives: the system message, then the user's,
      under the turn's conversation id. */
  function BuiltRequest(req: ChatRequest, context: string): ClientRequest {
    SystemAndUser(EnhancedSystemPrompt(CategorizeQuery(req.message), context), req.message, ConversationId(req))
  }

  /** The advisors scan the system prompt, then the knowledge-base section,
      then the message, as one text. */
  lemma BuiltRequestScan(req: ChatRequest, context: string)
    ensures ScannedText(BuiltRequest(req, context))
      == SystemPrompt + (KnowledgeSection(CategorizeQuery(req.message), context) + req.message)
    ensures BuiltRequest(req, context).conversationId == ConversationId(req)
  {
    var section := KnowledgeSection(CategorizeQuery(req.message), context);
    ScanOfSystemAndUser(SystemPrompt + section, req.message, ConversationId(req));
    AppendAssoc(SystemPrompt, section, req.message);
  }

  /** The reply assembled from a finished run: the model's text (absent if
      the response holds none), the conversation id, the sentiment field,
      and the escalation field's ticket, if any. */
  function Reply(run: Pipeline.CallRun, conversation: string): (r: ChatResponse)
    ensures r.message == ResponseText(run.response)
    ensures r.sessionId == conversation && r.sentiment == run.state.lastSentiment
    ensures r.ticketCreated <==> run.state.escalation.lastCreatedTicket.Some?
    ensures r.ticketCreated ==> r.ticketId == Some(run.state.escalation.lastCreatedTicket.value.id)
    ensures !r.ticketCreated ==> r.ticketId.None?
  {
    var ticket := run.state.escalation.lastCreatedTicket;
    ChatResponse(ResponseText(run.response), conversation, run.state.lastSentiment,
                 ticket.Some?, if ticket.Some? then Some(ticket.value.id) else None)
  }

  /** A turn once the request is built: the chain runs around the model and
      its fields and store become the service's. Whatever happens, the
      customer ids the advisors hold are the ones they were given. */
  function Turn(s: Pipeline.AdvisorState, st: Store, request: ClientRequest,
                model: ClientRequest -> ClientResponse): (r: (ChatResponse, Bot))
    ensures r.0.sessionId == request.conversationId
    ensures r.0.sentiment == r.1.advisors.lastSentiment
    ensures r.0.ticketCreated <==> r.1.advisors.escalation.lastCreatedTicket.Some?
    ensures r.0.ticketCreated ==> r.0.ticketId == Some(r.1.advisors.escalation.lastCreatedTicket.value.id)
    ensures r.1.advisors.context == s.context
    ensures r.1.advisors.escalation.currentCustomerId == s.escalation.currentCustomerId
  {
    var run := Pipeline.CallChain(Pipeline.Execution, s, st, request, model);
    (Reply(run, request.conversationId), Bot(run.state, run.store))
  }

  /** The chain's input after the customer id is handed over. */
  function Prepared(bot: Bot, req: ChatRequest): Pipeline.AdvisorState {
    AssignCustomer(bot.advisors, ParseCustomerId(req.customerId))
  }

  /** Why `chat` ends without a reply. */
  datatype ChatFailure =
    | SearchFailed(cause: KbError)  // `getContextForQuery` threw
    | BlankMessage                  // `user(String)` asserts `hasText` on the message

  /** `chat`, with the service as it is afterwards. A failing knowledge-base
      search ends the turn before anything else happens. Otherwise the id is
      handed over; then the chat client refuses a message with no text
      before any advisor runs, and for any other message the turn runs. */
  function Chat(bot: Bot, req: ChatRequest, search: Search, model: ClientRequest -> ClientResponse)
    : (r: (Result<ChatResponse, ChatFailure>, Bot))
    ensures r.0.Failure? <==> search(req.message, ContextTopK).Failure? || !HasText(req.message)
    ensures search(req.message, ContextTopK).Failure? ==>
      r == (Failure(SearchFailed(KnowledgeBaseError(SearchFailurePrefix + search(req.message, ContextTopK).error))), bot)
    ensures search(req.message, ContextTopK).Success? && !HasText(req.message) ==> r.0 == Failure(BlankMessage)
    ensures r.0.Failure? ==> r.1.store == bot.store
    ensures r.0.Success? ==> r.0.value.sessionId == ConversationId(req)
  {
    match GetContextForQuery(search, req.message, ContextTopK)
    case Failure(e) => (Failure(SearchFailed(e)), bot)
    case Success(context) =>
      var prepared := Prepared(bot, req);
      if !HasText(req.message) then (Failure(BlankMessage), Bot(prepared, bot.store))
      else
        var turn := Turn(prepared, bot.store, BuiltRequest(req, context), model);
        (Success(turn.0), turn.1)
  }

  /** The context text of a successful search. */
  function ContextOf(search: Search, req: ChatRequest): string
    requires search(req.message, ContextTopK).Success?
  {
    GetContextForQuery(search, req.message, ContextTopK).value
  }

  /** A successful search and a message with text lead to the turn on the
      request built from the search's context. */
  lemma ChatRunsTurn(bot: Bot, req: ChatRequest, search: Search, model: ClientRequest -> ClientResponse)
    requires search(req.message, ContextTopK).Success? && HasText(req.message)
    ensures var turn := Turn(Prepared(bot, req), bot.store, BuiltRequest(req, ContextOf(search, req)), model);
      Chat(bot, req, search, model) == (Success(turn.0), turn.1)
  {
  }

  /** A blank message gets no reply and reaches no advisor: the sentiment,
      the last ticket and the store stay as they were, but the customer id
      has already been handed over. */
  lemma BlankMessageRunsNoAdvisor(bot: Bot, req: ChatRequest, search: Search,
                                  model: ClientRequest -> ClientResponse)
    requires search(req.message, ContextTopK).Success? && !HasText(req.message)
    ensures var r := Chat(bot, req, search, model);
      && r.0 == Failure(BlankMessage)
      && r.1.store == bot.store
      && r.1.advisors.lastSentiment == bot.advisors.lastSentiment
      && r.1.advisors.escalation.lastCreatedTicket == bot.advisors.escalation.lastCreatedTicket
      && r.1.advisors == Prepared(bot, req)
  {
  }

  /** The empty message and one of spaces and line breaks are blank; a
      no-break space is not whitespace to Java, so it is text. */
  lemma BlankExamples()
    ensures !HasText("") && !HasText(" \t\r\n")
    ensures HasText("\U{A0}")
  {
    assert !IsJavaWhitespace("\U{A0}"[0]);
  }

  /** `simpleChat`: an anonymous turn, reduced to the reply text. */
  function SimpleChat(bot: Bot, message: string, search: Search, model: ClientRequest -> ClientResponse)
    : (r: (Result<Option<string>, ChatFailure>, Bot))
    ensures r.0.Failure? <==> search(message, ContextTopK).Failure? || !HasText(message)
    ensures r.0.Failure? ==> r.1.store == bot.store
  {
    match Chat(bot, AnonymousRequest(message), search, model)
    case (Failure(e), after) => (Failure(e), after)
    case (Success(reply), after) => (Success(reply.message), after)
  }

  /** `String.valueOf` of a possibly-null `Long`. */
  function LongValueOf(id: Option<int>): string {
    if id.Some? then LongToString(id.value) else "null"
  }

  /** `chatWithCustomer`: the id, as text, becomes the request's customer id. */
  function ChatWithCustomer(bot: Bot, message: string, id: Option<int>, search: Search,
                            model: ClientRequest -> ClientResponse)
    : (r: (Result<ChatResponse, ChatFailure>, Bot))
    ensures r.0.Failure? <==> search(message, ContextTopK).Failure? || !HasText(message)
    ensures r.0.Failure? ==> r.1.store == bot.store
  {
    Chat(bot, ChatRequest(message, Some(LongValueOf(id)), None), search, model)
  }

  // ---------------------------------------------------------------------
  // What a turn does with ids
  // ---------------------------------------------------------------------

  /** Once the search succeeds, a parsed id is handed to both advisors,
      whether or not the message is then refused as blank; a missing or
      unparsable one leaves the previous turn's ids in place. */
  lemma CustomerIdHandover(bot: Bot, req: ChatRequest, search: Search, model: ClientRequest -> ClientResponse)
    requires search(req.message, ContextTopK).Success?
    ensures var after := Chat(bot, req, search, model).1.advisors;
      var parsed := ParseCustomerId(req.customerId);
      && (parsed.Some? ==> after.context.currentCustomerId == parsed && after.escalation.currentCustomerId == parsed)
      && (parsed.None? ==> after.context == bot.advisors.context)
      && (parsed.None? ==> after.escalation.currentCustomerId == bot.advisors.escalation.currentCustomerId)
  {
    if HasText(req.message) {
      ChatRunsTurn(bot, req, search, model);
    }
  }

  /** `chatWithCustomer(m, n)` hands `n` to both advisors and, for a message
      with text, talks in conversation "customer-n". */
  lemma ChatWithCustomerUsesId(bot: Bot, message: string, n: int, search: Search,
                               model: ClientRequest -> ClientResponse)
    requires IsLong(n) && search(message, ContextTopK).Success?
    ensures var turn := ChatWithCustomer(bot, message, Some(n), search, model);
      && (HasText(message) ==> turn.0.Success? && turn.0.value.sessionId == CustomerPrefix + LongToString(n))
      && turn.1.advisors.context.currentCustomerId == Some(n)
      && turn.1.advisors.escalation.currentCustomerId == Some(n)
  {
    var req := ChatRequest(message, Some(LongValueOf(Some(n))), None);
    ParseCustomerIdRoundTrip(n);
    CustomerIdHandover(bot, req, search, model);
  }

  /** A null id becomes the text "null": the conversation is
      "customer-null" and, as "null" is no number, the ids stay as they were. */
  lemma ChatWithNullCustomer(bot: Bot, message: string, search: Search,
                             model: ClientRequest -> ClientResponse)
    requires search(message, ContextTopK).Success?
    ensures var turn := ChatWithCustomer(bot, message, None, search, model);
      && (HasText(message) ==> turn.0.Success? && turn.0.value.sessionId == CustomerPrefix + "null")
      && turn.1.advisors.context == bot.advisors.context
      && turn.1.advisors.escalation.currentCustomerId == bot.advisors.escalation.currentCustomerId
  {
    var req := ChatRequest(message, Some("null"), None);
    ParseCustomerIdRejects("null", 0);
    CustomerIdHandover(bot, req, search, model);
  }

  /** `simpleChat` is anonymous and touches no id. */
  lemma SimpleChatIsAnonymous(bot: Bot, message: string, search: Search,
                              model: ClientRequest -> ClientResponse)
    requires search(message, ContextTopK).Success?
    ensures var after := SimpleChat(bot, message, search, model).1;
      && after.advisors.context == bot.advisors.context
      && after.advisors.escalation.currentCustomerId == bot.advisors.escalation.currentCustomerId
    ensures HasText(message) ==>
      Chat(bot, AnonymousRequest(message), search, model).0.value.sessionId == AnonymousConversation
  {
    CustomerIdHandover(bot, AnonymousRequest(message), search, model);
  }

  // ---------------------------------------------------------------------
  // What the advisors see
  // ---------------------------------------------------------------------

  /** Any text that starts with the system prompt holds "Escalate" and
      "helpful", lower-cased. */
  lemma {:induction false} PromptWordsKept(opening: string, middle: string, closing: string, tail: string)
    ensures var t := Lower(opening + "Escalate" + middle + "helpful" + closing + tail);
      Contains(t, Lower("Escalate")) && Contains(t, Lower("helpful"))
  {
    assert opening + "Escalate" + middle + "helpful" + closing + tail
      == opening + "Escalate" + (middle + "helpful" + closing + tail);
    LowerKeepsWord(opening, "Escalate", middle + "helpful" + closing + tail);
    assert opening + "Escalate" + middle + "helpful" + closing + tail
      == (opening + "Escalate" + middle) + "helpful" + (closing + tail);
    LowerKeepsWord(opening + "Escalate" + middle, "helpful", closing + tail);
  }

  lemma PromptWordsListed()
    ensures Lower("Escalate") == Lower("escalate") && "escalate" in Escalation.EscalationPhrases
    ensures "helpful" in Sentiment.PositiveWords
  {
    assert Escalation.EscalationPhrases[9] == "escalate";
    assert Sentiment.PositiveWords[8] == "helpful";
  }

  /** The system prompt followed by anything mentions an escalation phrase
      and a positive word. */
  lemma PromptMentionsTriggers(tail: string)
    ensures MentionsAny(Lower(SystemPrompt + tail), Escalation.EscalationPhrases)
    ensures MentionsAny(Lower(SystemPrompt + tail), Sentiment.PositiveWords)
  {
    PromptWordsKept(PromptOpening, PromptMiddle, PromptClosing, tail);
    PromptWordsListed();
  }

  /** Whatever the message and context, the scanned text holds "Escalate"
      and "helpful" from the system prompt. */
  lemma ScannedTextHoldsPromptWords(req: ChatRequest, context: string)
    ensures var text := Lower(ScannedText(BuiltRequest(req, context)));
      MentionsAny(text, Escalation.EscalationPhrases) && MentionsAny(text, Sentiment.PositiveWords)
  {
    BuiltRequestScan(req, context);
    var tail := KnowledgeSection(CategorizeQuery(req.message), context) + req.message;
    PromptWordsKept(PromptOpening, PromptMiddle, PromptClosing, tail);
    Escalation.EscalateLowered();
  }

  /** A user text the safety advisor refuses is refused after any system
      text too. */
  lemma RefusedUserText(system: string, user: string, conversationId: string)
    requires var m := Lower(user);
      Safety.ContainsAbusiveLanguage(m) || Safety.ContainsBlockedContent(m)
    ensures Safety.AdviseCall(SystemAndUser(system, user, conversationId)).Respond?
  {
    ScanOfSystemAndUser(system, user, conversationId);
    LowerAppend(system, user);
    if Safety.ContainsAbusiveLanguage(Lower(user)) {
      MentionsAnyAfter(Lower(system), Lower(user), Safety.AbusivePhrases);
    } else {
      MentionsAnyAfter(Lower(system), Lower(user), Safety.BlockedWords);
    }
  }

  /** A message the safety advisor refuses is refused inside the whole
      prompt too. */
  lemma RefusedMessageBlocksChat(req: ChatRequest, context: string)
    requires var m := Lower(req.message);
      Safety.ContainsAbusiveLanguage(m) || Safety.ContainsBlockedContent(m)
    ensures Safety.AdviseCall(BuiltRequest(req, context)).Respond?
  {
    RefusedUserText(EnhancedSystemPrompt(CategorizeQuery(req.message), context), req.message, ConversationId(req));
  }

  // ---------------------------------------------------------------------
  // Consequences for the reply
  // ---------------------------------------------------------------------

  /** A turn the safety advisor refuses replies with one of the canned
      texts and reports the sentiment and ticket left by the previous turn:
      the sentiment and escalation advisors never ran. Nothing changes. */
  lemma RefusedTurn(s: Pipeline.AdvisorState, st: Store, request: ClientRequest,
                    model: ClientRequest -> ClientResponse)
    requires Safety.AdviseCall(request).Respond?
    ensures var turn := Turn(s, st, request, model);
      var reply := turn.0; var after := turn.1;
      && reply.message == ResponseText(Safety.AdviseCall(request).response)
      && (reply.message == Some(Safety.AbusiveResponse) || reply.message == Some(Safety.BlockedResponse))
      && reply.sentiment == s.lastSentiment
      && (reply.ticketCreated <==> s.escalation.lastCreatedTicket.Some?)
      && after == Bot(s, st)
  {
    Pipeline.BlockedRunIsStale(s, st, request, model);
  }

  /** A turn past safety replies with the model's text; its sentiment is the
      scanned text's, and its ticket is the one escalation created. */
  lemma PassedTurn(s: Pipeline.AdvisorState, st: Store, request: ClientRequest,
                   model: ClientRequest -> ClientResponse)
    requires Safety.AdviseCall(request).Forward?
    ensures var turn := Turn(s, st, request, model);
      var reply := turn.0; var after := turn.1;
      && reply.message == ResponseText(model(request))
      && reply.sentiment == Sentiment.AnalyzeSentiment(Lower(ScannedText(request)))
      && after.advisors.escalation == Escalation.Escalate(s.escalation, st, request).state
      && after.store == Escalation.Escalate(s.escalation, st, request).store
  {
    Pipeline.ForwardedRun(s, st, request, model);
  }

  /** A refused message gets one of the canned replies with the previous
      turn's sentiment and ticket, and nothing is stored, whatever system
      text precedes it: in particular whatever context the search produced. */
  lemma RefusedTurnReportsStaleState(s: Pipeline.AdvisorState, st: Store, system: string, message: string,
                                     conversationId: string, model: ClientRequest -> ClientResponse)
    requires var m := Lower(message);
      Safety.ContainsAbusiveLanguage(m) || Safety.ContainsBlockedContent(m)
    ensures var turn := Turn(s, st, SystemAndUser(system, message, conversationId), model);
      var reply := turn.0; var after := turn.1;
      && (reply.message == Some(Safety.AbusiveResponse) || reply.message == Some(Safety.BlockedResponse))
      && reply.sentiment == s.lastSentiment
      && (reply.ticketCreated <==> s.escalation.lastCreatedTicket.Some?)
      && after == Bot(s, st)
  {
    RefusedUserText(system, message, conversationId);
    RefusedTurn(s, st, SystemAndUser(system, message, conversationId), model);
  }

  /** When the request gets past safety, the sentiment is never neutral,
      whatever the message says: the system prompt's own "helpful" is
      scanned. */
  lemma PassedTurnIsNeverNeutral(s: Pipeline.AdvisorState, st: Store, req: ChatRequest, context: string,
                                 model: ClientRequest -> ClientResponse)
    requires Safety.AdviseCall(BuiltRequest(req, context)).Forward?
    ensures var turn := Turn(s, st, BuiltRequest(req, context), model);
      var reply := turn.0;
      reply.sentiment != Neutral && reply.message == ResponseText(model(BuiltRequest(req, context)))
  {
    var request := BuiltRequest(req, context);
    PassedTurn(s, st, request, model);
    ScannedTextHoldsPromptWords(req, context);
    Sentiment.AnalyzePrecedence(Lower(ScannedText(request)));
  }

  /** When the request gets past safety, a customer known to the store
      always gets a new ticket: the system prompt's own "Escalate" is
      scanned. */
  lemma KnownCustomerAlwaysGetsTicket(s: Pipeline.AdvisorState, st: Store, req: ChatRequest, context: string,
                                      model: ClientRequest -> ClientResponse)
    requires Safety.AdviseCall(BuiltRequest(req, context)).Forward?
    requires Valid(st)
    requires s.escalation.currentCustomerId.Some? && s.escalation.currentCustomerId.value in st.customers
    ensures var turn := Turn(s, st, BuiltRequest(req, context), model);
      var reply := turn.0; var after := turn.1;
      && reply.ticketCreated && reply.ticketId.Some?
      && reply.ticketId.value !in st.tickets
      && reply.ticketId.value in after.store.tickets
  {
    var request := BuiltRequest(req, context);
    PassedTurn(s, st, request, model);
    ScannedTextHoldsPromptWords(req, context);
    Escalation.KnownCustomerGetsTicket(s.escalation, st, request);
  }

  /** Through a chat turn every escalation ticket is a support ticket of
      medium or high priority: the system prompt's own "Escalate" is the
      tenth phrase, so the trigger is always one of the first ten, and none
      of them names money, cancellation or the law. A message such as "I
      want a refund" therefore never yields a billing or critical ticket
      this way. */
  lemma ChatTicketIsSupport(s: Pipeline.AdvisorState, st: Store, req: ChatRequest, context: string,
                            model: ClientRequest -> ClientResponse)
    requires Safety.AdviseCall(BuiltRequest(req, context)).Forward?
    requires s.escalation.currentCustomerId.Some? && s.escalation.currentCustomerId.value in st.customers
    ensures var t := Turn(s, st, BuiltRequest(req, context), model).1.advisors.escalation.lastCreatedTicket;
      && t.Some?
      && t.value.category == "support"
      && (t.value.priority == Medium || t.value.priority == High)
  {
    var request := BuiltRequest(req, context);
    PassedTurn(s, st, request, model);
    ScannedTextHoldsEscalate(req, context);
    Escalation.EscalateMentionedGivesSupport(Lower(ScannedText(request)));
    Escalation.TicketOfTrigger(s.escalation, st, request);
  }

  /** The scanned text of every built request holds the tenth escalation
      phrase, "escalate". */
  lemma ScannedTextHoldsEscalate(req: ChatRequest, context: string)
    ensures Contains(Lower(ScannedText(BuiltRequest(req, context))), "escalate")
  {
    BuiltRequestScan(req, context);
    var tail := KnowledgeSection(CategorizeQuery(req.message), context) + req.message;
    PromptWordsKept(PromptOpening, PromptMiddle, PromptClosing, tail);
    Escalation.EscalateLowered();
  }
}

=== FILE: text.dfy ===
/** The string primitives the support bot is built from: Java's
    `toLowerCase`/`toUpperCase` (restricted to ASCII letters), `contains`,
    the "does the text mention any word of this list" idiom, the "first word
    of the list the text mentions" idiom, and `Collectors.joining`. */
module Text {
  import opened Wrappers

  function LowerChar(c: char): char {
    if 'A' <= c <= 'Z' then (c as int + 32) as char else c
  }

  function UpperChar(c: char): char {
    if 'a' <= c <= 'z' then (c as int - 32) as char else c
  }

  /** `String.toLowerCase()` on ASCII letters; every other character is kept. */
  function Lower(s: string): (r: string)
    ensures |r| == |s|
    ensures forall i :: 0 <= i < |s| ==> r[i] == LowerChar(s[i])
  {
    seq(|s|, i requires 0 <= i < |s| => LowerChar(s[i]))
  }

  /** `String.toUpperCase()` on ASCII letters; every other character is kept. */
  function Upper(s: string): (r: string)
    ensures |r| == |s|
    ensures forall i :: 0 <= i < |s| ==> r[i] == UpperChar(s[i])
  {
    seq(|s|, i requires 0 <= i < |s| => UpperChar(s[i]))
  }

  /** No ASCII upper-case letter occurs in `s`. */
  predicate NoUpper(s: string) {
    forall c | c in s :: !('A' <= c <= 'Z')
  }

  lemma LowerOfNoUpper(s: string)
    requires NoUpper(s)
    ensures Lower(s) == s
  {
    assert forall i | 0 <= i < |s| :: s[i] in s;
  }

  lemma LowerIdempotent(s: string)
    ensures Lower(Lower(s)) == Lower(s)
  {
  }

  lemma LowerAppend(a: string, b: string)
    ensures Lower(a + b) == Lower(a) + Lower(b)
  {
    assert forall i | 0 <= i < |a| :: (a + b)[i] == a[i];
    assert forall i | |a| <= i < |a| + |b| :: (a + b)[i] == b[i - |a|];
  }

  // ---------------------------------------------------------------------
  // Substring search
  // ---------------------------------------------------------------------

  /** `w[j..]` sits in `s` at position `i + j`. */
  predicate MatchesFrom(s: string, w: string, i: nat, j: nat)
    requires i + |w| <= |s| && j <= |w|
    decreases |w| - j
  {
    j == |w| || (s[i + j] == w[j] && MatchesFrom(s, w, i, j + 1))
  }

  predicate OccursAt(s: string, w: string, i: nat) {
    i + |w| <= |s| && MatchesFrom(s, w, i, 0)
  }

  /** Some occurrence of `w` in `s` starts at position `i` or later. */
  predicate ContainsFrom(s: string, w: string, i: nat)
    decreases |s| - i
  {
    i + |w| <= |s| && (OccursAt(s, w, i) || ContainsFrom(s, w, i + 1))
  }

  /** `String.contains`: `w` occurs somewhere in `s`. */
  predicate Contains(s: string, w: string) {
    ContainsFrom(s, w, 0)
  }

  /** `w` is the slice of `s` that starts at position `k`. */
  ghost predicate SliceAt(s: string, w: string, k: nat) {
    k + |w| <= |s| && s[k..k + |w|] == w
  }

  /** The reference reading of "contains": some slice of `s` equals `w`. */
  ghost predicate IsSubstring(w: string, s: string) {
    exists k: nat :: SliceAt(s, w, k)
  }

  lemma {:induction false} MatchesFromIff(s: string, w: string, i: nat, j: nat)
    requires i + |w| <= |s| && j <= |w|
    ensures MatchesFrom(s, w, i, j) <==> s[i + j..i + |w|] == w[j..]
    decreases |w| - j
  {
    if j < |w| {
      MatchesFromIff(s, w, i, j + 1);
      assert s[i + j..i + |w|] == [s[i + j]] + s[i + j + 1..i + |w|];
      assert w[j..] == [w[j]] + w[j + 1..];
    }
  }

  lemma OccursAtIff(s: string, w: string, i: nat)
    ensures OccursAt(s, w, i) <==> SliceAt(s, w, i)
  {
    if i + |w| <= |s| {
      MatchesFromIff(s, w, i, 0);
    }
  }

  lemma {:induction false} ContainsFromIff(s: string, w: string, i: nat)
    ensures ContainsFrom(s, w, i) <==> exists k: nat :: i <= k && SliceAt(s, w, k)
    decreases |s| - i
  {
    OccursAtIff(s, w, i);
    if i + |w| <= |s| {
      ContainsFromIff(s, w, i + 1);
      if exists k: nat :: i <= k && SliceAt(s, w, k) {
        var k: nat :| i <= k && SliceAt(s, w, k);
        assert k == i || (i + 1 <= k && SliceAt(s, w, k));
      }
    }
  }

  /** The search agrees with the reference reading, in both directions. */
  lemma ContainsIff(s: string, w: string)
    ensures Contains(s, w) <==> IsSubstring(w, s)
  {
    ContainsFromIff(s, w, 0);
  }

  /** Substring matching is monotone: what occurs in `b` occurs in `a + b + c`. */
  lemma ContainsInfix(a: string, b: string, c: string, w: string)
    requires Contains(b, w)
    ensures Contains(a + b + c, w)
  {
    ContainsIff(b, w);
    var k: nat :| SliceAt(b, w, k);
    var s := a + b + c;
    assert s[|a| + k..|a| + k + |w|] == b[k..k + |w|];
    assert SliceAt(s, w, |a| + k);
    ContainsIff(s, w);
  }

  /** No position of `s` holds `c`. */
  predicate Lacks(s: string, c: char) {
    forall i | 0 <= i < |s| :: s[i] != c
  }

  /** A character missing from both halves is missing from the whole. */
  lemma LacksAppend(a: string, b: string)
    ensures forall c: char :: Lacks(a, c) && Lacks(b, c) ==> Lacks(a + b, c)
  {
    forall c: char | Lacks(a, c) && Lacks(b, c)
      ensures Lacks(a + b, c)
    {
      forall i | 0 <= i < |a + b|
        ensures (a + b)[i] != c
      {
        if i >= |a| { assert (a + b)[i] == b[i - |a|]; }
      }
    }
  }

  /** A word holding a character the text lacks is not contained in it. */
  lemma NotContainsMissingChar(s: string, w: string, c: char)
    requires c in w && Lacks(s, c)
    ensures !Contains(s, w)
  {
    var j :| 0 <= j < |w| && w[j] == c;
    forall k: nat | k + |w| <= |s|
      ensures !SliceAt(s, w, k)
    {
      assert s[k..k + |w|][j] == s[k + j];
    }
    ContainsIff(s, w);
  }

  /** The same for a word the source lower-cases first: a character other
      than an upper-case letter survives lower-casing. */
  lemma NotContainsMissingLowerChar(s: string, w: string, c: char)
    requires c in w && Lacks(s, c) && !('A' <= c <= 'Z')
    ensures !Contains(s, Lower(w))
  {
    var j :| 0 <= j < |w| && w[j] == c;
    assert Lower(w)[j] == c;
    NotContainsMissingChar(s, Lower(w), c);
  }

  lemma PrefixOfAppend(a: string, b: string)
    ensures (a + b)[..|a|] == a
  {
  }

  lemma SuffixOfAppend(a: string, b: string)
    ensures (a + b)[|a + b| - |b|..] == b
  {
  }

  lemma AppendAssoc(a: string, b: string, c: string)
    ensures a + b + c == a + (b + c)
  {
  }

  /** The same, naming the character by its position in the word. */
  lemma NotContainsLowerCharAt(s: string, w: string, j: nat)
    requires j < |w| && Lacks(s, w[j]) && !('A' <= w[j] <= 'Z')
    ensures !Contains(s, Lower(w))
  {
    NotContainsMissingLowerChar(s, w, w[j]);
  }

  /** A word written inside a text is found, lower-cased, in the lower-cased
      text. */
  lemma LowerKeepsWord(a: string, w: string, b: string)
    ensures Contains(Lower(a + w + b), Lower(w))
  {
    LowerAppend(a + w, b);
    LowerAppend(a, w);
    ContainsItself(Lower(w));
    ContainsInfix(Lower(a), Lower(w), Lower(b), Lower(w));
  }

  lemma ContainsItself(s: string)
    ensures Contains(s, s)
  {
    assert s[0..|s|] == s;
    assert SliceAt(s, s, 0);
    ContainsIff(s, s);
  }

  // ---------------------------------------------------------------------
  // Word lists
  // ---------------------------------------------------------------------

  /** `words.stream().anyMatch(w -> text.contains(w))`. */
  predicate ContainsAny(text: string, words: seq<string>) {
    exists w :: w in words && Contains(text, w)
  }

  /** `words.stream().anyMatch(w -> text.contains(w.toLowerCase()))`. */
  predicate MentionsAny(text: string, words: seq<string>) {
    exists w :: w in words && Contains(text, Lower(w))
  }

  /** Every word of the list is written in lower case. */
  predicate LowerCaseWords(words: seq<string>) {
    forall w | w in words :: NoUpper(w)
  }

  /** Text put in front of a text that mentions a word still mentions it. */
  lemma MentionsAnyAfter(a: string, b: string, words: seq<string>)
    requires MentionsAny(b, words)
    ensures MentionsAny(a + b, words)
  {
    var w :| w in words && Contains(b, Lower(w));
    ContainsInfix(a, b, "", Lower(w));
    assert a + b + "" == a + b;
  }

  /** Mentioning a word of the list is containing, lower-cased, the word at
      some index of it. */
  lemma MentionsAnyByIndex(text: string, words: seq<string>)
    ensures MentionsAny(text, words) <==>
      exists j | 0 <= j < |words| :: Contains(text, Lower(words[j]))
  {
    if MentionsAny(text, words) {
      var w :| w in words && Contains(text, Lower(w));
      var j :| 0 <= j < |words| && words[j] == w;
      assert Contains(text, Lower(words[j]));
    }
    if exists j | 0 <= j < |words| :: Contains(text, Lower(words[j])) {
      var j :| 0 <= j < |words| && Contains(text, Lower(words[j]));
      assert words[j] in words;
    }
  }

  /** Lower-casing a lower-case word list changes nothing. */
  lemma MentionsAnyOfLowerCase(text: string, words: seq<string>)
    requires LowerCaseWords(words)
    ensures MentionsAny(text, words) <==> ContainsAny(text, words)
  {
    forall w | w in words
      ensures Lower(w) == w
    {
      LowerOfNoUpper(w);
    }
  }

  /** The first index from `k` on whose (lower-cased) word `text` contains:
      `words.stream().filter(w -> text.contains(w.toLowerCase())).findFirst()`. */
  function FirstMentionFrom(text: string, words: seq<string>, k: nat): (r: Option<nat>)
    decreases |words| - k
    ensures r.Some? ==> k <= r.value < |words| && Contains(text, Lower(words[r.value]))
    ensures r.Some? ==> forall j :: k <= j < r.value ==> !Contains(text, Lower(words[j]))
    ensures r.None? ==> forall j :: k <= j < |words| ==> !Contains(text, Lower(words[j]))
  {
    if k >= |words| then None
    else if Contains(text, Lower(words[k])) then Some(k)
    else FirstMentionFrom(text, words, k + 1)
  }

  function FirstMention(text: string, words: seq<string>): Option<nat> {
    FirstMentionFrom(text, words, 0)
  }

  /** A first mention exists exactly when the text mentions some word. */
  lemma FirstMentionIffMentions(text: string, words: seq<string>)
    ensures FirstMention(text, words).Some? <==> MentionsAny(text, words)
  {
    var r := FirstMention(text, words);
    if r.Some? {
      assert words[r.value] in words;
    }
    if MentionsAny(text, words) {
      var w :| w in words && Contains(text, Lower(w));
      var j :| 0 <= j < |words| && words[j] == w;
      assert Contains(text, Lower(words[j]));
    }
  }

  // ---------------------------------------------------------------------
  // Joining
  // ---------------------------------------------------------------------

  /** `Collectors.joining(sep)`: the parts in order, `sep` between neighbours. */
  function Join(parts: seq<string>, sep: string): string
    decreases |parts|
  {
    if |parts| == 0 then ""
    else if |parts| == 1 then parts[0]
    else parts[0] + sep + Join(parts[1..], sep)
  }

  function TotalLength(parts: seq<string>): nat
    decreases |parts|
  {
    if |parts| == 0 then 0 else |parts[0]| + TotalLength(parts[1..])
  }

  /** n parts are joined with exactly n - 1 separators and nothing else. */
  lemma {:induction false} JoinLength(parts: seq<string>, sep: string)
    requires |parts| >= 1
    ensures |Join(parts, sep)| == TotalLength(parts) + (|parts| - 1) * |sep|
    decreases |parts|
  {
    if |parts| > 1 {
      JoinLength(parts[1..], sep);
    }
  }

  /** The joined text starts with the first part and ends with the last one. */
  lemma {:induction false} JoinEnds(parts: seq<string>, sep: string)
    requires |parts| >= 1
    ensures Join(parts, sep)[..|parts[0]|] == parts[0]
    ensures |Join(parts, sep)| >= |parts[|parts| - 1]|
    ensures Join(parts, sep)[|Join(parts, sep)| - |parts[|parts| - 1]|..] == parts[|parts| - 1]
    decreases |parts|
  {
    if |parts| > 1 {
      JoinEnds(parts[1..], sep);
      var rest := Join(parts[1..], sep);
      assert Join(parts, sep) == (parts[0] + sep) + rest;
    }
  }

  // ---------------------------------------------------------------------
  // UTF-16 length
  // ---------------------------------------------------------------------

  /** A Java `String` is a sequence of UTF-16 code units: a character beyond
      U+FFFF takes a surrogate pair. */
  function Utf16Units(c: char): nat {
    if c as int >= 0x1_0000 then 2 else 1
  }

  /** `String.length()`: the number of UTF-16 code units, which equals the
      number of characters exactly when none lies beyond U+FFFF. */
  function Utf16Length(s: string): (r: nat)
    ensures |s| <= r <= 2 * |s|
    ensures r == |s| <==> forall i | 0 <= i < |s| :: s[i] as int < 0x1_0000
    decreases |s|
  {
    if |s| == 0 then 0
    else Utf16Length(s[..|s| - 1]) + Utf16Units(s[|s| - 1])
  }

  /** Code units add up over concatenation. */
  lemma {:induction false} Utf16LengthAppend(a: string, b: string)
    ensures Utf16Length(a + b) == Utf16Length(a) + Utf16Length(b)
    decreases |b|
  {
    if |b| == 0 {
      assert a + b == a;
    } else {
      assert (a + b)[..|a + b| - 1] == a + b[..|b| - 1];
      assert (a + b)[|a + b| - 1] == b[|b| - 1];
      Utf16LengthAppend(a, b[..|b| - 1]);
    }
  }

  // ---------------------------------------------------------------------
  // Blank text
  // ---------------------------------------------------------------------

  /** `Character.isWhitespace`: the ASCII controls tab to carriage return,
      the file to unit separators, and the Unicode space, line and paragraph
      separators other than the three no-break spaces. */
  predicate IsJavaWhitespace(c: char) {
    || c == ' ' || '\t' <= c <= '\r' || '\U{1C}' <= c <= '\U{1F}'
    || c == '\U{1680}' || '\U{2000}' <= c <= '\U{2006}' || '\U{2008}' <= c <= '\U{200A}'
    || c == '\U{2028}' || c == '\U{2029}' || c == '\U{205F}' || c == '\U{3000}'
  }

  /** Spring's `StringUtils.hasText`: some character is not whitespace. */
  predicate HasText(s: string) {
    exists i | 0 <= i < |s| :: !IsJavaWhitespace(s[i])
  }
}

=== FILE: ticket_service.dfy ===
/** `TicketService`: opening, reading, updating and listing support tickets
    over the ticket store. A missing customer or ticket is an error value
    instead of an exception; the lists come back as sets because the order
    the database returns is not specified. */
module TicketService {
  import opened Wrappers
  import opened Domain
  import opened Store

  /** A ticket opened through the service: open, not escalated, with the
      caller's fields. */
  function NewTicket(customerId: int, subject: string, description: string,
                     priority: TicketPriority, category: string): (t: Ticket)
    ensures t.customerId == customerId && t.status == Open && !t.escalated
    ensures t.subject == subject && t.description == description
    ensures t.priority == priority && t.category == category
  {
    Ticket(0, customerId, subject, description, priority, category, Open, false)
  }

  /** `createTicket`: the new ticket's DTO and the store holding it. */
  function CreateTicket(st: Store, customerId: int, subject: string, description: string,
                        priority: TicketPriority, category: string): (r: Result<(TicketDto, Store), ServiceError>)
    ensures r.Failure? <==> customerId !in st.customers
    ensures r.Failure? ==> r.error == CustomerNotFound(customerId)
    ensures r.Success? ==>
      && r.value.0.id == st.nextTicketId
      && r.value.0.status == Open
      && r.value.1.tickets == st.tickets[st.nextTicketId :=
           NewTicket(customerId, subject, description, priority, category).(id := st.nextTicketId)]
      && r.value.1.customers == st.customers
  {
    match FindCustomer(st, customerId)
    case None => Failure(CustomerNotFound(customerId))
    case Some(customer) =>
      var saved := InsertTicket(st, NewTicket(customerId, subject, description, priority, category));
      Success((TicketToDto(saved.0), saved.1))
  }

  /** `getTicket`. */
  function GetTicket(st: Store, ticketId: int): (r: Result<TicketDto, ServiceError>)
    ensures r.Failure? <==> ticketId !in st.tickets
    ensures r.Failure? ==> r.error == TicketNotFound(ticketId)
    ensures r.Success? ==> r.value == TicketToDto(st.tickets[ticketId])
  {
    match FindTicket(st, ticketId)
    case None => Failure(TicketNotFound(ticketId))
    case Some(t) => Success(TicketToDto(t))
  }

  /** A created ticket can be read back, with the fields it was given. */
  lemma CreateThenGet(st: Store, customerId: int, subject: string, description: string,
                      priority: TicketPriority, category: string)
    requires customerId in st.customers
    ensures var created := CreateTicket(st, customerId, subject, description, priority, category);
      && created.Success?
      && GetTicket(created.value.1, created.value.0.id) == Success(created.value.0)
      && created.value.0.subject == subject && created.value.0.description == description
      && created.value.0.priority == priority && created.value.0.category == category
      && !created.value.0.escalated
  {
  }

  /** An unknown customer gets no ticket and the store is not touched. */
  lemma CreateForUnknownCustomer(st: Store, customerId: int, subject: string, description: string,
                                 priority: TicketPriority, category: string)
    requires Valid(st) && customerId !in st.customers
    ensures CreateTicket(st, customerId, subject, description, priority, category)
      == Failure(CustomerNotFound(customerId))
    ensures forall id | id in st.tickets :: st.tickets[id].customerId != customerId
  {
  }

  /** Creating keeps the store valid and adds exactly one ticket. */
  lemma CreateKeepsStoreValid(st: Store, customerId: int, subject: string, description: string,
                              priority: TicketPriority, category: string)
    requires Valid(st) && customerId in st.customers
    ensures var after := CreateTicket(st, customerId, subject, description, priority, category).value.1;
      && Valid(after)
      && after.tickets.Keys == st.tickets.Keys + {st.nextTicketId}
      && st.nextTicketId !in st.tickets
  {
    InsertTicketValid(st, NewTicket(customerId, subject, description, priority, category));
  }

  // ---------------------------------------------------------------------
  // Lists
  // ---------------------------------------------------------------------

  /** `getTicketsForCustomer`: the DTOs of the customer's tickets. */
  function TicketsForCustomer(st: Store, customerId: int): (r: set<TicketDto>)
    ensures forall id | id in st.tickets && st.tickets[id].customerId == customerId ::
      TicketToDto(st.tickets[id]) in r
    ensures forall d | d in r :: exists id | id in st.tickets && st.tickets[id].customerId == customerId ::
      d == TicketToDto(st.tickets[id])
  {
    set id | id in st.tickets && st.tickets[id].customerId == customerId :: TicketToDto(st.tickets[id])
  }

  /** `getActiveTicketsForCustomer`: those of the customer's tickets that
      are neither closed nor resolved. */
  function ActiveTicketsForCustomer(st: Store, customerId: int): (r: set<TicketDto>)
    ensures forall d | d in r :: IsActiveStatus(d.status)
  {
    set id | id in st.tickets && st.tickets[id].customerId == customerId
               && IsActiveStatus(st.tickets[id].status) :: TicketToDto(st.tickets[id])
  }

  /** The active list is the full list cut down to active statuses. */
  lemma ActiveIsFilteredFull(st: Store, customerId: int)
    ensures forall d :: d in ActiveTicketsForCustomer(st, customerId) <==>
      d in TicketsForCustomer(st, customerId) && IsActiveStatus(d.status)
  {
  }

  /** `getEscalatedTickets`: every escalated ticket that is not closed. */
  function EscalatedTickets(st: Store): (r: set<TicketDto>)
    ensures forall d | d in r :: d.escalated && d.status != Closed
  {
    set id | id in st.tickets && st.tickets[id].escalated && st.tickets[id].status != Closed
      :: TicketToDto(st.tickets[id])
  }

  /** A ticket is listed as escalated exactly when it is escalated and not
      closed; a resolved escalated ticket therefore still needs attention. */
  lemma EscalatedMembership(st: Store, id: int)
    requires id in st.tickets
    ensures TicketToDto(st.tickets[id]) in EscalatedTickets(st) <==>
      st.tickets[id].escalated && st.tickets[id].status != Closed
  {
    if TicketToDto(st.tickets[id]) in EscalatedTickets(st) {
      var j :| j in st.tickets && st.tickets[j].escalated && st.tickets[j].status != Closed
               && TicketToDto(st.tickets[j]) == TicketToDto(st.tickets[id]);
    }
  }

  // ---------------------------------------------------------------------
  // Updates
  // ---------------------------------------------------------------------

  /** `updateStatus`: any status may follow any other. */
  function UpdateStatus(st: Store, ticketId: int, status: TicketStatus): (r: Result<(TicketDto, Store), ServiceError>)
    ensures r.Failure? <==> ticketId !in st.tickets
    ensures r.Failure? ==> r.error == TicketNotFound(ticketId)
    ensures r.Success? ==>
      && r.value.1.tickets == st.tickets[ticketId := st.tickets[ticketId].(status := status)]
      && r.value.1.customers == st.customers
      && r.value.0 == TicketToDto(st.tickets[ticketId]).(status := status)
  {
    match FindTicket(st, ticketId)
    case None => Failure(TicketNotFound(ticketId))
    case Some(t) =>
      var updated := t.(status := status);
      Success((TicketToDto(updated), UpdateTicket(st, ticketId, updated)))
  }

  /** `updatePriority`: only the priority changes. */
  function UpdatePriority(st: Store, ticketId: int, priority: TicketPriority): (r: Result<(TicketDto, Store), ServiceError>)
    ensures r.Failure? <==> ticketId !in st.tickets
    ensures r.Failure? ==> r.error == TicketNotFound(ticketId)
    ensures r.Success? ==>
      && r.value.1.tickets == st.tickets[ticketId := st.tickets[ticketId].(priority := priority)]
      && r.value.1.customers == st.customers
      && r.value.0 == TicketToDto(st.tickets[ticketId]).(priority := priority)
  {
    match FindTicket(st, ticketId)
    case None => Failure(TicketNotFound(ticketId))
    case Some(t) =>
      var updated := t.(priority := priority);
      Success((TicketToDto(updated), UpdateTicket(st, ticketId, updated)))
  }

  /** `closeTicket`: delegates to `updateStatus` with `CLOSED`. */
  function CloseTicket(st: Store, ticketId: int): (r: Result<(TicketDto, Store), ServiceError>)
    ensures r.Failure? <==> ticketId !in st.tickets
    ensures r.Success? ==> r.value.0.status == Closed
  {
    UpdateStatus(st, ticketId, Closed)
  }

  /** A status update keeps the store valid and touches no other ticket. */
  lemma UpdateStatusKeepsStoreValid(st: Store, ticketId: int, status: TicketStatus)
    requires Valid(st) && ticketId in st.tickets
    ensures var after := UpdateStatus(st, ticketId, status).value.1;
      && Valid(after)
      && forall id | id in st.tickets && id != ticketId :: after.tickets[id] == st.tickets[id]
  {
  }

  /** The same for a priority update. */
  lemma UpdatePriorityKeepsStoreValid(st: Store, ticketId: int, priority: TicketPriority)
    requires Valid(st) && ticketId in st.tickets
    ensures var after := UpdatePriority(st, ticketId, priority).value.1;
      && Valid(after)
      && forall id | id in st.tickets && id != ticketId :: after.tickets[id] == st.tickets[id]
  {
  }

  /** There is no transition guard: a closed ticket can be opened again,
      and the result is the ticket as it was, with status `OPEN`. */
  lemma ReopenAfterClose(st: Store, ticketId: int)
    requires ticketId in st.tickets
    ensures var closed := CloseTicket(st, ticketId);
      && closed.Success?
      && var reopened := UpdateStatus(closed.value.1, ticketId, Open);
      && reopened.Success?
      && reopened.value.1.tickets[ticketId] == st.tickets[ticketId].(status := Open)
  {
  }

  /** Closing takes a ticket off the customer's active list but not off the
      full list. */
  lemma ClosedLeavesActiveList(st: Store, ticketId: int)
    requires ticketId in st.tickets
    ensures var after := CloseTicket(st, ticketId).value.1;
      var t := after.tickets[ticketId];
      && TicketToDto(t) in TicketsForCustomer(after, t.customerId)
      && TicketToDto(t) !in ActiveTicketsForCustomer(after, t.customerId)
  {
    var after := CloseTicket(st, ticketId).value.1;
    ActiveIsFilteredFull(after, after.tickets[ticketId].customerId);
  }
}

=== FILE: ticket_tools.dfy ===
/** `TicketTools.createTicket`: the tool the language model may call to open
    a ticket on its own. It looks the customer up, saves one open ticket in
    the category "agent-created" with the subject and description as given,
    and answers with a line of text; an unknown customer gets an error line
    and nothing is saved. Nothing here throws. */
module TicketTools {
  import opened Wrappers
  import opened Text
  import opened JavaNumbers
  import opened Domain
  import opened Store

  const AgentCategory: string := "agent-created"

  /** The check-mark emoji, then the confirmation before the new id. */
  const CreatedPrefix: string := "✅ Ticket created successfully! Ticket ID: "

  /** The cross-mark emoji, then the error before the customer id. */
  const NotFoundPrefix: string := "❌ Error: Customer not found with ID "

  /** `TicketPriority.valueOf(priority.toUpperCase())` inside its
      try/catch: the constant whose name is the upper-cased text, and
      `MEDIUM` when the text is null or names no constant. */
  function ParsePriority(priority: Option<string>): (r: TicketPriority)
    ensures priority.None? ==> r == Medium
    ensures priority.Some? && r != Medium ==> PriorityName(r) == Upper(priority.value)
  {
    match priority
    case None => Medium
    case Some(text) => PriorityNamed(Upper(text)).GetOr(Medium)
  }

  /** Matching ignores case: any spelling whose upper-case form is a
      constant's name selects that constant. */
  lemma ParsePriorityIgnoresCase(text: string, p: TicketPriority)
    requires Upper(text) == PriorityName(p)
    ensures ParsePriority(Some(text)) == p
  {
    PriorityNameRoundTrip(p, Upper(text));
  }

  /** Anything that is not a constant's name, in any case, falls back to
      `MEDIUM`; it is never an error. */
  lemma UnknownPriorityIsMedium(text: string)
    requires forall p: TicketPriority :: Upper(text) != PriorityName(p)
    ensures ParsePriority(Some(text)) == Medium
  {
  }

  /** "urgent" is no priority name, so the ticket is `MEDIUM`. */
  lemma UrgentIsMedium()
    ensures ParsePriority(Some("urgent")) == Medium
  {
    var u := Upper("urgent");
    assert |u| == 6 && u[0] == 'U';
    forall p: TicketPriority
      ensures u != PriorityName(p)
    {
      if p == Medium { assert PriorityName(p)[0] == 'M'; }
    }
    UnknownPriorityIsMedium("urgent");
  }

  /** The ticket the tool saves for a stored customer, before it has an id. */
  function AgentTicket(customerId: int, subject: string, description: string,
                       priority: Option<string>): (t: Ticket)
    ensures t.customerId == customerId && t.status == Open
    ensures t.subject == subject && t.description == description
    ensures t.category == AgentCategory && !t.escalated
  {
    Ticket(0, customerId, subject, description, ParsePriority(priority), AgentCategory, Open, false)
  }

  /** `createTicket`: the reply text and the store after the call. */
  function CreateTicket(st: Store, customerId: int, subject: string, description: string,
                        priority: Option<string>): (r: (string, Store))
    ensures r.1.customers == st.customers
    ensures customerId !in st.customers ==>
      r.1 == st && r.0 == NotFoundPrefix + LongToString(customerId)
    ensures customerId in st.customers ==>
      && r.0 == CreatedPrefix + LongToString(st.nextTicketId)
      && st.nextTicketId in r.1.tickets
      && r.1.tickets == st.tickets[st.nextTicketId := r.1.tickets[st.nextTicketId]]
  {
    match FindCustomer(st, customerId)
    case None => (NotFoundPrefix + LongToString(customerId), st)
    case Some(customer) =>
      var saved := InsertTicket(st, AgentTicket(customerId, subject, description, priority));
      (CreatedPrefix + LongToString(saved.0.id), saved.1)
  }

  /** For a stored customer the call saves exactly one ticket, under a fresh
      id, with the fields as given, and keeps the store valid. */
  lemma CreateTicketSavesOne(st: Store, customerId: int, subject: string, description: string,
                             priority: Option<string>)
    requires Valid(st) && customerId in st.customers
    ensures var after := CreateTicket(st, customerId, subject, description, priority).1;
      && st.nextTicketId !in st.tickets
      && after.tickets.Keys == st.tickets.Keys + {st.nextTicketId}
      && after.tickets[st.nextTicketId]
           == AgentTicket(customerId, subject, description, priority).(id := st.nextTicketId)
      && Valid(after)
  {
    InsertTicketValid(st, AgentTicket(customerId, subject, description, priority));
  }

  /** The id in the reply reads back as the id of the saved ticket. */
  lemma ReplyNamesSavedTicket(st: Store, customerId: int, subject: string, description: string,
                              priority: Option<string>)
    requires customerId in st.customers && IsLong(st.nextTicketId)
    ensures var r := CreateTicket(st, customerId, subject, description, priority);
      && |r.0| >= |CreatedPrefix|
      && r.0[..|CreatedPrefix|] == CreatedPrefix
      && ParseLong(r.0[|CreatedPrefix|..]) == Some(st.nextTicketId)
      && st.nextTicketId in r.1.tickets
  {
    var text := LongToString(st.nextTicketId);
    ParseLongRoundTrip(st.nextTicketId);
    PrefixOfAppend(CreatedPrefix, text);
    assert (CreatedPrefix + text)[|CreatedPrefix|..] == text;
  }

  /** An unknown customer gets the error line naming the id, and the store
      is left as it was. */
  lemma UnknownCustomerSavesNothing(st: Store, customerId: int, subject: string,
                                    description: string, priority: Option<string>)
    requires customerId !in st.customers
    ensures var r := CreateTicket(st, customerId, subject, description, priority);
      && r.1 == st
      && r.0[..|NotFoundPrefix|] == NotFoundPrefix
  {
    PrefixOfAppend(NotFoundPrefix, LongToString(customerId));
  }

  /** The subject is not checked: an empty subject is saved like any other,
      and an unknown priority name does not stop the ticket either. */
  lemma EmptySubjectStillCreates(st: Store, customerId: int, description: string)
    requires Valid(st) && customerId in st.customers
    ensures var after := CreateTicket(st, customerId, "", description, Some("urgent")).1;
      && st.nextTicketId in after.tickets
      && after.tickets[st.nextTicketId].subject == ""
      && after.tickets[st.nextTicketId].priority == Medium
  {
    CreateTicketSavesOne(st, customerId, "", description, Some("urgent"));
    UrgentIsMedium();
  }
}

=== FILE: wrappers.dfy ===
/** Failure-compatible wrappers: Java's nullable references and Optional become
    Option, thrown exceptions become the Failure side of Result. */
module Wrappers {

  datatype Option<+T> = None | Some(value: T) {

    predicate IsFailure() {
      None?
    }

    function PropagateFailure<U>(): Option<U>
      requires None?
    {
      None
    }

    function Extract(): T
      requires Some?
    {
      value
    }

    function GetOr(default: T): T {
      match this
      case Some(v) => v
      case None => default
    }
  }

  datatype Result<+R, +E> = Success(value: R) | Failure(error: E) {

    predicate IsFailure() {
      Failure?
    }

    function PropagateFailure<U>(): Result<U, E>
      requires Failure?
    {
      Failure(error)
    }

    function Extract(): R
      requires Success?
    {
      value
    }
  }
}
